=== FILE: README.md ===
# Argus Agenticus — a Dafny model of the daemon store and the GNOME client core

Argus Agenticus watches AI coding agents (Claude sessions in terminals,
the Cursor editor) and shows one coloured dot per agent session in the GNOME
top bar. Hooks report each session's state to a daemon over a Unix socket. The
daemon keeps the session store, decides the render order and which session to
focus next, and tells the GNOME extension to focus windows or to return to the
workspace the user was on. The extension tracks agent windows, reports which
window has focus and which workspace and monitor each session group lives on,
and reconnects to the daemon when the link drops.

This project models, as pure functions over immutable datatypes:

- **The daemon's session store** (`DaemonState`, from `state.rs`). It covers
  state updates, which demote `completed` to `started` for the focused group.
  It covers the FIFO of awaiting sessions and the auto-focus events that
  updates produce. It covers focus tracking from window titles, stale and
  expired session cleanup, workspace placements, the render list and the
  `focus_next` rotation. Rust's `HashMap` iteration order is a parameter
  `order` that enumerates the keys. The lemmas show that the render list and
  the `focus_next` answer do not depend on it. `update_window_focus` does
  depend on it when several groups match a title.
- **The message dispatcher** (`Handler`, from `handler.rs`). It gives, for
  each incoming message, the new store and the effects: reply, auto-focus
  event, whether the sender is marked as the extension, and whether a render
  is broadcast.
- **The render order** (`SessionOrder`). Rows sort by monitor, then workspace,
  then key, and unknown groups sort as workspace 999 on monitor 0. The model
  shows that sorting gives the one strictly sorted arrangement of the keys.
- **Agent types and classes** (`AgentTypes`, from `constants.js`). This is
  the catalog of WM classes per agent type and the terminal-class setting.
- **Session keys in window titles** (`TitleParse`). These are the three
  regular expressions of `extractSessionKey`, stated as leftmost-match
  predicates and proved to agree with a scanner.
- **The window tracker** (`WindowTracker`). It models the two session maps,
  the tracked and pending windows, and the multiset of live signal
  subscriptions. The invariant says each tracked window holds exactly one
  subscription per signal.
- **The focus manager** (`FocusManager`). It models the window a session
  resolves to and the workspace/window activations it issues. It models the
  auto-focus return workspace and the de-duplicated `session_workspace`
  reports.
- **The daemon link** (`DaemonClient`, from `daemonClient.js`). This is a
  state machine over connects, reads, writes, the reconnect timer,
  cancellation and `stop`. Traces of events produce outputs.
- **The extension's wiring** (`AgentsView`, from `agentsView.js`). It covers
  the reactions to daemon messages, connection changes, settings and
  tracker callbacks.
- **The older single-file extension** (`Monolith`, from
  `argus-agenticus@ivan.dev/extension.js`). Its connect, read, title and
  focus handlers are proved equal to the split extension's link plus view.
  Its unmanaged handler leaves the tracker as the split one does. Its only
  catalog difference (Cursor is matched by `"Cursor"` only) is exhibited by a
  lemma. Several of its functions are the same as the split client's, up to
  which object owns the window/session maps and the send and connect
  callbacks:
  `_extractSessionKey`, `_focusWindow`, `_isOnPrimaryMonitor`,
  `_onAutoFocus`, `_onReturnWorkspace`, `_sendWindowFocus`,
  `_sendWorkspaceForWindow`, `_sendAllWorkspaces`, `_handleMessage`,
  `_getAgentTypeForWindow`, `_isAgentWindow`, `_scheduleReconnect`,
  `_trackWindow` (`WindowTracker.TrackWindow`), `_scanExistingWindows`
  (`WindowTracker.Rescan`), and `_updateTerminalWmClasses` with the settings
  `changed` handler (`AgentTypes.UpdateTerminalWmClasses` and
  `AgentsView.OnSettingChanged`). For example, `_focusWindow` reads
  `this._sessionToWindow` where the split code asks the tracker, and
  `_scheduleReconnect` calls `_connectToDaemon()` where the split code calls
  `start()`. Each is covered by the same member as its twin in the split
  client, whose parameters are the maps and callbacks. These equalities hold
  by reading the two texts side by side and have no lemma of their own.
  `_sendMessage`'s write-failure path, which calls `_onDisconnected`
  directly, is `DaemonClient.Send` followed by `AgentsView.OnDisconnected`,
  and also has no lemma of its own.

The desktop is abstract (`Desktop`). Windows are identifiers with a total
attribute function: class, title, workspace and monitor. Effects on the
desktop are a list of `ActivateWorkspace(i)` / `ActivateWindow(w)` commands.
Messages to the daemon are `Protocol.IncomingMessage` values. Clocks are a
`now` parameter in milliseconds.

Where the handlers disagree with `protocol.rs` or with the tests, the model
follows the handlers:

- `protocol.rs:72` gives the `focus` reply an `agent_type` field, but
  `handler.rs:47` and `handler.rs:57` build it from the session alone. The
  modelled reply carries only the session.
- `protocol.rs:48-52` declares `clear_agents`, `mark_all_started` and
  `window_closed`, and `tests/handler_report.rs:128-191` expects them to be
  handled. `handler.rs` has no arms for them. Their store operations are
  modelled, but the dispatcher does not route to them.
- `tests/gnome-extension/test_cursor_ide_workspace.py:9-35` expects titles of
  the form `file — project — Cursor` to yield the project. The
  `extractSessionKey` code has no em-dash rule, so they yield no session key.
- `tests/gnome-extension/test_window_unmanaged.py:9-48` expects the split
  tracker's `onWindowUnmanaged` callback to be wired and to notify the daemon.
  `agentsView.js` never assigns it, so an unmanaged window causes no reaction
  there.

## Model

| member | source | states |
|---|---|---|
| DaemonState.New | src/daemon/src/state.rs:45-57 | A fresh store (no sessions, empty queue, focus delay 1000 ms) satisfies the store invariant. |
| DaemonState.UpdateState | src/daemon/src/state.rs:59-111 | Reporting a state inserts or overwrites only that session's record. The record holds the reported state, except that `completed` is stored as `started` when the session's group has focus. It holds an end time exactly when the state is `ended`, and activity time `now`. Auto-focus-active is cleared exactly when `QueueEmpty` is returned. Nothing else in the store changes. |
| DaemonState.StoredStateDemotes | src/daemon/src/state.rs:68-74 | Only `completed` is rewritten, and it becomes `started` exactly when the session's group is the focused group. |
| DaemonState.UpdateStateQueue | src/daemon/src/state.rs:87-110 | Entering `awaiting` appends the session once and triggers auto-focus. Leaving `awaiting` or ending removes it from the queue. Then `QueueEmpty` is returned exactly when the queue became empty while auto-focus was active, and otherwise `Trigger` exactly when the session left `awaiting`. Any other update leaves the queue alone and returns no event. |
| DaemonState.QueueAfter | src/daemon/src/state.rs:87-110 | Every session other than the updated one keeps its queue membership. A session that becomes awaiting is queued, and one that leaves awaiting or ends is not. A duplicate-free queue stays duplicate-free. An update that neither enters nor leaves awaiting nor ends keeps the queue and raises no event. |
| DaemonState.UpdateStatePreservesValid | src/daemon/src/state.rs:59-111 | After any state report the queue still lists exactly the awaiting sessions, without duplicates, and end times still match `ended`. |
| DaemonState.FocusCandidate | src/daemon/src/state.rs:114-125 | The focused group is the group of a session whose group occurs in the title. Failing that, it is the group of a session with the given non-empty agent type. If any group occurs in the title, the answer occurs in the title. There is no focused group exactly when no session matches either way. |
| DaemonState.GroupInTitle | src/daemon/src/state.rs:114-118 | A group is found exactly when the group of some session occurs in the title, and the group found is such a group. |
| DaemonState.GroupOfType | src/daemon/src/state.rs:119-124 | A group is found exactly when some session has the given agent type, and the group found belongs to such a session. |
| DaemonState.DemoteGroup | src/daemon/src/state.rs:130-138 | Exactly the `completed` sessions of the newly focused group become `started`. Every other record is unchanged and no session is added or removed. |
| DaemonState.UpdateWindowFocus | src/daemon/src/state.rs:113-141 | Stores the focus candidate as the focused group and demotes its completed sessions. It reports a change exactly when the focused group differs from before, and touches nothing else. |
| DaemonState.UpdateWindowFocusPreservesValid | src/daemon/src/state.rs:113-141 | A window focus keeps the store invariant. |
| DaemonState.RemoveSession | src/daemon/src/state.rs:143-147 | Removing a session drops it from the records, the queue and the placement map. It reports whether it existed and keeps the other records and the invariant. |
| DaemonState.MarkStale | src/daemon/src/state.rs:160-171 | Exactly the stale sessions are marked `ended` at `now`. A stale session is unended, not of type `claude`, `started`, idle for at least 30 s, and outside the focused group. |
| DaemonState.DropExpired | src/daemon/src/state.rs:173-179 | Keeps exactly the sessions that are unended or ended less than 10 s ago, with their records unchanged. |
| DaemonState.CleanupEnded | src/daemon/src/state.rs:156-182 | After cleanup the store holds exactly the sessions not yet expired, with stale ones marked ended now. Unended sessions are never dropped, and nothing outside the records changes. |
| DaemonState.CleanupEndedChanged | src/daemon/src/state.rs:181 | Cleanup reports a change exactly when some session went stale or expired. |
| DaemonState.CleanupEndedPreservesValid | src/daemon/src/state.rs:156-182 | Cleanup keeps the store invariant. |
| DaemonState.UpdateWorkspace | src/daemon/src/state.rs:184-187 | The session's group now has the reported placement. Every other group keeps its placement, nothing else changes, and the invariant holds. |
| DaemonState.SetIdle | src/daemon/src/state.rs:193-195 | Records the user's idle flag and nothing else. |
| DaemonState.SetAutoFocusConfig | src/daemon/src/state.rs:197-200 | Records the enabled flag and focus delay and nothing else. |
| DaemonState.ShouldAutoFocus | src/daemon/src/state.rs:202-204 | In a valid store, auto-focus is due exactly when it is enabled, the user is idle and some session is awaiting. |
| DaemonState.NextAwaiting | src/daemon/src/state.rs:210-216 | Returns the head of the awaiting queue, which in a valid store is an awaiting session, and sets auto-focus active. With an empty queue it returns none and changes nothing. |
| DaemonState.ClearAll | src/daemon/src/state.rs:218-224 | Empties sessions, placements and queue and resets focus. The auto-focus settings, idle flag and active flag survive. |
| DaemonState.MarkAllStarted | src/daemon/src/state.rs:226-233 | Every awaiting session becomes `started`, no session remains awaiting, the queue is empty, and other records are unchanged. |
| DaemonState.GetRenderData | src/daemon/src/state.rs:235-267 | The render list has one row per session, sorted by (monitor, workspace, key). Each row carries its session's state and type and is focused iff its group is. Group numbers start at 0 and go up by one exactly where the group changes. |
| DaemonState.BuildRows | src/daemon/src/state.rs:243-266 | Walking the sorted keys yields one row per key in the same order. Each row shows its session as stored. The group counter starts at 0 and goes up by one exactly where the group changes. |
| DaemonState.RowsMakeRender | src/daemon/src/state.rs:235-267 | Rows built over the strictly sorted list of every session key form a render list of the whole table. |
| DaemonState.GroupNumberingSnoc | src/daemon/src/state.rs:244-255 | Appending a row numbered as the loop numbers it keeps the group numbering. |
| DaemonState.RenderUnique | src/daemon/src/state.rs:235-267 | There is only one list meeting the render specification, so the render list does not depend on hash-map iteration order. |
| DaemonState.Matching | src/daemon/src/state.rs:271-286 | The candidates for a priority state are exactly the sessions in that state, strictly sorted by (monitor, workspace, key). |
| DaemonState.MatchingEmpty | src/daemon/src/state.rs:278-280 | The candidate list is empty exactly when no session is in that state. |
| DaemonState.Pick | src/daemon/src/state.rs:288-289 | Advances the rotation index modulo the number of candidates and returns the candidate at the new index, a session in the requested state. |
| DaemonState.FocusNextFrom | src/daemon/src/state.rs:270-291 | Picks from the first priority state that has sessions. It answers none, without change, exactly when no listed state has a session. |
| DaemonState.FocusNext | src/daemon/src/state.rs:269-292 | `focus_next` answers none exactly when no session is awaiting, completed or started. Otherwise it picks from the most urgent non-empty class, in the order awaiting, completed, started. |
| DaemonState.FocusNextIgnoresEnumeration | src/daemon/src/state.rs:269-292 | The answer and new rotation index are the same for every iteration order of the session map. |
| DaemonState.FocusNextRotates | src/daemon/src/state.rs:288-289 | Two consecutive `focus_next` calls, with the store unchanged in between, visit consecutive candidates (cyclically) of the same class. |
| Text.BeforeFirst | src/daemon/src/state.rs:294-296 | The group of a key is its longest prefix without `#`, which ends at the first `#` if there is one. |
| Text.StrLessTotal | src/daemon/src/state.rs:240 | The key tiebreak orders any two distinct keys one way or the other. |
| Text.StrLessTransitive | src/daemon/src/state.rs:240 | The key tiebreak is transitive. |
| SessionOrder.BeforeTransitive | src/daemon/src/state.rs:237-241 | The render comparator is transitive. |
| SessionOrder.BeforeTotal | src/daemon/src/state.rs:237-241 | The render comparator orders any two distinct keys. |
| SessionOrder.Sort | src/daemon/src/state.rs:236-241 | Sorting returns the same keys, strictly ordered by the render comparator. |
| SessionOrder.SortedUnique | src/daemon/src/state.rs:236-241 | Two strictly sorted lists of the same keys are equal. |
| SessionOrder.SortIgnoresEnumeration | src/daemon/src/state.rs:236-241 | Sorting gives the same list for every enumeration of the same keys. |
| Handler.Process | src/daemon/src/handler.rs:17-75 | Each message kind updates the store with its own operation. It broadcasts a render for state, focus and workspace messages. It marks the sender as the extension for window-focus, idle and config messages, and triggers auto-focus for idle and config messages. It replies `focus` to a click with the clicked session, and to `focus_next` exactly when `focus_next` found a session. |
| Handler.ProcessPreservesValid | src/daemon/src/handler.rs:17-75 | No message breaks the store invariant. |
| Handler.FocusReplyNamesSession | src/daemon/src/handler.rs:54-59 | `focus_next` replies exactly when some session is awaiting, completed or started, and the reply names an existing session of the most urgent such class. |
| AgentTypes.TypeNamed | src/clients/gnome/argus-agenticus@darkwing4.dev/focusManager.js:21-22 | Looking a group name up in the agent-type table succeeds only for a type of that name. It fails exactly when no type has that name. |
| AgentTypes.TypeNamedRoundTrip | src/clients/gnome/argus-agenticus@darkwing4.dev/constants.js:1-10 | Every agent type is found under its own name. |
| AgentTypes.Initial | src/clients/gnome/argus-agenticus@darkwing4.dev/constants.js:1-12 | The starting catalog has no terminal classes, Cursor's classes, and the list of all classes equal to Cursor's. |
| AgentTypes.UpdateTerminalWmClasses | src/clients/gnome/argus-agenticus@darkwing4.dev/constants.js:14-17 | Replacing the terminal classes keeps Cursor's and rebuilds the list of all classes as their union. |
| AgentTypes.UpdateLastWins | src/clients/gnome/argus-agenticus@darkwing4.dev/constants.js:14-17 | Two successive class updates leave the catalog as the last one alone would. |
| AgentTypes.AgentTypeFor | src/clients/gnome/argus-agenticus@darkwing4.dev/windowTracker.js:98-105 | A class is `claude` iff it contains a terminal class. It is `cursor` iff it contains a Cursor class and no terminal class. It has no type iff it contains no class of any type. |
| AgentTypes.IsAgentClass | src/clients/gnome/argus-agenticus@darkwing4.dev/windowTracker.js:93-96 | A WM class belongs to an agent window exactly when some class of the flattened list occurs in it at some index. |
| AgentTypes.AgentIffTyped | src/clients/gnome/argus-agenticus@darkwing4.dev/windowTracker.js:93-96 | In a consistent catalog a window class is an agent class exactly when it has an agent type. |
| Text.ContainsIffOccurs | src/clients/gnome/argus-agenticus@darkwing4.dev/windowTracker.js:95 | Substring search succeeds exactly when the needle occurs at some index. |
| Text.OccursShift | src/clients/gnome/argus-agenticus@darkwing4.dev/windowTracker.js:95 | When the needle is not a prefix, it occurs in the text exactly when it occurs in the text without its first character. |
| Text.Trim | src/clients/gnome/argus-agenticus@darkwing4.dev/windowTracker.js:89 | The trimmed text is a slice of the input with only white space cut from both ends. It neither starts nor ends with white space, and it is empty exactly when the input is all white space. |
| Text.TrimIgnoresTrailingSpace | src/clients/gnome/argus-agenticus@darkwing4.dev/windowTracker.js:88-89 | Trailing white space before the bar does not change the extracted key. |
| TitleParse.ParenFrom | src/clients/gnome/argus-agenticus@darkwing4.dev/windowTracker.js:84-87 | The scanner finds the leftmost `marker (…)` match from a position on, capturing up to the first `)`. It fails exactly when there is none. |
| TitleParse.ParenRule | src/clients/gnome/argus-agenticus@darkwing4.dev/windowTracker.js:84-87 | The `Argus (…)` / `Zellij (…)` rule fails exactly when the title has no such match. Otherwise it returns the capture of the leftmost match. |
| TitleParse.ParenMatchUnique | src/clients/gnome/argus-agenticus@darkwing4.dev/windowTracker.js:84-87 | The leftmost match is unique, so the capture is well defined. |
| TitleParse.ParenCaptureShape | src/clients/gnome/argus-agenticus@darkwing4.dev/windowTracker.js:84-87 | A captured key is non-empty and contains no `)`. |
| TitleParse.LeftmostParenExists | src/clients/gnome/argus-agenticus@darkwing4.dev/windowTracker.js:84-87 | Whenever the rule succeeds, a leftmost match exists. |
| TitleParse.PipeRule | src/clients/gnome/argus-agenticus@darkwing4.dev/windowTracker.js:88-89 | The key-before-bar rule succeeds exactly when the first vertical bar is not at the start, and returns the trimmed text before it. |
| TitleParse.LazyEnd | src/clients/gnome/argus-agenticus@darkwing4.dev/windowTracker.js:88 | The lazy group ends at the first position from which only white space precedes the bar. |
| TitleParse.PipeRuleIsLazyCapture | src/clients/gnome/argus-agenticus@darkwing4.dev/windowTracker.js:88-89 | The pipe rule succeeds exactly when the anchored lazy pattern (non-bar characters, optional white space, a bar) matches, and it returns the trim of what the lazy group captures. |
| TitleParse.ExtractSessionKey | src/clients/gnome/argus-agenticus@darkwing4.dev/windowTracker.js:83-91 | The `Argus (…)` capture wins. Without one, the `Zellij (…)` capture is taken. Without either, the trimmed text before a first vertical bar that is not at the start is taken. There is no key exactly when none of the three applies. |
| TitleParse.HookTitle | src/clients/gnome/argus-agenticus@darkwing4.dev/windowTracker.js:84-85 | `Argus (proj#1)` yields `proj#1`. |
| TitleParse.ZellijTitle | src/clients/gnome/argus-agenticus@darkwing4.dev/windowTracker.js:86-87 | `Zellij (work#2)` yields `work#2`. |
| TitleParse.BarTitle | src/clients/gnome/argus-agenticus@darkwing4.dev/windowTracker.js:88-89 | The title `proj#1`, a bar, then `file.py` yields `proj#1`. |
| TitleParse.PipeFallback | src/clients/gnome/argus-agenticus@darkwing4.dev/windowTracker.js:84-90 | When neither parenthesised pattern matches and the first bar is not at the start, the key is the trimmed text before that bar. |
| TitleParse.EditorTitleHasNoKey | src/clients/gnome/argus-agenticus@darkwing4.dev/windowTracker.js:83-91 | An editor title joined by em dashes yields no key. |
| TitleParse.BlankBeforeBar | src/clients/gnome/argus-agenticus@darkwing4.dev/windowTracker.js:88-89 | A title of only blanks before the bar yields the empty key, which the callers treat as no key. |
| WindowTracker.EmptyValid | src/clients/gnome/argus-agenticus@darkwing4.dev/windowTracker.js:5-19 | A new tracker, with no windows and no subscriptions, satisfies the tracker invariant. |
| WindowTracker.IsAgentWindow | src/clients/gnome/argus-agenticus@darkwing4.dev/windowTracker.js:93-96 | With a consistent catalog, a window is an agent window exactly when `getAgentTypeForWindow` finds a type for it. |
| WindowTracker.AgentTypeForWindow | src/clients/gnome/argus-agenticus@darkwing4.dev/windowTracker.js:98-105 | The type found has a class occurring in the window's class. The terminal type wins whenever one of its classes occurs. No type is found exactly when no type has such a class. |
| WindowTracker.WindowForSession | src/clients/gnome/argus-agenticus@darkwing4.dev/windowTracker.js:75-77 | A session maps to a window exactly when it was bound to one. |
| WindowTracker.SessionForWindow | src/clients/gnome/argus-agenticus@darkwing4.dev/windowTracker.js:79-81 | A window yields a session exactly when it is bound to a non-empty key. |
| WindowTracker.TrackWindow | src/clients/gnome/argus-agenticus@darkwing4.dev/windowTracker.js:112-154 | A window without a class is parked and subscribed once to class changes. A non-agent or already tracked window is ignored. An untracked agent window gains exactly its workspace, title and unmanaged subscriptions. The session maps are untouched. |
| WindowTracker.TrackWindowPreservesValid | src/clients/gnome/argus-agenticus@darkwing4.dev/windowTracker.js:112-154 | Tracking keeps exactly one subscription per signal for each tracked window, and one class subscription per pending window. |
| WindowTracker.TrackWindowIdempotent | src/clients/gnome/argus-agenticus@darkwing4.dev/windowTracker.js:113-126 | Tracking the same window twice is the same as tracking it once. |
| WindowTracker.TrackAll | src/clients/gnome/argus-agenticus@darkwing4.dev/windowTracker.js:107-110 | After a scan every listed agent window with a class is tracked, and every listed class-less window is pending. Only listed agent windows are newly tracked, and the invariant holds. |
| WindowTracker.Rescan | src/clients/gnome/argus-agenticus@darkwing4.dev/windowTracker.js:107-110 | A rescan tracks every agent window on the desktop and keeps the invariant. |
| WindowTracker.OnWmClassChanged | src/clients/gnome/argus-agenticus@darkwing4.dev/windowTracker.js:116-120 | A class change on a pending window drops its class subscription and pending mark, then tracks it afresh. Without a subscription it does nothing. |
| WindowTracker.OnTitleChanged | src/clients/gnome/argus-agenticus@darkwing4.dev/windowTracker.js:132-140 | A retitle whose key is non-empty binds the window and the key in both maps and announces the tracked window. Otherwise it changes nothing. |
| WindowTracker.OnTitleChangedPreservesValid | src/clients/gnome/argus-agenticus@darkwing4.dev/windowTracker.js:132-140 | A retitle keeps the tracker invariant. |
| WindowTracker.OnUnmanaged | src/clients/gnome/argus-agenticus@darkwing4.dev/windowTracker.js:142-151 | Closing a tracked window removes its three subscriptions and its tracked mark and entry. It removes its session's reverse entry and announces it only if the session is non-empty. The pending set is untouched. |
| WindowTracker.OnUnmanagedPreservesValid | src/clients/gnome/argus-agenticus@darkwing4.dev/windowTracker.js:142-151 | Closing keeps the invariant and leaves the window with no subscription, except a class subscription while it is pending. |
| WindowTracker.OnWorkspaceChangedSignal | src/clients/gnome/argus-agenticus@darkwing4.dev/windowTracker.js:128-130 | In a valid tracker a workspace change is announced exactly for tracked windows. |
| WindowTracker.RetitleLeavesOldEntry | src/clients/gnome/argus-agenticus@darkwing4.dev/windowTracker.js:136-137 | Retitling a bound window to a new key leaves the old key still mapped to the window. |
| WindowTracker.UnmanagedDropsReboundKey | src/clients/gnome/argus-agenticus@darkwing4.dev/windowTracker.js:147 | Closing a window deletes its key's reverse entry even when that key has since been bound to another window. |
| FocusManager.Resolve | src/clients/gnome/argus-agenticus@darkwing4.dev/focusManager.js:11-45 | A session resolves to its mapped window if it has one. Otherwise it resolves to the first desktop window matching its group: by the type's classes for `claude`/`cursor`, else by an agent window whose title contains the group. There is no window exactly when neither exists. |
| FocusManager.Activation | src/clients/gnome/argus-agenticus@darkwing4.dev/focusManager.js:36-43 | Activating a window ends with the window itself. It is preceded by its workspace exactly when the window is on the primary monitor and has a workspace. |
| FocusManager.FocusScan | src/clients/gnome/argus-agenticus@darkwing4.dev/focusManager.js:24-45 | The scan activates the first matching window and issues nothing if none matches. |
| FocusManager.FocusWindow | src/clients/gnome/argus-agenticus@darkwing4.dev/focusManager.js:11-46 | Focusing a session activates the window it resolves to, and does nothing when it resolves to none. |
| FocusManager.FocusWindowOrder | src/clients/gnome/argus-agenticus@darkwing4.dev/focusManager.js:11-46 | Focus issues commands exactly when the session resolves, and the window activation comes last. A workspace activation comes only first, only for that window's workspace, and only on the primary monitor. |
| FocusManager.PrimaryScan | src/clients/gnome/argus-agenticus@darkwing4.dev/focusManager.js:57-69 | The scan answers for the first matching window and answers true when none matches. |
| FocusManager.IsOnPrimaryMonitor | src/clients/gnome/argus-agenticus@darkwing4.dev/focusManager.js:48-70 | A session counts as on the primary monitor exactly when it resolves to no window or its window is on the primary monitor. |
| FocusManager.HandleAutoFocus | src/clients/gnome/argus-agenticus@darkwing4.dev/focusManager.js:72-77 | Auto-focus focuses the session. It remembers the active workspace only if none is remembered and the session is on the primary monitor. |
| FocusManager.ReturnWorkspace | src/clients/gnome/argus-agenticus@darkwing4.dev/focusManager.js:79-87 | Returning activates the remembered workspace if it still exists, and then forgets it. |
| FocusManager.AutoFocusThenReturn | src/clients/gnome/argus-agenticus@darkwing4.dev/focusManager.js:72-87 | Auto-focus on the primary monitor followed by a return brings the user back to the workspace active before it, and restores the focuser. |
| FocusManager.AutoFocusKeepsFirstCapture | src/clients/gnome/argus-agenticus@darkwing4.dev/focusManager.js:73-75 | Once a workspace is remembered, further auto-focuses never replace it. |
| FocusManager.HasAwaiting | src/clients/gnome/argus-agenticus@darkwing4.dev/focusManager.js:96-104 | The check succeeds exactly when some listed agent is awaiting and its group matches the window, by type classes or title. |
| FocusManager.UpdateOriginalWorkspace | src/clients/gnome/argus-agenticus@darkwing4.dev/focusManager.js:89-110 | A remembered workspace is forgotten exactly when the newly focused window is not an agent window or matches no awaiting agent. Otherwise it is kept, and nothing is remembered anew. |
| FocusManager.SendWindowFocus | src/clients/gnome/argus-agenticus@darkwing4.dev/focusManager.js:112-124 | A focused non-agent window is reported with an empty title. An agent window is reported by its bound session, else its title. No focused window is not reported. |
| FocusManager.RetitledFocusNamesKey | src/clients/gnome/argus-agenticus@darkwing4.dev/focusManager.js:121-123 | Once an agent window's new title yields a key, the window's focus report carries that key, whatever the window was bound to before. |
| FocusManager.UnboundFocusIsTitle | src/clients/gnome/argus-agenticus@darkwing4.dev/focusManager.js:116-123 | A window the tracker has not bound is reported by its raw title if it is an agent window, and by `''` otherwise. |
| FocusManager.GroupName | src/clients/gnome/argus-agenticus@darkwing4.dev/focusManager.js:132-134 | With a key, the reported group is the key's part before `#`, or the whole key when that part is empty. Without a key it is the window title. |
| FocusManager.ReportGroup | src/clients/gnome/argus-agenticus@darkwing4.dev/focusManager.js:127-135 | Only agent windows with a non-empty group name are reported. |
| FocusManager.SendWorkspaceForWindow | src/clients/gnome/argus-agenticus@darkwing4.dev/focusManager.js:126-147 | A window's placement is sent, and cached under its group, exactly when it is a reportable agent window whose placement differs from the cached one. Otherwise nothing is sent and nothing changes. |
| FocusManager.SendWorkspaceIdempotent | src/clients/gnome/argus-agenticus@darkwing4.dev/focusManager.js:141-143 | Reporting the same window again, with nothing moved, sends nothing. |
| FocusManager.ResetWorkspaceCache | src/clients/gnome/argus-agenticus@darkwing4.dev/focusManager.js:156-158 | Clearing empties the placement cache and keeps the remembered workspace. |
| FocusManager.ResetReportsAgain | src/clients/gnome/argus-agenticus@darkwing4.dev/focusManager.js:141-158 | After a cache reset every reportable window is reported again. |
| FocusManager.SendAll | src/clients/gnome/argus-agenticus@darkwing4.dev/focusManager.js:149-154 | Reporting a list of windows caches the group of every reportable window in it. Every newly cached group was sent in a `session_workspace` message, and only such messages are sent. |
| FocusManager.SendAllWorkspaces | src/clients/gnome/argus-agenticus@darkwing4.dev/focusManager.js:149-154 | Reporting all windows sends only `session_workspace` messages and keeps the remembered workspace. |
| FocusManager.ResetThenSendAllCoversEveryGroup | src/clients/gnome/argus-agenticus@darkwing4.dev/focusManager.js:149-158 | After a reset, reporting all windows sends a placement for the group of every reportable window on the desktop. |
| DaemonClient.ScheduleReconnect | src/clients/gnome/argus-agenticus@darkwing4.dev/daemonClient.js:81-90 | A reconnect timer is armed only when none is armed and the link is not cancelled, so at most one timer is ever live. |
| DaemonClient.HandleDisconnect | src/clients/gnome/argus-agenticus@darkwing4.dev/daemonClient.js:114-120 | A disconnect drops the connection and emits `disconnected` once. It leaves a timer armed unless cancelled. |
| DaemonClient.ReadLoop | src/clients/gnome/argus-agenticus@darkwing4.dev/daemonClient.js:92-96 | A read is issued only on an open, uncancelled link. |
| DaemonClient.Start | src/clients/gnome/argus-agenticus@darkwing4.dev/daemonClient.js:23-31 | A connect attempt is issued unless the link is cancelled. |
| DaemonClient.ConnectFinished | src/clients/gnome/argus-agenticus@darkwing4.dev/daemonClient.js:31-46 | A successful uncancelled connect opens the link, emits `connected` and starts reading. A failure or cancelled completion emits nothing and schedules a reconnect, which is inert once cancelled. |
| DaemonClient.ReadFinished | src/clients/gnome/argus-agenticus@darkwing4.dev/daemonClient.js:96-111 | A line is emitted and the next read issued. End of stream or an error is a disconnect. After cancellation a completion is silent. |
| DaemonClient.TimerFired | src/clients/gnome/argus-agenticus@darkwing4.dev/daemonClient.js:85-89 | The reconnect timer disarms itself and starts a connect attempt. |
| DaemonClient.Send | src/clients/gnome/argus-agenticus@darkwing4.dev/daemonClient.js:49-60 | A message is written with a trailing newline only on an open link. A failed write is a disconnect, and a closed link drops the message. |
| DaemonClient.StopLink | src/clients/gnome/argus-agenticus@darkwing4.dev/daemonClient.js:62-75 | Stopping removes an armed timer and closes the connection. Outstanding operations are left alone. |
| DaemonClient.StepKeepsInv | src/clients/gnome/argus-agenticus@darkwing4.dev/daemonClient.js:81-90 | Every event keeps the count of live timers equal to the armed flag. |
| DaemonClient.AtMostOneTimer | src/clients/gnome/argus-agenticus@darkwing4.dev/daemonClient.js:81-90 | Over any sequence of events at most one reconnect timer is live. |
| DaemonClient.StepKeepsPhase | src/clients/gnome/argus-agenticus@darkwing4.dev/daemonClient.js:23-120 | An uncancelled link that is in one phase stays in one phase or becomes cancelled under any single event other than stop or a failed write, provided it is enabled only when idle. The phases are idle, connecting, open with one read outstanding, and waiting on the timer. |
| DaemonClient.EnableThenConnect | src/clients/gnome/argus-agenticus@darkwing4.dev/daemonClient.js:31-41 | Starting and connecting successfully emits `connected` and leaves the link open and reading. |
| DaemonClient.WriteFailureIsEof | src/clients/gnome/argus-agenticus@darkwing4.dev/daemonClient.js:57-59 | A failed write has the same effect as the peer closing the stream, except that the outstanding read remains. |
| DaemonClient.CancelledStepInert | src/clients/gnome/argus-agenticus@darkwing4.dev/daemonClient.js:24-25 | After cancellation no event emits `connected` or a message, and no new operation or timer is started. |
| DaemonClient.CancelledRunInert | src/clients/gnome/argus-agenticus@darkwing4.dev/daemonClient.js:43-44 | After cancellation no sequence of events ever emits `connected` or a message, and outstanding operations only drain. |
| DaemonClient.StopSilent | src/clients/gnome/argus-agenticus@darkwing4.dev/daemonClient.js:62-75 | Stopping emits nothing and leaves no connection and no live timer. |
| DaemonClient.TeardownSilent | src/clients/gnome/argus-agenticus@darkwing4.dev/agentsView.js:303-316 | Cancelling and then stopping, as the extension's teardown does, silences the link for good. |
| DaemonClient.QuietStaysQuiet | src/clients/gnome/argus-agenticus@darkwing4.dev/daemonClient.js:62-75 | A cancelled, stopped link with no live timer emits nothing whatever happens next. |
| DaemonClient.WriteFailureDisconnectsTwice | src/clients/gnome/argus-agenticus@darkwing4.dev/daemonClient.js:57-59 | A failed write followed by the outstanding read's end of stream emits `disconnected` twice. |
| DaemonClient.StaleEofDropsNewConnection | src/clients/gnome/argus-agenticus@darkwing4.dev/daemonClient.js:100-103 | After a failed write and a reconnect, the old read's end of stream tears down the new connection. |
| AgentsView.HandleMessage | src/clients/gnome/argus-agenticus@darkwing4.dev/agentsView.js:270-287 | `render` replaces the agent list. `focus` focuses the session's window, `auto_focus` runs auto-focus, and `return_workspace` returns. A malformed or unknown message is ignored. No message is sent back. |
| AgentsView.OnlyRenderChangesAgents | src/clients/gnome/argus-agenticus@darkwing4.dev/agentsView.js:274-276 | Only `render` changes the agent list, and only the focuser and the list ever change. |
| AgentsView.AutoFocusConfigOf | src/clients/gnome/argus-agenticus@darkwing4.dev/agentsView.js:252-258 | The config message carries the current enabled flag and focus delay. |
| AgentsView.OnFocusWindowChanged | src/clients/gnome/argus-agenticus@darkwing4.dev/agentsView.js:260-268 | A focus change reports the focused window, then its placement if new, then updates the remembered workspace. With no focused window it does nothing. |
| AgentsView.OnConnected | src/clients/gnome/argus-agenticus@darkwing4.dev/agentsView.js:207-214 | On connecting the extension re-reports focus and placements and ends with its auto-focus config. It changes only the focuser, as a focus change would. |
| AgentsView.ConnectReportsEveryGroup | src/clients/gnome/argus-agenticus@darkwing4.dev/agentsView.js:210-212 | Every reportable window's group is sent to a freshly connected daemon. |
| AgentsView.OnDisconnected | src/clients/gnome/argus-agenticus@darkwing4.dev/agentsView.js:217-224 | Disconnecting clears the agent list and nothing else. |
| AgentsView.OnSettingChanged | src/clients/gnome/argus-agenticus@darkwing4.dev/agentsView.js:162-196 | A terminal-class change updates the catalog and rescans. An auto-focus or delay change records it and sends the new config. Other settings are display-only and change no modelled state. |
| AgentsView.TerminalClassesRetrack | src/clients/gnome/argus-agenticus@darkwing4.dev/agentsView.js:164-167 | After adding a terminal class, every open window of that class is tracked. |
| AgentsView.OnCallback | src/clients/gnome/argus-agenticus@darkwing4.dev/agentsView.js:227-245 | Focus changes, monitor moves and newly tracked windows report placements. A workspace change reports all placements and then the focus. Unmanaged windows cause nothing. |
| AgentsView.OnTrackerEvents | src/clients/gnome/argus-agenticus@darkwing4.dev/agentsView.js:227-245 | Tracker events never activate windows. They change nothing in the view but the focuser. They keep the remembered return workspace. They send only placement and focus reports. |
| AgentsView.OnTitle | src/clients/gnome/argus-agenticus@darkwing4.dev/agentsView.js:230-232 | A title change updates the tracker as the tracker prescribes and issues no command. |
| AgentsView.TitleReportsPlacement | src/clients/gnome/argus-agenticus@darkwing4.dev/agentsView.js:230-232 | A retitle revealing a key whose group has no cached placement sends exactly that group's placement. |
| AgentsView.RetitledGroup | src/clients/gnome/argus-agenticus@darkwing4.dev/windowTracker.js:132-140 | After a retitle that yields a key, an agent window is reported under that key's group. |
| AgentsView.OneTrackerEvent | src/clients/gnome/argus-agenticus@darkwing4.dev/agentsView.js:227-245 | A single tracker event sends exactly what its one callback sends. |
| Monolith.LowerCaseEditorClass | src/clients/gnome/argus-agenticus@ivan.dev/extension.js:11-22 | The class `cursor` counts as an agent in the split extension but not in the older one, whose Cursor classes are only `Cursor`. |
| Monolith.OnFocusWindowChanged | src/clients/gnome/argus-agenticus@ivan.dev/extension.js:430-459 | A remembered workspace is forgotten exactly when the focused window is not an agent window or matches no awaiting agent. Only the focuser changes. |
| Monolith.FocusChangeMatchesSplit | src/clients/gnome/argus-agenticus@ivan.dev/extension.js:430-459 | The older focus handler behaves exactly as the split one. |
| Monolith.OnDisconnected | src/clients/gnome/argus-agenticus@ivan.dev/extension.js:285-292 | Disconnecting drops the connection, clears the agents and keeps at most one reconnect timer. |
| Monolith.ConnectDone | src/clients/gnome/argus-agenticus@ivan.dev/extension.js:231-249 | A successful connect opens the link and ends with the auto-focus config. A failed one sends nothing and leaves the view alone. |
| Monolith.ConnectMatchesSplit | src/clients/gnome/argus-agenticus@ivan.dev/extension.js:223-250 | The older connect handler is the split link's connect followed by the split view's connected reaction. |
| Monolith.ReadDone | src/clients/gnome/argus-agenticus@ivan.dev/extension.js:263-283 | A finished read sends nothing. With a read outstanding and the link not cancelled, end of stream or an error disconnects and clears the agents, even when the read belongs to an earlier connection. With no read outstanding, or after cancellation, a completion leaves the view alone and issues no command. |
| Monolith.ReadMatchesSplit | src/clients/gnome/argus-agenticus@ivan.dev/extension.js:263-292 | The older read handler is the split link's read followed by the split view's reaction to its output. |
| Monolith.OnTitle | src/clients/gnome/argus-agenticus@ivan.dev/extension.js:409-417 | A title change updates the tracker maps as the split tracker does and sends at most one placement. |
| Monolith.TitleMatchesSplit | src/clients/gnome/argus-agenticus@ivan.dev/extension.js:409-417 | The older title handler behaves exactly as the split tracker plus view. |
| Monolith.OnUnmanaged | src/clients/gnome/argus-agenticus@ivan.dev/extension.js:418-426 | The older unmanaged handler leaves the tracker exactly as the split one does. |

## Left out

- Rendering (`renderer.js`, dot styling, menu, labels): presentation only, with no state the core reads back.
- `idleMonitor.js`: its idle and active events are the `IdleStatus` messages the daemon model already takes as input.
- The daemon's socket server, connection tasks, broadcast, auto-focus timer and `main`: asynchronous I/O. `Handler.Process` returns the effects they act on.
- JSON encoding and decoding: a parsed message is a parameter (`AgentsView.Parsed`), and sends are message values.
- Handler.Process: `handler.rs:30-33` passes only the title to `update_window_focus`, while `state.rs:113` also takes an agent type, so that call does not type-check as written (nor does the call in `tests/state_report.rs`). The model passes `Some` of the message's `agent_type` field, whose default is `""` (`protocol.rs:28-29`). An empty type is filtered out as no type. A non-empty `agent_type` therefore selects a group by type in the model, where a title-only call would ignore it.
- The `clear_agents` and `mark_all_started` menu actions (`agentsView.js:79-84`): `handler.rs` has no arm for them. The store operations themselves are modelled.
- `alloc_tracker.rs`, `get_agent_type`, `focus_delay_ms` getter and the `force_*` test helpers: diagnostics and test hooks with no behaviour of their own.
- Integer widths (`u32` workspaces and monitors, `u64` delay, the `u32` group counter): values are unbounded naturals. The counter never exceeds the number of sessions.
- A negative `focus-delay-ms` setting: the model's delay is a natural number.
- `AGENT_TYPES[group]` for inherited property names such as `constructor`: only own properties are looked up.
- Nested `send` calls that disconnect while a handler is still sending: the view's sends are returned as a list and not fed back into the link.
- The class subscription of a window that closes while pending: the source removes it only in the tracker's `stop`, which is left out.
- Tracker `start`/`stop`, `destroy`, and the focus manager's `destroy`: teardown of signal handlers. The link's teardown is modelled by `DaemonClient.TeardownSilent`.
- The tracker's `onFocusChanged` and `onMonitorChanged` signal sources: they appear only as the `AgentsView.Callback` inputs they produce.
- A Gio operation completing after cancellation is modelled as completing with an error, which is what a cancelled `GCancellable` yields.

=== FILE: agent_types.dfy ===
/**
 * The client's table of agent types: for each type, the WM-class substrings
 * that identify its windows, and the flattened list of all of them. The
 * terminal type (`claude`) takes its classes from the user's settings; the
 * editor type (`cursor`) has a fixed list.
 */
module AgentTypes {
  import opened Wrappers
  import opened Text

  /** The keys of the type table, in their enumeration (insertion) order. */
  datatype TypeName = Claude | Cursor

  const TypeOrder: seq<TypeName> := [Claude, Cursor]

  function NameOf(t: TypeName): string
  {
    match t
    case Claude => "claude"
    case Cursor => "cursor"
  }

  /** The table lookup by a group name: the type whose key it is, if any. */
  function TypeNamed(group: string): (r: Option<TypeName>)
    ensures r.Some? ==> NameOf(r.value) == group
    ensures r.None? ==> forall t: TypeName :: NameOf(t) != group
  {
    if group == "claude" then Some(Claude)
    else if group == "cursor" then Some(Cursor)
    else None
  }

  /** Looking a type up by its own name finds it. */
  lemma TypeNamedRoundTrip(t: TypeName)
    ensures TypeNamed(NameOf(t)) == Some(t)
  {
  }

  /** The class lists of both types and the flattened list `ALL_WM_CLASSES`. */
  datatype Catalog = Catalog(claude: seq<string>, cursor: seq<string>, all: seq<string>)
  {
    function ClassesOf(t: TypeName): seq<string>
    {
      match t
      case Claude => claude
      case Cursor => cursor
    }
  }

  /** The flattened list is the types' lists concatenated in enumeration order. */
  predicate Valid(c: Catalog)
  {
    c.all == c.claude + c.cursor
  }

  /** The editor's WM classes in the split extension. */
  const CursorClasses: seq<string> := ["cursor", "Cursor"]

  /** The table at load time: no terminal classes yet. */
  function Initial(cursorClasses: seq<string>): (c: Catalog)
    ensures Valid(c)
    ensures c.claude == [] && c.cursor == cursorClasses && c.all == cursorClasses
  {
    Catalog([], cursorClasses, [] + cursorClasses)
  }

  /** `updateTerminalWmClasses`: replace the terminal classes and recompute the flat list. */
  function UpdateTerminalWmClasses(c: Catalog, classes: seq<string>): (r: Catalog)
    ensures Valid(r)
    ensures r.claude == classes
    ensures r.cursor == c.cursor
  {
    Catalog(classes, c.cursor, classes + c.cursor)
  }

  /** Only the most recent setting matters. */
  lemma UpdateLastWins(c: Catalog, x: seq<string>, y: seq<string>)
    ensures UpdateTerminalWmClasses(UpdateTerminalWmClasses(c, x), y) == UpdateTerminalWmClasses(c, y)
  {
  }

  /**
   * `isAgentWindow` on a WM class (`''` when the window has none): some class
   * of the flattened list occurs in it.
   */
  predicate IsAgentClass(c: Catalog, wmClass: string): (r: bool)
    ensures r <==> exists k, i :: 0 <= k < |c.all| && OccursAt(wmClass, c.all[k], i)
  {
    assert forall k :: 0 <= k < |c.all| ==>
      (Contains(wmClass, c.all[k]) <==> exists i :: OccursAt(wmClass, c.all[k], i)) by {
      forall k | 0 <= k < |c.all|
        ensures Contains(wmClass, c.all[k]) <==> exists i :: OccursAt(wmClass, c.all[k], i)
      {
        ContainsIffOccurs(wmClass, c.all[k]);
      }
    }
    ContainsAny(wmClass, c.all)
  }

  /** `getAgentTypeForWindow`: the first type, in enumeration order, with a matching class. */
  function AgentTypeFor(c: Catalog, wmClass: string): (r: Option<TypeName>)
    ensures r == Some(Claude) <==> ContainsAny(wmClass, c.claude)
    ensures r == Some(Cursor) <==> !ContainsAny(wmClass, c.claude) && ContainsAny(wmClass, c.cursor)
    ensures r.None? <==> forall t: TypeName :: !ContainsAny(wmClass, c.ClassesOf(t))
  {
    if ContainsAny(wmClass, c.ClassesOf(TypeOrder[0])) then Some(TypeOrder[0])
    else if ContainsAny(wmClass, c.ClassesOf(TypeOrder[1])) then Some(TypeOrder[1])
    else None
  }

  lemma {:induction false} ContainsAnyConcat(s: string, a: seq<string>, b: seq<string>)
    ensures ContainsAny(s, a + b) <==> ContainsAny(s, a) || ContainsAny(s, b)
  {
    if ContainsAny(s, a + b) {
      var k :| 0 <= k < |a + b| && Contains(s, (a + b)[k]);
      if k < |a| {
        assert (a + b)[k] == a[k];
      } else {
        assert (a + b)[k] == b[k - |a|];
      }
    }
    if k :| 0 <= k < |a| && Contains(s, a[k]) {
      assert (a + b)[k] == a[k];
    }
    if k :| 0 <= k < |b| && Contains(s, b[k]) {
      assert (a + b)[|a| + k] == b[k];
    }
  }

  /** A window is an agent window exactly when some type claims it. */
  lemma AgentIffTyped(c: Catalog, wmClass: string)
    requires Valid(c)
    ensures IsAgentClass(c, wmClass) <==> AgentTypeFor(c, wmClass).Some?
  {
    ContainsAnyConcat(wmClass, c.claude, c.cursor);
  }
}

=== FILE: agents_view.dfy ===
/**
 * The panel indicator that ties the client together: it keeps the agent
 * list from the last `render`, turns daemon messages into focus actions,
 * and reports window focus, placements and the auto-focus settings to the
 * daemon when they change and whenever the link (re)connects.
 *
 * Each handler returns the new view with the desktop commands it issues and
 * the messages it hands to the link's `send`, in order. Whether a message
 * reaches the daemon is up to the link (`DaemonClient.Send`).
 */
module AgentsView {
  import opened Wrappers
  import opened Text
  import opened AgentTypes
  import opened TitleParse
  import opened Desktop
  import opened WindowTracker
  import opened Protocol
  import opened SessionOrder
  import opened FocusManager

  datatype View = View(
    cat: Catalog,
    tracker: Tracker,
    focus: Focuser,
    agents: seq<AgentInfo>,
    autoFocusEnabled: bool,
    focusDelayMs: nat)

  /** A handler's outcome: the new view, desktop commands, messages to send. */
  datatype Reaction = Reaction(view: View, commands: seq<Command>, sends: seq<IncomingMessage>)

  /** A line from the daemon after `JSON.parse`: not JSON, a known message, or another type. */
  datatype Parsed = Malformed | Known(msg: OutgoingMessage) | OtherType

  /** `_handleMessage`. */
  function HandleMessage(v: View, d: Display, p: Parsed): (r: Reaction)
    ensures r.sends == []
    ensures !p.Known? ==> r == Reaction(v, [], [])
    ensures p.Known? && p.msg.Render? ==> r == Reaction(v.(agents := p.msg.agents), [], [])
    ensures p.Known? && p.msg.Focus? ==>
      r == Reaction(v, FocusWindow(v.cat, v.tracker, d, p.msg.session), [])
    ensures p.Known? && p.msg.AutoFocus? ==>
      var (f, cmds) := HandleAutoFocus(v.focus, v.cat, v.tracker, d, p.msg.session);
      r == Reaction(v.(focus := f), cmds, [])
    ensures p.Known? && p.msg.ReturnWorkspace? ==>
      var (f, cmds) := FocusManager.ReturnWorkspace(v.focus, d);
      r == Reaction(v.(focus := f), cmds, [])
  {
    match p
    case Malformed => Reaction(v, [], [])
    case OtherType => Reaction(v, [], [])
    case Known(msg) =>
      match msg
      case Render(agents) => Reaction(v.(agents := agents), [], [])
      case Focus(session) => Reaction(v, FocusWindow(v.cat, v.tracker, d, session), [])
      case AutoFocus(session) =>
        var (f, cmds) := HandleAutoFocus(v.focus, v.cat, v.tracker, d, session);
        Reaction(v.(focus := f), cmds, [])
      case ReturnWorkspace =>
        var (f, cmds) := FocusManager.ReturnWorkspace(v.focus, d);
        Reaction(v.(focus := f), cmds, [])
  }

  /** Only `render` changes the agent list, and it replaces it wholesale. */
  lemma OnlyRenderChangesAgents(v: View, d: Display, p: Parsed)
    ensures HandleMessage(v, d, p).view.agents != v.agents ==> p.Known? && p.msg.Render?
    ensures p.Known? && p.msg.Render? ==> HandleMessage(v, d, p).view.agents == p.msg.agents
    ensures HandleMessage(v, d, p).view.(focus := v.focus, agents := v.agents) == v
  {
  }

  /** `_sendAutoFocusConfig`. */
  function AutoFocusConfigOf(v: View): (m: IncomingMessage)
    ensures m.AutoFocusConfig? && m.enabled == v.autoFocusEnabled && m.focusDelayMs == v.focusDelayMs
  {
    AutoFocusConfig(v.autoFocusEnabled, v.focusDelayMs)
  }

  /**
   * `_onFocusWindowChanged`: with a focused window, report its focus, then
   * its placement, then let the coordinator decide whether to forget the
   * auto-focus workspace.
   */
  function OnFocusWindowChanged(v: View, d: Display): (r: Reaction)
    ensures r.commands == []
    ensures d.focusWindow.None? ==> r == Reaction(v, [], [])
    ensures d.focusWindow.Some? ==>
      var w := d.focusWindow.value;
      var (f1, m) := SendWorkspaceForWindow(v.focus, v.cat, v.tracker, d, Some(w));
      && r.sends == [SendWindowFocus(v.cat, v.tracker, d, Some(w)).value] + m
      && r.view == v.(focus := UpdateOriginalWorkspace(f1, v.cat, d, w, v.agents))
  {
    match d.focusWindow
    case None => Reaction(v, [], [])
    case Some(w) =>
      var focusMsg := SendWindowFocus(v.cat, v.tracker, d, Some(w)).value;
      var (f1, m) := SendWorkspaceForWindow(v.focus, v.cat, v.tracker, d, Some(w));
      var f2 := UpdateOriginalWorkspace(f1, v.cat, d, w, v.agents);
      Reaction(v.(focus := f2), [], [focusMsg] + m)
  }

  /**
   * The `connected` handler: reset the placement cache, report the focused
   * window, report every window's placement, then send the auto-focus
   * settings.
   */
  function OnConnected(v: View, d: Display): (r: Reaction)
    ensures r.commands == []
    ensures |r.sends| >= 1 && r.sends[|r.sends| - 1] == AutoFocusConfigOf(v)
    ensures r.view.(focus := v.focus) == v
    ensures r.view.focus.originalWorkspace == OnFocusWindowChanged(v, d).view.focus.originalWorkspace
  {
    var v1 := v.(focus := ResetWorkspaceCache(v.focus));
    var r1 := OnFocusWindowChanged(v1, d);
    var (f2, m2) := SendAllWorkspaces(r1.view.focus, v.cat, v.tracker, d);
    Reaction(r1.view.(focus := f2), [], r1.sends + m2 + [AutoFocusConfigOf(v)])
  }

  /**
   * Whatever was sent before, a (re)connection reports the placement of
   * every reportable window's group.
   */
  lemma {:induction false} ConnectReportsEveryGroup(v: View, d: Display, w: WinId)
    requires w in d.windows && ReportGroup(v.cat, v.tracker, d, w).Some?
    ensures exists m ::
      m in OnConnected(v, d).sends && m.SessionWorkspace? && m.session == ReportGroup(v.cat, v.tracker, d, w).value
  {
    var g := ReportGroup(v.cat, v.tracker, d, w).value;
    var v1 := v.(focus := ResetWorkspaceCache(v.focus));
    var r1 := OnFocusWindowChanged(v1, d);
    var (f2, m2) := SendAll(r1.view.focus, v.cat, v.tracker, d, d.windows);
    var sends := r1.sends + m2 + [AutoFocusConfigOf(v)];
    assert OnConnected(v, d).sends == sends;
    assert g in f2.sessionWorkspaces;
    if g in r1.view.focus.sessionWorkspaces {
      // only the focused window can have put it there
      var fw := d.focusWindow.value;
      var (f1, m) := SendWorkspaceForWindow(v1.focus, v.cat, v.tracker, d, Some(fw));
      assert g in f1.sessionWorkspaces;
      assert m != [] && m[0] == SessionWorkspace(g, PlacementOf(d, fw).workspace, PlacementOf(d, fw).monitor);
      assert m[0] in r1.sends;
      assert m[0] in sends;
    } else {
      var m :| m in m2 && m.session == g;
      assert m.SessionWorkspace?;
      assert m in sends;
    }
  }

  /** The `disconnected` handler: the agent list is emptied; nothing else changes. */
  function OnDisconnected(v: View): (r: Reaction)
    ensures r.view.agents == []
    ensures r.view.(agents := v.agents) == v
    ensures r.commands == [] && r.sends == []
  {
    Reaction(v.(agents := []), [], [])
  }

  /** The settings the client reacts to. */
  datatype SettingChange =
    | TerminalClasses(classes: seq<string>)
    | AutoFocusEnabled(enabled: bool)
    | FocusDelay(ms: nat)
    | OtherSetting

  /**
   * The `changed` handler of the settings: new terminal classes rebuild the
   * type table and rescan the windows; the two auto-focus settings are
   * stored and sent to the daemon.
   */
  function OnSettingChanged(v: View, d: Display, c: SettingChange): (r: Reaction)
    ensures r.commands == []
    ensures r.view.agents == v.agents && r.view.focus == v.focus
    ensures c.TerminalClasses? ==>
      && r.view.cat == UpdateTerminalWmClasses(v.cat, c.classes)
      && r.view.tracker == Rescan(v.tracker, r.view.cat, d)
      && r.sends == []
    ensures c.AutoFocusEnabled? ==>
      r.view == v.(autoFocusEnabled := c.enabled) && r.sends == [AutoFocusConfig(c.enabled, v.focusDelayMs)]
    ensures c.FocusDelay? ==>
      r.view == v.(focusDelayMs := c.ms) && r.sends == [AutoFocusConfig(v.autoFocusEnabled, c.ms)]
    ensures c.OtherSetting? ==> r == Reaction(v, [], [])
  {
    match c
    case TerminalClasses(classes) =>
      var cat := UpdateTerminalWmClasses(v.cat, classes);
      Reaction(v.(cat := cat, tracker := Rescan(v.tracker, cat, d)), [], [])
    case AutoFocusEnabled(enabled) =>
      var v1 := v.(autoFocusEnabled := enabled);
      Reaction(v1, [], [AutoFocusConfigOf(v1)])
    case FocusDelay(ms) =>
      var v1 := v.(focusDelayMs := ms);
      Reaction(v1, [], [AutoFocusConfigOf(v1)])
    case OtherSetting => Reaction(v, [], [])
  }

  /** New terminal classes keep the tracker valid and track every listed window they claim. */
  lemma TerminalClassesRetrack(v: View, d: Display, classes: seq<string>, w: WinId)
    requires WindowTracker.Valid(v.tracker)
    requires w in d.windows && d.WmClass(w) != "" && ContainsAny(d.WmClass(w), classes)
    ensures var r := OnSettingChanged(v, d, TerminalClasses(classes));
      WindowTracker.Valid(r.view.tracker) && w in r.view.tracker.tracked
  {
    var cat := UpdateTerminalWmClasses(v.cat, classes);
    ContainsAnyConcat(d.WmClass(w), classes, v.cat.cursor);
    assert IsAgentWindow(cat, d, w);
  }

  /** The desktop and tracker callbacks the view is wired to. */
  datatype Callback =
    | FocusChanged
    | MonitorChanged(win: WinId)
    | Tracked(event: TrackerEvent)

  /**
   * `_wireWindowTracker`: focus changes go to `_onFocusWindowChanged`; a
   * newly keyed window or a monitor change reports that window's placement;
   * a workspace change reports every placement and then the focused window;
   * an unmanaged window is not wired to anything.
   */
  function OnCallback(v: View, d: Display, cb: Callback): (r: Reaction)
    ensures r.commands == []
    ensures r.view.(focus := v.focus) == v
    ensures cb.FocusChanged? ==> r == OnFocusWindowChanged(v, d)
    ensures cb.MonitorChanged? ==>
      var (f, m) := SendWorkspaceForWindow(v.focus, v.cat, v.tracker, d, Some(cb.win));
      r == Reaction(v.(focus := f), [], m)
    ensures cb.Tracked? && cb.event.WindowTracked? ==>
      var (f, m) := SendWorkspaceForWindow(v.focus, v.cat, v.tracker, d, Some(cb.event.win));
      r == Reaction(v.(focus := f), [], m)
    ensures cb.Tracked? && cb.event.WorkspaceChanged? ==>
      var (f, m) := SendAllWorkspaces(v.focus, v.cat, v.tracker, d);
      && r.view == v.(focus := f)
      && r.sends == m + (match SendWindowFocus(v.cat, v.tracker, d, d.focusWindow)
                         case None => []
                         case Some(x) => [x])
    ensures cb.Tracked? && cb.event.WindowUnmanaged? ==> r == Reaction(v, [], [])
  {
    match cb
    case FocusChanged => OnFocusWindowChanged(v, d)
    case MonitorChanged(win) =>
      var (f, m) := SendWorkspaceForWindow(v.focus, v.cat, v.tracker, d, Some(win));
      Reaction(v.(focus := f), [], m)
    case Tracked(event) =>
      match event
      case WindowTracked(win, _) =>
        var (f, m) := SendWorkspaceForWindow(v.focus, v.cat, v.tracker, d, Some(win));
        Reaction(v.(focus := f), [], m)
      case WorkspaceChanged =>
        var (f, m) := SendAllWorkspaces(v.focus, v.cat, v.tracker, d);
        var focusMsg := match SendWindowFocus(v.cat, v.tracker, d, d.focusWindow)
                        case None => []
                        case Some(x) => [x];
        Reaction(v.(focus := f), [], m + focusMsg)
      case WindowUnmanaged(_) => Reaction(v, [], [])
  }

  /** The tracker's callbacks run in order, threading the view and collecting the output. */
  function OnTrackerEvents(v: View, d: Display, events: seq<TrackerEvent>): (r: Reaction)
    ensures r.commands == []
    ensures r.view.(focus := v.focus) == v
    ensures r.view.focus.originalWorkspace == v.focus.originalWorkspace
    ensures forall m :: m in r.sends ==> m.SessionWorkspace? || m.WindowFocus?
    decreases |events|
  {
    if |events| == 0 then Reaction(v, [], [])
    else
      var r1 := OnCallback(v, d, Tracked(events[0]));
      var r2 := OnTrackerEvents(r1.view, d, events[1..]);
      Reaction(r2.view, [], r1.sends + r2.sends)
  }

  /**
   * A title change on a tracked window: the tracker records the key it
   * yields and the view reports the window's placement.
   */
  function OnTitle(v: View, d: Display, w: WinId): (r: Reaction)
    ensures r.commands == []
    ensures r.view.tracker == OnTitleChanged(v.tracker, d, w).0
  {
    var (t1, events) := OnTitleChanged(v.tracker, d, w);
    OnTrackerEvents(v.(tracker := t1), d, events)
  }

  /**
   * When a tracked agent window's new title yields a key whose group has no
   * cached placement, the view reports the window's placement under that
   * group.
   */
  lemma TitleReportsPlacement(v: View, d: Display, w: WinId)
    requires Subscription(w, TitleNotify) in v.tracker.live && IsAgentWindow(v.cat, d, w)
    requires Truthy(ExtractSessionKey(d.Title(w)))
    requires GroupName(ExtractSessionKey(d.Title(w)), d.Title(w)) !in v.focus.sessionWorkspaces
    ensures var p := PlacementOf(d, w);
      OnTitle(v, d, w).sends == [SessionWorkspace(GroupName(ExtractSessionKey(d.Title(w)), d.Title(w)), p.workspace, p.monitor)]
  {
    var key := ExtractSessionKey(d.Title(w));
    var g := GroupName(key, d.Title(w));
    var p := PlacementOf(d, w);
    var (t1, events) := OnTitleChanged(v.tracker, d, w);
    assert events == [WindowTracked(w, key.value)];
    var v1 := v.(tracker := t1);
    RetitledGroup(v.cat, v.tracker, d, w);
    var (f, m) := SendWorkspaceForWindow(v1.focus, v.cat, t1, d, Some(w));
    assert m == [SessionWorkspace(g, p.workspace, p.monitor)];
    OneTrackerEvent(v1, d, events[0]);
  }

  /** After a retitle that yields a key, an agent window reports under that key's group. */
  lemma RetitledGroup(cat: Catalog, t: Tracker, d: Display, w: WinId)
    requires Subscription(w, TitleNotify) in t.live && IsAgentWindow(cat, d, w)
    requires Truthy(ExtractSessionKey(d.Title(w)))
    ensures var key := ExtractSessionKey(d.Title(w));
      ReportGroup(cat, OnTitleChanged(t, d, w).0, d, w) == Some(GroupName(key, d.Title(w)))
  {
    var t1 := OnTitleChanged(t, d, w).0;
    var key := ExtractSessionKey(d.Title(w));
    assert SessionForWindow(t1, w) == key;
    assert WindowKey(t1, d, w) == key;
  }

  /** A single tracker event is handled by one callback. */
  lemma OneTrackerEvent(v: View, d: Display, e: TrackerEvent)
    ensures OnTrackerEvents(v, d, [e]).sends == OnCallback(v, d, Tracked(e)).sends
  {
    var r1 := OnCallback(v, d, Tracked(e));
    assert [e][1..] == [];
    assert OnTrackerEvents(r1.view, d, []) == Reaction(r1.view, [], []);
    assert r1.sends + [] == r1.sends;
  }
}

=== FILE: daemon_client.dfy ===
/**
 * The client's connection to the daemon: a Unix-socket link that announces
 * `connected` and `disconnected`, delivers each line it reads, writes one
 * JSON document per line, and retries every few seconds after a failure
 * until it is cancelled.
 *
 * Asynchronous completions are explicit events. The link counts its
 * outstanding connect and read requests and the GLib timer sources it owns;
 * which completion arrives, and with what outcome, is the environment's
 * choice. A completion that arrives after cancellation is an error, which is
 * how Gio reports cancelled operations.
 */
module DaemonClient {

  /** `RECONNECT_DELAY`, in milliseconds. */
  const ReconnectDelayMs: nat := 3000

  /**
   * `connected`: the connection and both streams are set (they are always
   * set and cleared together); `timerSet`: `_reconnectTimeout` is set;
   * `timers`: GLib timer sources alive; `pendingConnects` and `pendingReads`: outstanding
   * asynchronous requests; `cancelled`: the shared cancellable has fired.
   */
  datatype Link = Link(connected: bool, timerSet: bool, timers: nat, pendingConnects: nat, pendingReads: nat, cancelled: bool)

  const Initial: Link := Link(false, false, 0, 0, 0, false)

  /** What the link signals or writes. */
  datatype Output = Connected | Disconnected | MessageReceived(line: string) | Wrote(text: string)

  datatype ReadOutcome = Line(text: string) | Eof | ReadError

  /** Outside events: the first `start`, completions, the timer, `send`, cancellation and `stop`. */
  datatype Event =
    | Enable
    | TimerFires
    | ConnectDone(ok: bool)
    | ReadDone(outcome: ReadOutcome)
    | Write(json: string, ok: bool)
    | Cancel
    | Stop

  /** The timer flag is set exactly when the link owns one live timer source. */
  predicate Inv(l: Link)
  {
    l.timers == if l.timerSet then 1 else 0
  }

  // ---- the four phases of an uncancelled link ----

  predicate Idle(l: Link)
  {
    !l.connected && !l.timerSet && l.pendingConnects == 0 && l.pendingReads == 0
  }

  predicate Connecting(l: Link)
  {
    !l.connected && !l.timerSet && l.pendingConnects == 1 && l.pendingReads == 0
  }

  predicate Open(l: Link)
  {
    l.connected && !l.timerSet && l.pendingConnects == 0 && l.pendingReads == 1
  }

  predicate Waiting(l: Link)
  {
    !l.connected && l.timerSet && l.pendingConnects == 0 && l.pendingReads == 0
  }

  predicate Phased(l: Link)
  {
    Idle(l) || Connecting(l) || Open(l) || Waiting(l)
  }

  // ---- the methods of the client ----

  /** `_scheduleReconnect`: add a timer unless one is pending or the link is cancelled. */
  function ScheduleReconnect(l: Link): (r: Link)
    ensures l.timerSet || l.cancelled ==> r == l
    ensures !l.timerSet && !l.cancelled ==> r == l.(timerSet := true, timers := l.timers + 1)
    ensures Inv(l) ==> Inv(r) && r.timers <= 1
  {
    if l.timerSet || l.cancelled then l
    else l.(timerSet := true, timers := l.timers + 1)
  }

  /** `_handleDisconnect`: drop the connection, announce it, and schedule a retry. */
  function HandleDisconnect(l: Link): (r: (Link, seq<Output>))
    ensures r.1 == [Disconnected]
    ensures !r.0.connected
    ensures r.0.pendingConnects == l.pendingConnects && r.0.pendingReads == l.pendingReads && r.0.cancelled == l.cancelled
    ensures r.0.timerSet <==> l.timerSet || !l.cancelled
  {
    (ScheduleReconnect(l.(connected := false)), [Disconnected])
  }

  /** `_readLoop`: ask for the next line while connected and not cancelled. */
  function ReadLoop(l: Link): (r: Link)
    ensures l.connected && !l.cancelled ==> r == l.(pendingReads := l.pendingReads + 1)
    ensures !l.connected || l.cancelled ==> r == l
  {
    if !l.connected || l.cancelled then l else l.(pendingReads := l.pendingReads + 1)
  }

  /** `start`: begin connecting unless cancelled. */
  function Start(l: Link): (r: Link)
    ensures l.cancelled ==> r == l
    ensures !l.cancelled ==> r == l.(pendingConnects := l.pendingConnects + 1)
  {
    if l.cancelled then l else l.(pendingConnects := l.pendingConnects + 1)
  }

  /**
   * The connect completion: on success the streams are installed,
   * `connected` is announced and one read is armed; on failure a retry is
   * scheduled unless the link is cancelled.
   */
  function ConnectFinished(l: Link, ok: bool): (r: (Link, seq<Output>))
    ensures l.pendingConnects == 0 ==> r == (l, [])
    ensures l.pendingConnects > 0 && ok && !l.cancelled ==>
      r == (l.(pendingConnects := l.pendingConnects - 1, connected := true, pendingReads := l.pendingReads + 1), [Connected])
    ensures l.pendingConnects > 0 && (!ok || l.cancelled) ==>
      r.1 == [] && r.0 == ScheduleReconnect(l.(pendingConnects := l.pendingConnects - 1))
    ensures l.cancelled ==> r.0.timerSet == l.timerSet
  {
    if l.pendingConnects == 0 then (l, [])
    else
      var l1 := l.(pendingConnects := l.pendingConnects - 1);
      if ok && !l.cancelled then (ReadLoop(l1.(connected := true)), [Connected])
      else (ScheduleReconnect(l1), [])
  }

  /**
   * The read completion: a line is delivered and the next read armed; end of
   * stream disconnects; an error disconnects unless the link is cancelled.
   */
  function ReadFinished(l: Link, outcome: ReadOutcome): (r: (Link, seq<Output>))
    ensures l.pendingReads == 0 ==> r == (l, [])
    ensures l.pendingReads > 0 && !l.cancelled && outcome.Line? ==>
      r.1 == [MessageReceived(outcome.text)] && r.0 == ReadLoop(l.(pendingReads := l.pendingReads - 1))
    ensures l.pendingReads > 0 && !l.cancelled && !outcome.Line? ==>
      r == HandleDisconnect(l.(pendingReads := l.pendingReads - 1))
    ensures l.pendingReads > 0 && l.cancelled ==> r == (l.(pendingReads := l.pendingReads - 1), [])
  {
    if l.pendingReads == 0 then (l, [])
    else
      var l1 := l.(pendingReads := l.pendingReads - 1);
      if l.cancelled then (l1, [])
      else match outcome
        case Line(text) => (ReadLoop(l1), [MessageReceived(text)])
        case Eof => HandleDisconnect(l1)
        case ReadError => HandleDisconnect(l1)
  }

  /** The reconnect timer: it clears the flag and starts a new connect. */
  function TimerFired(l: Link): (r: Link)
    ensures l.timers == 0 ==> r == l
    ensures l.timers > 0 ==> r == Start(l.(timers := l.timers - 1, timerSet := false))
  {
    if l.timers == 0 then l
    else Start(l.(timers := l.timers - 1, timerSet := false))
  }

  /**
   * `send`: silently nothing without a connection; otherwise the JSON text
   * followed by a newline is written, or the link disconnects when the write
   * fails.
   */
  function Send(l: Link, json: string, ok: bool): (r: (Link, seq<Output>))
    ensures !l.connected ==> r == (l, [])
    ensures l.connected && ok ==> r == (l, [Wrote(json + "\n")])
    ensures l.connected && !ok ==> r == HandleDisconnect(l)
  {
    if !l.connected then (l, [])
    else if ok then (l, [Wrote(json + "\n")])
    else HandleDisconnect(l)
  }

  /** `stop`: remove a pending timer and close the connection, silently. */
  function StopLink(l: Link): (r: Link)
    ensures !r.connected && !r.timerSet
    ensures r.timers == if l.timerSet && l.timers > 0 then l.timers - 1 else l.timers
    ensures r.pendingConnects == l.pendingConnects && r.pendingReads == l.pendingReads && r.cancelled == l.cancelled
  {
    var l1 := if l.timerSet then l.(timerSet := false, timers := if l.timers > 0 then l.timers - 1 else 0) else l;
    l1.(connected := false)
  }

  /** One event and what it makes the link emit. */
  function Step(l: Link, e: Event): (r: (Link, seq<Output>))
  {
    match e
    case Enable => (Start(l), [])
    case TimerFires => (TimerFired(l), [])
    case ConnectDone(ok) => ConnectFinished(l, ok)
    case ReadDone(outcome) => ReadFinished(l, outcome)
    case Write(json, ok) => Send(l, json, ok)
    case Cancel => (l.(cancelled := true), [])
    case Stop => (StopLink(l), [])
  }

  function Run(l: Link, es: seq<Event>): (r: (Link, seq<Output>))
    decreases |es|
  {
    if |es| == 0 then (l, [])
    else
      var (l1, o1) := Step(l, es[0]);
      var (l2, o2) := Run(l1, es[1..]);
      (l2, o1 + o2)
  }

  lemma RunOne(l: Link, e: Event)
    ensures Run(l, [e]) == Step(l, e)
  {
    assert [e][1..] == [];
    assert Step(l, e).1 + [] == Step(l, e).1;
  }

  lemma RunCons(l: Link, e: Event, es: seq<Event>)
    ensures Run(l, [e] + es) == (Run(Step(l, e).0, es).0, Step(l, e).1 + Run(Step(l, e).0, es).1)
  {
    assert ([e] + es)[1..] == es;
  }

  // ---- properties ----

  /** Every event keeps the timer flag and the live timer sources in step. */
  lemma StepKeepsInv(l: Link, e: Event)
    requires Inv(l)
    ensures Inv(Step(l, e).0)
  {
  }

  /** At most one reconnect timer is ever pending, whatever happens. */
  lemma {:induction false} AtMostOneTimer(l: Link, es: seq<Event>)
    requires Inv(l)
    ensures Inv(Run(l, es).0) && Run(l, es).0.timers <= 1
    decreases |es|
  {
    if |es| > 0 {
      StepKeepsInv(l, es[0]);
      AtMostOneTimer(Step(l, es[0]).0, es[1..]);
    }
  }

  /**
   * One step from an uncancelled link in one of the phases (idle,
   * connecting, open, waiting for its retry) lands in a phase again or in
   * the cancelled state, for any event other than `stop` or a failed write,
   * provided `enable` comes only while the link is idle.
   */
  lemma StepKeepsPhase(l: Link, e: Event)
    requires Inv(l) && Phased(l) && !l.cancelled
    requires e.Enable? ==> Idle(l)
    requires e.Write? ==> e.ok
    requires !e.Stop?
    ensures Phased(Step(l, e).0) || Step(l, e).0.cancelled
  {
  }

  /** The first connect, when it succeeds, announces `connected` and leaves exactly one read armed. */
  lemma EnableThenConnect(l: Link)
    requires Idle(l) && !l.cancelled
    ensures var r := Run(l, [Enable, ConnectDone(true)]);
      r.1 == [Connected] && Open(r.0)
  {
  }

  /** A failed write ends a connection exactly as the end of the input stream does. */
  lemma WriteFailureIsEof(l: Link, json: string)
    requires l.connected && l.pendingReads > 0 && !l.cancelled
    ensures Send(l, json, false).1 == ReadFinished(l, Eof).1 == [Disconnected]
    ensures Send(l, json, false).0 == ReadFinished(l, Eof).0.(pendingReads := l.pendingReads)
  {
  }

  /**
   * After cancellation no event connects, delivers a line or arms a timer,
   * and the outstanding requests only drain.
   */
  lemma CancelledStepInert(l: Link, e: Event)
    requires l.cancelled
    ensures var r := Step(l, e);
      && r.0.cancelled
      && Connected !in r.1
      && (forall o :: o in r.1 ==> !o.MessageReceived?)
      && r.0.pendingConnects <= l.pendingConnects && r.0.pendingReads <= l.pendingReads && r.0.timers <= l.timers
      && (r.0.timerSet ==> l.timerSet)
      && (r.0.connected ==> l.connected)
  {
  }

  lemma {:induction false} CancelledRunInert(l: Link, es: seq<Event>)
    requires l.cancelled
    ensures var r := Run(l, es);
      && Connected !in r.1
      && (forall o :: o in r.1 ==> !o.MessageReceived?)
      && r.0.pendingConnects <= l.pendingConnects && r.0.pendingReads <= l.pendingReads && r.0.timers <= l.timers
    decreases |es|
  {
    if |es| > 0 {
      CancelledStepInert(l, es[0]);
      var (l1, o1) := Step(l, es[0]);
      CancelledRunInert(l1, es[1..]);
    }
  }

  /** `stop` itself emits nothing and leaves neither a connection nor a timer. */
  lemma StopSilent(l: Link)
    requires Inv(l)
    ensures Step(l, Stop).1 == []
    ensures !Step(l, Stop).0.connected && Step(l, Stop).0.timers == 0
  {
  }

  /** Teardown (cancel, then stop) silences the link for good. */
  lemma {:induction false} TeardownSilent(l: Link, es: seq<Event>)
    requires Inv(l)
    ensures Run(l, [Cancel, Stop] + es).1 == []
  {
    var l2 := StopLink(l.(cancelled := true));
    assert Run(l, [Cancel, Stop] + es) == (Run(l2, es).0, [] + ([] + Run(l2, es).1)) by {
      assert ([Cancel, Stop] + es)[1..] == [Stop] + es;
      assert ([Stop] + es)[1..] == es;
    }
    QuietStaysQuiet(l2, es);
  }

  /** A cancelled link with no connection and no timer emits nothing. */
  predicate Quiet(l: Link)
  {
    l.cancelled && !l.connected && !l.timerSet && l.timers == 0
  }

  lemma {:induction false} QuietStaysQuiet(l: Link, es: seq<Event>)
    requires Quiet(l)
    ensures Run(l, es).1 == []
    decreases |es|
  {
    if |es| > 0 {
      QuietStaysQuiet(Step(l, es[0]).0, es[1..]);
    }
  }

  /**
   * A failed write while a read is outstanding leaves that read behind; when
   * it then sees the end of the dead stream, `disconnected` is announced a
   * second time.
   */
  lemma WriteFailureDisconnectsTwice(l: Link, json: string)
    requires Open(l) && Inv(l) && !l.cancelled
    ensures Run(l, [Write(json, false), ReadDone(Eof)]).1 == [Disconnected, Disconnected]
    ensures Waiting(Run(l, [Write(json, false), ReadDone(Eof)]).0)
  {
    var l1 := Step(l, Write(json, false)).0;
    RunOne(l1, ReadDone(Eof));
    RunCons(l, Write(json, false), [ReadDone(Eof)]);
  }

  /**
   * If the retry connects before that stale read completes, the stale end of
   * stream takes the new connection down with it.
   */
  lemma StaleEofDropsNewConnection(l: Link, json: string)
    requires Open(l) && Inv(l) && !l.cancelled
    ensures var r := Run(l, [Write(json, false), TimerFires, ConnectDone(true), ReadDone(Eof)]);
      r.1 == [Disconnected, Connected, Disconnected] && !r.0.connected && r.0.pendingReads == 1
  {
    var l1 := Step(l, Write(json, false)).0;
    var l2 := Step(l1, TimerFires).0;
    var l3 := Step(l2, ConnectDone(true)).0;
    var l4 := Step(l3, ReadDone(Eof)).0;
    assert l4 == l.(pendingReads := 1, pendingConnects := 0, connected := false, timerSet := true, timers := 1);
    RunOne(l3, ReadDone(Eof));
    RunCons(l2, ConnectDone(true), [ReadDone(Eof)]);
    RunCons(l1, TimerFires, [ConnectDone(true), ReadDone(Eof)]);
    RunCons(l, Write(json, false), [TimerFires, ConnectDone(true), ReadDone(Eof)]);
  }
}

=== FILE: daemon_state.dfy ===
/**
 * The daemon's session store (`StateManager`): per-session agent state, the
 * FIFO of sessions awaiting the user, group placements, the focused group and
 * the auto-focus flags. Every operation is a pure function from the old store
 * to the new one.
 *
 * Rust's `HashMap` iterates in an unspecified order. Operations that iterate
 * the sessions take that order as a parameter `order`, an enumeration of the
 * session keys. The clock (`Instant::now()`) is the parameter `now`, in
 * milliseconds.
 */
module DaemonState {
  import opened Wrappers
  import opened Text
  import opened Seqs
  import opened Protocol
  import opened SessionOrder

  /** How long an Ended session stays listed (`ENDED_HIDE_DELAY`). */
  const EndedHideDelayMs: nat := 10_000
  /** Idle time after which a non-claude Started session is ended (`STALE_TIMEOUT`). */
  const StaleTimeoutMs: nat := 30_000
  const DefaultFocusDelayMs: nat := 1000
  /** The agent type exempt from the staleness rule. */
  const ClaudeType := "claude"

  /** What an update means for auto-focus (`AutoFocusEvent::None` is `NoEvent`). */
  datatype AutoFocusEvent = Trigger | QueueEmpty | NoEvent

  datatype SessionInfo = SessionInfo(
    state: AgentState,
    tool: string,
    agentType: string,
    endedAt: Option<nat>,
    lastActivity: nat)

  datatype StateManager = StateManager(
    sessions: map<string, SessionInfo>,
    workspaces: map<string, Placement>,
    focusedGroup: Option<string>,
    lastFocusIndex: nat,
    awaitingQueue: seq<string>,
    autoFocusEnabled: bool,
    focusDelayMs: nat,
    userIdle: bool,
    autoFocusActive: bool)

  predicate IsAwaiting(sm: StateManager, s: string)
  {
    s in sm.sessions && sm.sessions[s].state == Awaiting
  }

  /**
   * The invariant every operation keeps: the awaiting queue holds exactly the
   * Awaiting sessions, each once, and a session has an end time exactly when
   * it is Ended.
   */
  predicate Valid(sm: StateManager)
  {
    && NoDup(sm.awaitingQueue)
    && (forall s :: s in sm.awaitingQueue ==> IsAwaiting(sm, s))
    && (forall s :: s in sm.sessions && sm.sessions[s].state == Awaiting ==> s in sm.awaitingQueue)
    && (forall s :: s in sm.sessions ==> (sm.sessions[s].endedAt.Some? <==> sm.sessions[s].state == Ended))
  }

  function New(): (sm: StateManager)
    ensures Valid(sm)
  {
    StateManager(map[], map[], None, 0, [], false, DefaultFocusDelayMs, false, false)
  }

  /** `now.duration_since(since)`, which saturates at zero. */
  function Elapsed(now: nat, since: nat): nat
  {
    if now >= since then now - since else 0
  }

  /** A Completed report for the focused group is recorded as Started. */
  function StoredState(sm: StateManager, session: string, state: AgentState): AgentState
  {
    if state == Completed && sm.focusedGroup == Some(GroupOf(session)) then Started else state
  }

  /**
   * The awaiting queue and auto-focus event after `session` is stored in
   * state `actual`: it joins the queue when it starts awaiting, and leaves it
   * when it stops awaiting or ends.
   */
  function QueueAfter(sm: StateManager, session: string, actual: AgentState): (r: (seq<string>, AutoFocusEvent))
    ensures forall x :: x != session ==> (x in r.0 <==> x in sm.awaitingQueue)
    ensures actual == Awaiting && !IsAwaiting(sm, session) ==> session in r.0
    ensures (actual != Awaiting && IsAwaiting(sm, session)) || actual == Ended ==> session !in r.0
    ensures NoDup(sm.awaitingQueue) ==> NoDup(r.0)
    ensures !(actual == Awaiting && !IsAwaiting(sm, session))
            && !((actual != Awaiting && IsAwaiting(sm, session)) || actual == Ended) ==>
      r == (sm.awaitingQueue, NoEvent)
  {
    var was := IsAwaiting(sm, session);
    if actual == Awaiting && !was then
      if session in sm.awaitingQueue then (sm.awaitingQueue, Trigger)
      else
        assert NoDup(sm.awaitingQueue) ==> NoDup(sm.awaitingQueue + [session]) by {
          if NoDup(sm.awaitingQueue) {
            NoDupAppend(sm.awaitingQueue, session);
          }
        }
        (sm.awaitingQueue + [session], Trigger)
    else if (actual != Awaiting && was) || actual == Ended then
      var q := RemoveAll(sm.awaitingQueue, session);
      if |q| == 0 && sm.autoFocusActive then (q, QueueEmpty)
      else if actual != Awaiting && was then (q, Trigger)
      else (q, NoEvent)
    else
      (sm.awaitingQueue, NoEvent)
  }

  /** `update_state`: record a state report and maintain the awaiting queue. */
  function UpdateState(sm: StateManager, session: string, state: AgentState, tool: string,
                       agentType: string, now: nat): (r: (StateManager, AutoFocusEvent))
    // the record stored for the session
    ensures r.0.sessions.Keys == sm.sessions.Keys + {session}
    ensures forall s :: s in sm.sessions && s != session ==> r.0.sessions[s] == sm.sessions[s]
    ensures r.0.sessions[session] ==
      SessionInfo(StoredState(sm, session, state), tool, agentType,
                  if state == Ended then Some(now) else None, now)
    ensures r.0.autoFocusActive == (sm.autoFocusActive && r.1 != QueueEmpty)
    // nothing else changes
    ensures r.0.(sessions := sm.sessions, awaitingQueue := sm.awaitingQueue,
                 autoFocusActive := sm.autoFocusActive) == sm
  {
    var actual := StoredState(sm, session, state);
    var info := SessionInfo(actual, tool, agentType, if state == Ended then Some(now) else None, now);
    var (q, ev) := QueueAfter(sm, session, actual);
    (sm.(sessions := sm.sessions[session := info], awaitingQueue := q,
         autoFocusActive := sm.autoFocusActive && ev != QueueEmpty), ev)
  }

  /** A Completed report is stored as Started exactly when the session's group has focus. */
  lemma StoredStateDemotes(sm: StateManager, session: string, state: AgentState)
    ensures state != Completed ==> StoredState(sm, session, state) == state
    ensures state == Completed ==>
      (StoredState(sm, session, state) == Started <==> sm.focusedGroup == Some(GroupOf(session)))
  {
  }

  /**
   * The queue and the event of `update_state`: entering Awaiting appends the
   * session and triggers; leaving it removes the session and triggers (or
   * reports an emptied queue while auto-focus is active); an Ended report
   * also removes the session; any other report changes nothing.
   */
  lemma UpdateStateQueue(sm: StateManager, session: string, state: AgentState, tool: string,
                         agentType: string, now: nat)
    ensures var (r, ev) := UpdateState(sm, session, state, tool, agentType, now);
      var entering := r.sessions[session].state == Awaiting && !IsAwaiting(sm, session);
      var leaving := r.sessions[session].state != Awaiting && IsAwaiting(sm, session);
      var removes := leaving || state == Ended;
      && (entering ==>
            ev == Trigger
            && r.awaitingQueue == (if session in sm.awaitingQueue then sm.awaitingQueue
                                   else sm.awaitingQueue + [session]))
      && (removes ==> forall x :: x in r.awaitingQueue <==> x in sm.awaitingQueue && x != session)
      && (removes ==> (ev == QueueEmpty <==> |r.awaitingQueue| == 0 && sm.autoFocusActive))
      && (removes && ev != QueueEmpty ==> (ev == Trigger <==> leaving))
      && (!entering && !removes ==> ev == NoEvent && r.awaitingQueue == sm.awaitingQueue)
  {
  }

  lemma UpdateStatePreservesValid(sm: StateManager, session: string, state: AgentState, tool: string,
                                  agentType: string, now: nat)
    requires Valid(sm)
    ensures Valid(UpdateState(sm, session, state, tool, agentType, now).0)
  {
    var r := UpdateState(sm, session, state, tool, agentType, now).0;
    var actual := StoredState(sm, session, state);
    var q := QueueAfter(sm, session, actual).0;
    assert r.awaitingQueue == q && r.sessions[session].state == actual;
    forall s | s in q
      ensures IsAwaiting(r, s)
    {
      if s != session {
        assert IsAwaiting(sm, s);
      }
    }
    forall s | s in r.sessions && r.sessions[s].state == Awaiting
      ensures s in q
    {
      if s != session {
        assert IsAwaiting(sm, s);
      }
    }
  }

  /** The group of the first session in `order` whose group occurs in `title` (`Iterator::find`). */
  function GroupInTitle(order: seq<string>, title: string): (r: Option<string>)
    ensures r.Some? ==> Contains(title, r.value) && exists s :: s in order && GroupOf(s) == r.value
    ensures r.None? <==> forall s :: s in order ==> !Contains(title, GroupOf(s))
    decreases |order|
  {
    if |order| == 0 then None
    else
      assert forall s :: s in order <==> s == order[0] || s in order[1..];
      if Contains(title, GroupOf(order[0])) then Some(GroupOf(order[0]))
      else GroupInTitle(order[1..], title)
  }

  /** The group of the first session in `order` whose agent type is `agentType`. */
  function GroupOfType(sm: StateManager, order: seq<string>, agentType: string): (r: Option<string>)
    ensures r.Some? ==>
      exists s :: s in order && s in sm.sessions && sm.sessions[s].agentType == agentType && GroupOf(s) == r.value
    ensures r.None? <==> forall s :: s in order && s in sm.sessions ==> sm.sessions[s].agentType != agentType
    decreases |order|
  {
    if |order| == 0 then None
    else
      assert forall s :: s in order <==> s == order[0] || s in order[1..];
      if order[0] in sm.sessions && sm.sessions[order[0]].agentType == agentType then Some(GroupOf(order[0]))
      else GroupOfType(sm, order[1..], agentType)
  }

  /**
   * The group `update_window_focus` focuses: the group of the first session
   * (in hash order) whose group occurs in the title; failing that, the group of
   * the first session of the given, non-empty agent type.
   */
  function FocusCandidate(sm: StateManager, order: seq<string>, title: string,
                          agentType: Option<string>): (r: Option<string>)
    requires IsEnumeration(order, sm.sessions.Keys)
    ensures r.Some? ==>
      exists s :: s in sm.sessions && GroupOf(s) == r.value
        && (Contains(title, GroupOf(s)) || (agentType.Some? && sm.sessions[s].agentType == agentType.value != ""))
    ensures (exists s :: s in sm.sessions && Contains(title, GroupOf(s))) ==>
      r.Some? && Contains(title, r.value)
    ensures r.None? <==> forall s :: s in sm.sessions ==>
        && !Contains(title, GroupOf(s))
        && (agentType.None? || agentType.value == "" || sm.sessions[s].agentType != agentType.value)
  {
    match GroupInTitle(order, title)
    case Some(g) => Some(g)
    case None =>
      if agentType.None? || agentType.value == "" then None
      else GroupOfType(sm, order, agentType.value)
  }

  /** Focusing `group` turns its Completed sessions into Started ones; nothing else changes. */
  function DemoteGroup(sessions: map<string, SessionInfo>, group: Option<string>): (r: map<string, SessionInfo>)
    ensures r.Keys == sessions.Keys
    ensures forall s :: s in sessions && sessions[s].state == Completed && group == Some(GroupOf(s)) ==>
      r[s] == sessions[s].(state := Started)
    ensures forall s :: s in sessions && !(sessions[s].state == Completed && group == Some(GroupOf(s))) ==>
      r[s] == sessions[s]
  {
    map s | s in sessions ::
      if group == Some(GroupOf(s)) && sessions[s].state == Completed then sessions[s].(state := Started)
      else sessions[s]
  }

  /** `update_window_focus`: returns whether the focused group changed. */
  function UpdateWindowFocus(sm: StateManager, order: seq<string>, title: string,
                             agentType: Option<string>): (r: (StateManager, bool))
    requires IsEnumeration(order, sm.sessions.Keys)
    ensures r.1 <==> r.0.focusedGroup != sm.focusedGroup
    ensures r.0.focusedGroup == FocusCandidate(sm, order, title, agentType)
    ensures r.0.sessions == DemoteGroup(sm.sessions, r.0.focusedGroup)
    ensures r.0.(sessions := sm.sessions, focusedGroup := sm.focusedGroup) == sm
  {
    var g := FocusCandidate(sm, order, title, agentType);
    (sm.(focusedGroup := g, sessions := DemoteGroup(sm.sessions, g)), sm.focusedGroup != g)
  }

  lemma UpdateWindowFocusPreservesValid(sm: StateManager, order: seq<string>, title: string,
                                        agentType: Option<string>)
    requires IsEnumeration(order, sm.sessions.Keys) && Valid(sm)
    ensures Valid(UpdateWindowFocus(sm, order, title, agentType).0)
  {
    var g := UpdateWindowFocus(sm, order, title, agentType).0.focusedGroup;
    DemotePreservesValid(sm, g);
  }

  lemma DemotePreservesValid(sm: StateManager, g: Option<string>)
    requires Valid(sm)
    ensures Valid(sm.(sessions := DemoteGroup(sm.sessions, g), focusedGroup := g))
  {
    var r := sm.(sessions := DemoteGroup(sm.sessions, g), focusedGroup := g);
    forall s | s in r.sessions
      ensures r.sessions[s].state == Awaiting <==> sm.sessions[s].state == Awaiting
      ensures r.sessions[s].endedAt == sm.sessions[s].endedAt
      ensures r.sessions[s].state == Ended <==> sm.sessions[s].state == Ended
    {
    }
  }

  /**
   * `remove_session`: drops the session and its queue entry, and the
   * placement stored under the session's full key; returns whether it existed.
   */
  function RemoveSession(sm: StateManager, session: string): (r: (StateManager, bool))
    ensures r.1 <==> session in sm.sessions
    ensures session !in r.0.sessions && r.0.sessions.Keys == sm.sessions.Keys - {session}
    ensures forall s :: s in r.0.sessions ==> r.0.sessions[s] == sm.sessions[s]
    ensures forall x :: x in r.0.awaitingQueue <==> x in sm.awaitingQueue && x != session
    ensures r.0.workspaces == sm.workspaces - {session}
    ensures Valid(sm) ==> Valid(r.0)
  {
    (sm.(awaitingQueue := RemoveAll(sm.awaitingQueue, session),
         workspaces := sm.workspaces - {session},
         sessions := sm.sessions - {session}),
     session in sm.sessions)
  }

  /** The staleness rule of `cleanup_ended`. */
  predicate GoesStale(sm: StateManager, s: string, info: SessionInfo, now: nat)
  {
    && info.endedAt.None?
    && info.agentType != ClaudeType
    && info.state == Started
    && Elapsed(now, info.lastActivity) >= StaleTimeoutMs
    && sm.focusedGroup != Some(GroupOf(s))
  }

  /** An Ended session whose end lies at least `EndedHideDelayMs` in the past. */
  predicate Expired(info: SessionInfo, now: nat)
  {
    info.endedAt.Some? && Elapsed(now, info.endedAt.value) >= EndedHideDelayMs
  }

  lemma {:induction false} SubsetNotLarger<T>(a: set<T>, b: set<T>)
    requires a <= b
    ensures |a| <= |b|
    decreases b
  {
    if a != {} {
      var x :| x in a;
      SubsetNotLarger(a - {x}, b - {x});
    }
  }

  lemma StrictSubsetSmaller<T>(a: set<T>, b: set<T>)
    requires a <= b && a != b
    ensures |a| < |b|
  {
    var x :| x in b && x !in a;
    SubsetNotLarger(a, b - {x});
  }

  /** The first pass of `cleanup_ended`: stale sessions are ended now. */
  function MarkStale(sm: StateManager, now: nat): (r: map<string, SessionInfo>)
    ensures r.Keys == sm.sessions.Keys
    ensures forall s :: s in r && GoesStale(sm, s, sm.sessions[s], now) ==>
      r[s] == sm.sessions[s].(state := Ended, endedAt := Some(now))
    ensures forall s :: s in r && !GoesStale(sm, s, sm.sessions[s], now) ==> r[s] == sm.sessions[s]
  {
    map s | s in sm.sessions ::
      if GoesStale(sm, s, sm.sessions[s], now)
      then sm.sessions[s].(state := Ended, endedAt := Some(now))
      else sm.sessions[s]
  }

  /** The second pass of `cleanup_ended`: keep what has not been ended long enough. */
  function DropExpired(m: map<string, SessionInfo>, now: nat): (r: map<string, SessionInfo>)
    ensures r.Keys == set s | s in m && !Expired(m[s], now)
    ensures forall s :: s in r ==> r[s] == m[s]
  {
    map s | s in m && !Expired(m[s], now) :: m[s]
  }

  /** `cleanup_ended`: end stale sessions, then drop sessions ended long enough ago. */
  function CleanupEnded(sm: StateManager, now: nat): (r: (StateManager, bool))
    ensures r.0.sessions.Keys == set s | s in sm.sessions && !Expired(sm.sessions[s], now)
    ensures forall s :: s in sm.sessions && sm.sessions[s].endedAt.None? ==> s in r.0.sessions
    ensures forall s :: s in r.0.sessions && GoesStale(sm, s, sm.sessions[s], now) ==>
      r.0.sessions[s] == sm.sessions[s].(state := Ended, endedAt := Some(now))
    ensures forall s :: s in r.0.sessions && !GoesStale(sm, s, sm.sessions[s], now) ==>
      r.0.sessions[s] == sm.sessions[s]
    ensures r.0.(sessions := sm.sessions) == sm
  {
    var marked := MarkStale(sm, now);
    var kept := DropExpired(marked, now);
    assert forall s :: s in sm.sessions ==> (Expired(marked[s], now) <==> Expired(sm.sessions[s], now)) by {
      forall s | s in sm.sessions && GoesStale(sm, s, sm.sessions[s], now)
        ensures !Expired(marked[s], now) && !Expired(sm.sessions[s], now)
      {
        assert marked[s].endedAt == Some(now);
      }
    }
    var changed := exists s :: s in sm.sessions && GoesStale(sm, s, sm.sessions[s], now);
    (sm.(sessions := kept), changed || |kept| != |sm.sessions|)
  }

  /** `cleanup_ended` reports a change exactly when it ended or dropped some session. */
  lemma CleanupEndedChanged(sm: StateManager, now: nat)
    ensures CleanupEnded(sm, now).1 <==>
      exists s :: s in sm.sessions && (GoesStale(sm, s, sm.sessions[s], now) || Expired(sm.sessions[s], now))
  {
    var kept := CleanupEnded(sm, now).0.sessions;
    if s :| s in sm.sessions && Expired(sm.sessions[s], now) {
      assert s !in kept;
      StrictSubsetSmaller(kept.Keys, sm.sessions.Keys);
    } else {
      assert kept.Keys == sm.sessions.Keys;
    }
  }

  lemma CleanupEndedPreservesValid(sm: StateManager, now: nat)
    requires Valid(sm)
    ensures Valid(CleanupEnded(sm, now).0)
  {
  }

  /** `update_workspace`: record the placement under the session's group. */
  function UpdateWorkspace(sm: StateManager, session: string, workspace: nat, monitor: nat): (r: StateManager)
    ensures GetPlacement(r.workspaces, GroupOf(session)) == Placement(workspace, monitor)
    ensures forall k :: k != GroupOf(session) ==> GetPlacement(r.workspaces, k) == GetPlacement(sm.workspaces, k)
    ensures r.(workspaces := sm.workspaces) == sm
    ensures Valid(sm) ==> Valid(r)
  {
    sm.(workspaces := sm.workspaces[GroupOf(session) := Placement(workspace, monitor)])
  }

  function SetIdle(sm: StateManager, idle: bool): (r: StateManager)
    ensures r.userIdle == idle && r.(userIdle := sm.userIdle) == sm
  {
    sm.(userIdle := idle)
  }

  function SetAutoFocusConfig(sm: StateManager, enabled: bool, focusDelayMs: nat): (r: StateManager)
    ensures r.autoFocusEnabled == enabled && r.focusDelayMs == focusDelayMs
    ensures r.(autoFocusEnabled := sm.autoFocusEnabled, focusDelayMs := sm.focusDelayMs) == sm
  {
    sm.(autoFocusEnabled := enabled, focusDelayMs := focusDelayMs)
  }

  /** `should_auto_focus`: enabled, the user is idle, and some session awaits. */
  function ShouldAutoFocus(sm: StateManager): (r: bool)
    ensures Valid(sm) ==> (r <==> sm.autoFocusEnabled && sm.userIdle && exists s :: IsAwaiting(sm, s))
  {
    assert |sm.awaitingQueue| > 0 ==> sm.awaitingQueue[0] in sm.awaitingQueue;
    sm.autoFocusEnabled && sm.userIdle && |sm.awaitingQueue| > 0
  }

  /** `next_awaiting`: the oldest awaiting session, left in the queue; marks auto-focus active. */
  function NextAwaiting(sm: StateManager): (r: (StateManager, Option<string>))
    ensures r.1.None? <==> |sm.awaitingQueue| == 0
    ensures r.1.None? ==> r.0 == sm
    ensures r.1.Some? ==> r.1.value == sm.awaitingQueue[0] && r.0 == sm.(autoFocusActive := true)
    ensures Valid(sm) && r.1.Some? ==> IsAwaiting(sm, r.1.value)
    ensures Valid(sm) ==> Valid(r.0)
  {
    if |sm.awaitingQueue| == 0 then (sm, None)
    else (sm.(autoFocusActive := true), Some(sm.awaitingQueue[0]))
  }

  /** `clear_all`: forget sessions, placements, the queue and the focus. */
  function ClearAll(sm: StateManager): (r: StateManager)
    ensures r.sessions == map[] && r.workspaces == map[] && r.awaitingQueue == []
    ensures r.focusedGroup == None && r.lastFocusIndex == 0
    ensures r.autoFocusEnabled == sm.autoFocusEnabled && r.focusDelayMs == sm.focusDelayMs
    ensures r.userIdle == sm.userIdle && r.autoFocusActive == sm.autoFocusActive
    ensures Valid(r)
  {
    sm.(sessions := map[], workspaces := map[], awaitingQueue := [], focusedGroup := None, lastFocusIndex := 0)
  }

  /** `mark_all_started`: every Awaiting session becomes Started; the queue empties. */
  function MarkAllStarted(sm: StateManager): (r: StateManager)
    ensures r.sessions.Keys == sm.sessions.Keys
    ensures forall s :: s in sm.sessions && sm.sessions[s].state == Awaiting ==>
      r.sessions[s] == sm.sessions[s].(state := Started)
    ensures forall s :: s in sm.sessions && sm.sessions[s].state != Awaiting ==> r.sessions[s] == sm.sessions[s]
    ensures forall s :: !IsAwaiting(r, s)
    ensures r.awaitingQueue == []
    ensures r.(sessions := sm.sessions, awaitingQueue := sm.awaitingQueue) == sm
    ensures Valid(sm) ==> Valid(r)
  {
    var sessions := map s | s in sm.sessions ::
      if sm.sessions[s].state == Awaiting then sm.sessions[s].(state := Started) else sm.sessions[s];
    sm.(sessions := sessions, awaitingQueue := [])
  }

  // ---- get_render_data ----

  /** The sessions of a render list, in order. */
  function SessionsOf(agents: seq<AgentInfo>): (r: seq<string>)
    ensures |r| == |agents|
    ensures forall i :: 0 <= i < |agents| ==> r[i] == agents[i].session
  {
    seq(|agents|, i requires 0 <= i < |agents| => agents[i].session)
  }

  /** A row carries its session's state and type, and is focused iff its group is. */
  predicate RowOf(sm: StateManager, a: AgentInfo)
  {
    && a.session in sm.sessions
    && a.state == sm.sessions[a.session].state
    && a.agentType == sm.sessions[a.session].agentType
    && (a.focused <==> sm.focusedGroup == Some(GroupOf(a.session)))
  }

  /** Group numbers start at 0 and go up by one exactly where the group name changes. */
  predicate GroupNumbering(agents: seq<AgentInfo>)
  {
    && (|agents| > 0 ==> agents[0].group == 0)
    && forall i :: 0 < i < |agents| ==>
         agents[i].group == if GroupOf(agents[i].session) == GroupOf(agents[i - 1].session)
                            then agents[i - 1].group else agents[i - 1].group + 1
  }

  lemma GroupNumberingSnoc(agents: seq<AgentInfo>, a: AgentInfo)
    requires GroupNumbering(agents)
    requires |agents| == 0 ==> a.group == 0
    requires |agents| > 0 ==> a.group == if GroupOf(a.session) == GroupOf(agents[|agents| - 1].session)
                                         then agents[|agents| - 1].group else agents[|agents| - 1].group + 1
    ensures GroupNumbering(agents + [a])
  {
    var r := agents + [a];
    forall i | 0 < i < |r|
      ensures r[i].group == if GroupOf(r[i].session) == GroupOf(r[i - 1].session) then r[i - 1].group else r[i - 1].group + 1
    {
      if i < |agents| {
        assert r[i] == agents[i] && r[i - 1] == agents[i - 1];
      }
    }
  }

  /** What `get_render_data` promises: every session once, in placement order, numbered by group. */
  predicate IsRenderOf(sm: StateManager, agents: seq<AgentInfo>)
  {
    && StrictlySorted(sm.workspaces, SessionsOf(agents))
    && (forall s :: s in sm.sessions ==> s in SessionsOf(agents))
    && (forall i :: 0 <= i < |agents| ==> RowOf(sm, agents[i]))
    && GroupNumbering(agents)
  }

  /** `get_render_data`. */
  method GetRenderData(sm: StateManager, order: seq<string>) returns (agents: seq<AgentInfo>)
    requires IsEnumeration(order, sm.sessions.Keys)
    ensures IsRenderOf(sm, agents)
    ensures |agents| == |sm.sessions|
  {
    var keys := Sort(sm.workspaces, order);
    assert |sm.sessions.Keys| == |order| by { EnumerationSize(order, sm.sessions.Keys); }
    agents := BuildRows(sm, keys);
    RowsMakeRender(sm, keys, agents);
  }

  /** The loop of `get_render_data`: one row per key, numbering groups as they change. */
  method BuildRows(sm: StateManager, keys: seq<string>) returns (agents: seq<AgentInfo>)
    requires forall s :: s in keys ==> s in sm.sessions
    ensures |agents| == |keys|
    ensures forall i :: 0 <= i < |agents| ==> agents[i].session == keys[i] && RowOf(sm, agents[i])
    ensures GroupNumbering(agents)
  {
    agents := [];
    var group: nat := 0;
    var prev: Option<string> := None;
    for k := 0 to |keys|
      invariant |agents| == k
      invariant forall i :: 0 <= i < k ==> agents[i].session == keys[i] && RowOf(sm, agents[i])
      invariant GroupNumbering(agents)
      invariant k == 0 ==> prev.None? && group == 0
      invariant k > 0 ==> prev == Some(GroupOf(keys[k - 1])) && group == agents[k - 1].group
    {
      var session := keys[k];
      assert session in keys;
      var info := sm.sessions[session];
      var g := GroupOf(session);
      if prev != Some(g) {
        if prev.Some? {
          group := group + 1;
        }
        prev := Some(g);
      }
      var row := AgentInfo(session, info.state, sm.focusedGroup == Some(g), group, info.agentType);
      assert RowOf(sm, row);
      GroupNumberingSnoc(agents, row);
      var next := agents + [row];
      assert forall i :: 0 <= i < k ==> next[i] == agents[i];
      assert next[k] == row;
      agents := next;
    }
  }

  /** Rows built one per key, in sorted key order, form the render list. */
  lemma RowsMakeRender(sm: StateManager, keys: seq<string>, agents: seq<AgentInfo>)
    requires StrictlySorted(sm.workspaces, keys)
    requires forall s :: s in sm.sessions ==> s in keys
    requires |agents| == |keys|
    requires forall i :: 0 <= i < |agents| ==> agents[i].session == keys[i] && RowOf(sm, agents[i])
    requires GroupNumbering(agents)
    ensures IsRenderOf(sm, agents)
  {
    assert SessionsOf(agents) == keys;
  }

  lemma {:induction false} GroupsAgree(a: seq<AgentInfo>, b: seq<AgentInfo>, n: nat)
    requires |a| == |b| && n <= |a|
    requires GroupNumbering(a) && GroupNumbering(b)
    requires forall i :: 0 <= i < |a| ==> a[i].session == b[i].session
    ensures forall i :: 0 <= i < n ==> a[i].group == b[i].group
  {
    if n > 0 {
      GroupsAgree(a, b, n - 1);
      if n > 1 {
        assert a[n - 1].group == if GroupOf(a[n - 1].session) == GroupOf(a[n - 2].session)
                                 then a[n - 2].group else a[n - 2].group + 1;
      }
    }
  }

  /**
   * The render list is determined by the store alone: whatever order the
   * hash map yields its keys in, `get_render_data` produces the same list.
   */
  lemma {:induction false} RenderUnique(sm: StateManager, a: seq<AgentInfo>, b: seq<AgentInfo>)
    requires IsRenderOf(sm, a) && IsRenderOf(sm, b)
    ensures a == b
  {
    var sa, sb := SessionsOf(a), SessionsOf(b);
    forall y
      ensures y in sa <==> y in sb
    {
      if y in sa {
        var i :| 0 <= i < |sa| && sa[i] == y;
        assert RowOf(sm, a[i]);
      }
      if y in sb {
        var i :| 0 <= i < |sb| && sb[i] == y;
        assert RowOf(sm, b[i]);
      }
    }
    SortedUnique(sm.workspaces, sa, sb);
    GroupsAgree(a, b, |a|);
    forall i | 0 <= i < |a|
      ensures a[i] == b[i]
    {
      assert RowOf(sm, a[i]) && RowOf(sm, b[i]);
    }
  }

  // ---- focus_next ----

  /** The order in which `focus_next` looks for a session to focus. */
  const FocusPriorities: seq<AgentState> := [Awaiting, Completed, Started]

  /** The sessions in state `st`, in render order. */
  function Matching(sm: StateManager, order: seq<string>, st: AgentState): (r: seq<string>)
    requires NoDup(order)
    ensures StrictlySorted(sm.workspaces, r)
    ensures forall s :: s in r <==> s in order && s in sm.sessions && sm.sessions[s].state == st
  {
    var sessions := sm.sessions;
    Sort(sm.workspaces, Filter(order, s => s in sessions && sessions[s].state == st))
  }

  /** Some session is in state `st`. */
  predicate AnyIn(sm: StateManager, st: AgentState)
  {
    exists s :: s in sm.sessions && sm.sessions[s].state == st
  }

  lemma MatchingEmpty(sm: StateManager, order: seq<string>, st: AgentState)
    requires IsEnumeration(order, sm.sessions.Keys)
    ensures |Matching(sm, order, st)| == 0 <==> !AnyIn(sm, st)
  {
    var m := Matching(sm, order, st);
    if s :| s in sm.sessions && sm.sessions[s].state == st {
      assert s in m;
    }
    if |m| > 0 {
      assert m[0] in m;
    }
  }

  /** One step of the rotation through the sessions in state `st`. */
  function Pick(sm: StateManager, order: seq<string>, st: AgentState): (r: (StateManager, string))
    requires IsEnumeration(order, sm.sessions.Keys) && AnyIn(sm, st)
    ensures r.1 in sm.sessions && sm.sessions[r.1].state == st
    ensures var m := Matching(sm, order, st);
      && r.0 == sm.(lastFocusIndex := (sm.lastFocusIndex + 1) % |m|)
      && r.0.lastFocusIndex < |m| && r.1 == m[r.0.lastFocusIndex]
  {
    MatchingEmpty(sm, order, st);
    var m := Matching(sm, order, st);
    var idx := (sm.lastFocusIndex + 1) % |m|;
    assert m[idx] in m;
    (sm.(lastFocusIndex := idx), m[idx])
  }

  /**
   * `r` is what serving class `priorities[k]` yields, and `k` is the first
   * class in `priorities` with a session in it.
   */
  predicate ServesClass(sm: StateManager, order: seq<string>, priorities: seq<AgentState>, k: int,
                        r: (StateManager, string))
    requires IsEnumeration(order, sm.sessions.Keys)
  {
    && 0 <= k < |priorities| && AnyIn(sm, priorities[k])
    && (forall j :: 0 <= j < k ==> !AnyIn(sm, priorities[j]))
    && r == Pick(sm, order, priorities[k])
  }

  /** The loop of `focus_next` over the remaining priority classes. */
  function FocusNextFrom(sm: StateManager, order: seq<string>, priorities: seq<AgentState>): (r: (StateManager, Option<string>))
    requires IsEnumeration(order, sm.sessions.Keys)
    ensures r.1.None? <==> forall k :: 0 <= k < |priorities| ==> !AnyIn(sm, priorities[k])
    ensures r.1.None? ==> r.0 == sm
    ensures r.1.Some? ==> exists k :: ServesClass(sm, order, priorities, k, (r.0, r.1.value))
  {
    if |priorities| == 0 then (sm, None)
    else
      // `matching.is_empty()` holds exactly when no session is in the class (MatchingEmpty)
      if !AnyIn(sm, priorities[0]) then
        var rest := priorities[1..];
        var r := FocusNextFrom(sm, order, rest);
        assert forall k :: 0 < k < |priorities| ==> priorities[k] == rest[k - 1];
        assert r.1.Some? ==> exists k :: ServesClass(sm, order, priorities, k, (r.0, r.1.value)) by {
          if r.1.Some? {
            var k :| ServesClass(sm, order, rest, k, (r.0, r.1.value));
            assert ServesClass(sm, order, priorities, k + 1, (r.0, r.1.value));
          }
        }
        r
      else
        var p := Pick(sm, order, priorities[0]);
        assert ServesClass(sm, order, priorities, 0, p);
        (p.0, Some(p.1))
  }

  /** The class `focus_next` serves: the first non-empty one of Awaiting, Completed, Started. */
  function UrgentClass(sm: StateManager): Option<AgentState>
  {
    if AnyIn(sm, Awaiting) then Some(Awaiting)
    else if AnyIn(sm, Completed) then Some(Completed)
    else if AnyIn(sm, Started) then Some(Started)
    else None
  }

  /**
   * `focus_next`: rotate through the sessions of the most urgent non-empty
   * state class (Awaiting, then Completed, then Started), in render order.
   */
  function FocusNext(sm: StateManager, order: seq<string>): (r: (StateManager, Option<string>))
    requires IsEnumeration(order, sm.sessions.Keys)
    ensures r.1.None? <==> !AnyIn(sm, Awaiting) && !AnyIn(sm, Completed) && !AnyIn(sm, Started)
    ensures r.1.None? ==> r.0 == sm
    ensures r.1.Some? ==> UrgentClass(sm).Some? && (r.0, r.1.value) == Pick(sm, order, UrgentClass(sm).value)
  {
    var r := FocusNextFrom(sm, order, FocusPriorities);
    assert FocusPriorities[0] == Awaiting && FocusPriorities[1] == Completed && FocusPriorities[2] == Started;
    r
  }

  /** `focus_next` does not depend on the hash map's iteration order. */
  lemma FocusNextIgnoresEnumeration(sm: StateManager, o1: seq<string>, o2: seq<string>)
    requires IsEnumeration(o1, sm.sessions.Keys) && IsEnumeration(o2, sm.sessions.Keys)
    ensures FocusNext(sm, o1) == FocusNext(sm, o2)
  {
    var c := UrgentClass(sm);
    if c.Some? {
      SortedUnique(sm.workspaces, Matching(sm, o1, c.value), Matching(sm, o2, c.value));
    }
  }

  /**
   * Two `focus_next` calls in a row, with nothing else changing, visit
   * neighbours of the same class: the second returns the session after the
   * first in render order, wrapping around at the end.
   */
  lemma FocusNextRotates(sm: StateManager, order: seq<string>)
    requires IsEnumeration(order, sm.sessions.Keys)
    requires FocusNext(sm, order).1.Some?
    ensures var sm1 := FocusNext(sm, order).0;
      var a := FocusNext(sm, order).1.value;
      var b := FocusNext(sm1, order).1;
      var m := Matching(sm, order, sm.sessions[a].state);
      && b.Some? && a == m[sm1.lastFocusIndex]
      && b.value == m[(sm1.lastFocusIndex + 1) % |m|]
  {
    var sm1 := FocusNext(sm, order).0;
    var c := UrgentClass(sm).value;
    assert sm1 == sm.(lastFocusIndex := sm1.lastFocusIndex);
    assert UrgentClass(sm1) == UrgentClass(sm);
    assert Matching(sm1, order, c) == Matching(sm, order, c);
  }
}

=== FILE: desktop.dfy ===
/**
 * The part of the GNOME Shell desktop the client reads and drives, as plain
 * data. A window is an abstract id carrying the attributes the client asks
 * for; the client's actions on the desktop are recorded as a command trace
 * instead of being performed.
 */
module Desktop {
  import opened Wrappers

  type WinId = nat

  /**
   * What the client reads from a window. An unset WM class or title is `""`,
   * the value the client substitutes for `null`; `workspace` is the index of
   * the window's workspace, absent when it has none.
   */
  datatype WinAttrs = WinAttrs(wmClass: string, title: string, workspace: Option<nat>, monitor: nat)

  /** A window the desktop knows nothing about answers like a blank one. */
  const BlankWindow: WinAttrs := WinAttrs("", "", None, 0)

  /**
   * The desktop: the windows in the order the shell lists them, their
   * attributes, the primary monitor, the active workspace and the number of
   * workspaces, and the focused window.
   */
  datatype Display = Display(
    windows: seq<WinId>,
    attrs: map<WinId, WinAttrs>,
    primaryMonitor: nat,
    activeWorkspace: nat,
    workspaceCount: nat,
    focusWindow: Option<WinId>)
  {
    function Attrs(w: WinId): WinAttrs
    {
      if w in attrs then attrs[w] else BlankWindow
    }

    function WmClass(w: WinId): string
    {
      Attrs(w).wmClass
    }

    function Title(w: WinId): string
    {
      Attrs(w).title
    }

    predicate OnPrimary(w: WinId)
    {
      Attrs(w).monitor == primaryMonitor
    }
  }

  /** Activating a workspace (by index) or a window. */
  datatype Command = ActivateWorkspace(index: nat) | ActivateWindow(win: WinId)
}

=== FILE: focus_manager.dfy ===
/**
 * The client's focus coordinator: resolving a session to a window,
 * activating it, the auto-focus "where was I" workspace, and the per-group
 * cache that keeps `session_workspace` messages from repeating.
 *
 * Every operation is a pure function of the coordinator's state, the type
 * table, the tracker's maps and the desktop; it returns the new state with
 * the desktop commands or daemon messages it would issue, in order.
 */
module FocusManager {
  import opened Wrappers
  import opened Text
  import opened Seqs
  import opened AgentTypes
  import opened TitleParse
  import opened Desktop
  import opened WindowTracker
  import opened Protocol
  import opened SessionOrder

  /**
   * `_originalWorkspace`: the workspace to go back to after an auto-focus;
   * `_sessionWorkspaces`: the last placement sent for each group.
   */
  datatype Focuser = Focuser(originalWorkspace: Option<nat>, sessionWorkspaces: map<string, Placement>)

  const Fresh: Focuser := Focuser(None, map[])

  // ---- resolving a session to a window ----

  /**
   * Whether window `w` belongs to `group` in the fallback scan: a group that
   * names an agent type matches that type's WM classes; any other group
   * matches an agent window whose title contains it.
   */
  predicate WindowMatches(cat: Catalog, d: Display, w: WinId, group: string)
  {
    match TypeNamed(group)
    case Some(ty) => ContainsAny(d.WmClass(w), cat.ClassesOf(ty))
    case None => IsAgentWindow(cat, d, w) && Contains(d.Title(w), group)
  }

  function Matcher(cat: Catalog, d: Display, group: string): WinId -> bool
  {
    (w: WinId) => WindowMatches(cat, d, w, group)
  }

  /**
   * The window a session resolves to: the one the tracker maps it to, else
   * the first window in the shell's list that matches the session's group.
   */
  function Resolve(cat: Catalog, t: Tracker, d: Display, session: string): (r: Option<WinId>)
    ensures session in t.sessionToWindow ==> r == Some(t.sessionToWindow[session])
    ensures session !in t.sessionToWindow && r.Some? ==>
      exists j :: 0 <= j < |d.windows| && d.windows[j] == r.value
        && WindowMatches(cat, d, d.windows[j], GroupOf(session))
        && forall i :: 0 <= i < j ==> !WindowMatches(cat, d, d.windows[i], GroupOf(session))
    ensures r.None? <==>
      session !in t.sessionToWindow
      && forall j :: 0 <= j < |d.windows| ==> !WindowMatches(cat, d, d.windows[j], GroupOf(session))
  {
    match WindowForSession(t, session)
    case Some(w) => Some(w)
    case None =>
      match FirstIndex(d.windows, Matcher(cat, d, GroupOf(session)))
      case Some(j) => Some(d.windows[j])
      case None => None
  }

  /**
   * How a window is brought forward: its workspace is switched to first when
   * the window has one and sits on the primary monitor, then the window is
   * activated.
   */
  function Activation(d: Display, w: WinId): (r: seq<Command>)
    ensures 1 <= |r| <= 2 && r[|r| - 1] == ActivateWindow(w)
    ensures |r| == 2 <==> d.OnPrimary(w) && d.Attrs(w).workspace.Some?
    ensures |r| == 2 ==> r[0] == ActivateWorkspace(d.Attrs(w).workspace.value)
  {
    var ws := d.Attrs(w).workspace;
    (if ws.Some? && d.OnPrimary(w) then [ActivateWorkspace(ws.value)] else []) + [ActivateWindow(w)]
  }

  /** The loop of `focusWindow`: activate the first matching window and stop. */
  function FocusScan(cat: Catalog, d: Display, group: string, ws: seq<WinId>): (r: seq<Command>)
    ensures r == match FirstIndex(ws, Matcher(cat, d, group))
                 case None => []
                 case Some(j) => Activation(d, ws[j])
    decreases |ws|
  {
    if |ws| == 0 then []
    else if WindowMatches(cat, d, ws[0], group) then Activation(d, ws[0])
    else FocusScan(cat, d, group, ws[1..])
  }

  /**
   * `focusWindow`: the commands issued are the activation of the window the
   * session resolves to, or nothing when it resolves to none.
   */
  function FocusWindow(cat: Catalog, t: Tracker, d: Display, session: string): (r: seq<Command>)
    ensures r == match Resolve(cat, t, d, session)
                 case None => []
                 case Some(w) => Activation(d, w)
  {
    match WindowForSession(t, session)
    case Some(w) => Activation(d, w)
    case None => FocusScan(cat, d, GroupOf(session), d.windows)
  }

  /**
   * Whatever `focusWindow` issues ends with activating the resolved window,
   * and a workspace switch, if any, comes first and is to that window's
   * workspace.
   */
  lemma FocusWindowOrder(cat: Catalog, t: Tracker, d: Display, session: string)
    ensures var r := FocusWindow(cat, t, d, session);
      && (r == [] <==> Resolve(cat, t, d, session).None?)
      && (r != [] ==> r[|r| - 1] == ActivateWindow(Resolve(cat, t, d, session).value))
      && (forall i :: 0 <= i < |r| && r[i].ActivateWorkspace? ==>
            i == 0 && |r| == 2 && d.Attrs(r[1].win).workspace == Some(r[i].index) && d.OnPrimary(r[1].win))
  {
  }

  /** The loop of `isOnPrimaryMonitor`: the monitor test of the first matching window. */
  function PrimaryScan(cat: Catalog, d: Display, group: string, ws: seq<WinId>): (r: bool)
    ensures r <==> match FirstIndex(ws, Matcher(cat, d, group))
                   case None => true
                   case Some(j) => d.OnPrimary(ws[j])
    decreases |ws|
  {
    if |ws| == 0 then true
    else if WindowMatches(cat, d, ws[0], group) then d.OnPrimary(ws[0])
    else PrimaryScan(cat, d, group, ws[1..])
  }

  /**
   * `isOnPrimaryMonitor`: the window `focusWindow` would pick is on the
   * primary monitor, or there is no such window.
   */
  function IsOnPrimaryMonitor(cat: Catalog, t: Tracker, d: Display, session: string): (r: bool)
    ensures r <==> Resolve(cat, t, d, session).None? || d.OnPrimary(Resolve(cat, t, d, session).value)
  {
    match WindowForSession(t, session)
    case Some(w) => d.OnPrimary(w)
    case None => PrimaryScan(cat, d, GroupOf(session), d.windows)
  }

  // ---- the auto-focus workspace ----

  /**
   * `handleAutoFocus`: remember the active workspace if nothing is
   * remembered yet and the target is on the primary monitor, then focus.
   */
  function HandleAutoFocus(f: Focuser, cat: Catalog, t: Tracker, d: Display, session: string): (r: (Focuser, seq<Command>))
    ensures r.1 == FocusWindow(cat, t, d, session)
    ensures r.0.sessionWorkspaces == f.sessionWorkspaces
    ensures f.originalWorkspace.Some? ==> r.0.originalWorkspace == f.originalWorkspace
    ensures f.originalWorkspace.None? ==>
      r.0.originalWorkspace == if IsOnPrimaryMonitor(cat, t, d, session) then Some(d.activeWorkspace) else None
  {
    var f1 := if f.originalWorkspace.None? && IsOnPrimaryMonitor(cat, t, d, session)
              then f.(originalWorkspace := Some(d.activeWorkspace)) else f;
    (f1, FocusWindow(cat, t, d, session))
  }

  /**
   * `returnWorkspace`: switch back to the remembered workspace if it still
   * exists, and forget it.
   */
  function ReturnWorkspace(f: Focuser, d: Display): (r: (Focuser, seq<Command>))
    ensures r.0 == f.(originalWorkspace := None)
    ensures f.originalWorkspace.None? ==> r.1 == []
    ensures f.originalWorkspace.Some? ==>
      r.1 == if f.originalWorkspace.value < d.workspaceCount then [ActivateWorkspace(f.originalWorkspace.value)] else []
  {
    match f.originalWorkspace
    case None => (f, [])
    case Some(i) =>
      (f.(originalWorkspace := None), if i < d.workspaceCount then [ActivateWorkspace(i)] else [])
  }

  /**
   * Auto-focus followed by return: when nothing was remembered and the target
   * is on the primary monitor, the return switches back to the workspace that
   * was active at the auto-focus, as long as it still exists, and leaves
   * nothing remembered.
   */
  lemma AutoFocusThenReturn(f: Focuser, cat: Catalog, t: Tracker, d: Display, session: string, d': Display)
    requires f.originalWorkspace.None? && IsOnPrimaryMonitor(cat, t, d, session)
    requires d.activeWorkspace < d'.workspaceCount
    ensures var r := ReturnWorkspace(HandleAutoFocus(f, cat, t, d, session).0, d');
      r.1 == [ActivateWorkspace(d.activeWorkspace)] && r.0 == f
  {
  }

  /**
   * A run of auto-focuses remembers the workspace captured by the first one
   * that captured anything: later ones never overwrite it.
   */
  function AutoFocusAll(f: Focuser, cat: Catalog, t: Tracker, d: seq<Display>, sessions: seq<string>): (r: Focuser)
    requires |d| == |sessions|
    decreases |sessions|
  {
    if |sessions| == 0 then f
    else AutoFocusAll(HandleAutoFocus(f, cat, t, d[0], sessions[0]).0, cat, t, d[1..], sessions[1..])
  }

  lemma {:induction false} AutoFocusKeepsFirstCapture(f: Focuser, cat: Catalog, t: Tracker, d: seq<Display>, sessions: seq<string>)
    requires |d| == |sessions|
    requires f.originalWorkspace.Some?
    ensures AutoFocusAll(f, cat, t, d, sessions) == f
    decreases |sessions|
  {
    if |sessions| > 0 {
      var f1 := HandleAutoFocus(f, cat, t, d[0], sessions[0]).0;
      assert f1 == f;
      AutoFocusKeepsFirstCapture(f1, cat, t, d[1..], sessions[1..]);
    }
  }

  /** The per-agent test of `updateOriginalWorkspace`: an awaiting agent of the window's group. */
  predicate AwaitingFor(cat: Catalog, d: Display, w: WinId, a: AgentInfo)
  {
    a.state == Awaiting && WindowMatches(cat, d, w, GroupOf(a.session))
  }

  /** `agents.some(...)` in `updateOriginalWorkspace`, scanning the list. */
  function HasAwaiting(cat: Catalog, d: Display, w: WinId, agents: seq<AgentInfo>): (r: bool)
    ensures r <==> exists i :: 0 <= i < |agents| && AwaitingFor(cat, d, w, agents[i])
    decreases |agents|
  {
    if |agents| == 0 then false
    else AwaitingFor(cat, d, w, agents[0]) || HasAwaiting(cat, d, w, agents[1..])
  }

  /**
   * `updateOriginalWorkspace`, on a change of focus to `w`: the remembered
   * workspace is forgotten unless `w` is an agent window that some awaiting
   * agent belongs to.
   */
  function UpdateOriginalWorkspace(f: Focuser, cat: Catalog, d: Display, w: WinId, agents: seq<AgentInfo>): (r: Focuser)
    ensures r.sessionWorkspaces == f.sessionWorkspaces
    ensures f.originalWorkspace.None? ==> r == f
    ensures r.originalWorkspace == f.originalWorkspace || r.originalWorkspace.None?
    ensures f.originalWorkspace.Some? ==>
      (r.originalWorkspace.None? <==>
         !IsAgentWindow(cat, d, w)
         || forall i :: 0 <= i < |agents| ==> !AwaitingFor(cat, d, w, agents[i]))
  {
    if f.originalWorkspace.None? then f
    else if IsAgentWindow(cat, d, w) then
      if HasAwaiting(cat, d, w, agents) then f else f.(originalWorkspace := None)
    else f.(originalWorkspace := None)
  }

  // ---- messages to the daemon ----

  /**
   * `sendWindowFocus`: nothing without a window; an empty title for a
   * non-agent window; otherwise the window's session key if the tracker has
   * one, else its raw title. The client never sends an agent type.
   */
  function SendWindowFocus(cat: Catalog, t: Tracker, d: Display, w: Option<WinId>): (r: Option<IncomingMessage>)
    ensures r.None? <==> w.None?
    ensures r.Some? ==> r.value.WindowFocus? && r.value.agentType == ""
    ensures w.Some? && !IsAgentWindow(cat, d, w.value) ==> r == Some(WindowFocus("", ""))
    ensures w.Some? && IsAgentWindow(cat, d, w.value) ==>
      r == Some(WindowFocus(SessionForWindow(t, w.value).GetOr(d.Title(w.value)), ""))
  {
    match w
    case None => None
    case Some(win) =>
      if !IsAgentWindow(cat, d, win) then Some(WindowFocus("", ""))
      else match SessionForWindow(t, win)
        case Some(s) => Some(WindowFocus(s, ""))
        case None => Some(WindowFocus(d.Title(win), ""))
  }

  /**
   * After an agent window's retitle yields a key, its focus report names that
   * key, whatever the window was bound to before.
   */
  lemma RetitledFocusNamesKey(cat: Catalog, t: Tracker, d: Display, w: WinId)
    requires Subscription(w, TitleNotify) in t.live && IsAgentWindow(cat, d, w)
    requires Truthy(ExtractSessionKey(d.Title(w)))
    ensures SendWindowFocus(cat, OnTitleChanged(t, d, w).0, d, Some(w))
      == Some(WindowFocus(ExtractSessionKey(d.Title(w)).value, ""))
  {
    var t1 := OnTitleChanged(t, d, w).0;
    assert SessionForWindow(t1, w) == ExtractSessionKey(d.Title(w));
  }

  /** A focus report for a window the tracker has not bound carries the raw title, or `''` for a non-agent window. */
  lemma UnboundFocusIsTitle(cat: Catalog, t: Tracker, d: Display, w: WinId)
    requires w !in t.windowToSession
    ensures SendWindowFocus(cat, t, d, Some(w)).value.title
      == if IsAgentWindow(cat, d, w) then d.Title(w) else ""
  {
  }

  /** The key `sendWorkspaceForWindow` works from: the tracked session, else the parsed title. */
  function WindowKey(t: Tracker, d: Display, w: WinId): Option<string>
  {
    match SessionForWindow(t, w)
    case Some(s) => Some(s)
    case None => ExtractSessionKey(d.Title(w))
  }

  /**
   * The group name a window's placement is sent under: the part of its key
   * before `#`, or the whole key when that part is empty; with no usable key,
   * the window's title.
   */
  function GroupName(key: Option<string>, title: string): (r: string)
    ensures Truthy(key) ==> r != "" && r <= key.value
    ensures Truthy(key) && GroupOf(key.value) != "" ==> r == GroupOf(key.value)
    ensures !Truthy(key) ==> r == title
  {
    if Truthy(key) then
      if GroupOf(key.value) != "" then GroupOf(key.value) else key.value
    else title
  }

  /** The placement reported for a window: workspace 0 when it has none. */
  function PlacementOf(d: Display, w: WinId): Placement
  {
    Placement(d.Attrs(w).workspace.GetOr(0), d.Attrs(w).monitor)
  }

  /** The group a window's placement is reported under, if it is reported at all. */
  function ReportGroup(cat: Catalog, t: Tracker, d: Display, w: WinId): (r: Option<string>)
    ensures r.Some? ==> r.value != "" && IsAgentWindow(cat, d, w)
  {
    if !IsAgentWindow(cat, d, w) then None
    else
      var g := GroupName(WindowKey(t, d, w), d.Title(w));
      if g == "" then None else Some(g)
  }

  /**
   * `sendWorkspaceForWindow`: report an agent window's placement under its
   * group, unless the cache already holds exactly that placement for the
   * group; each report is recorded in the cache.
   */
  function SendWorkspaceForWindow(f: Focuser, cat: Catalog, t: Tracker, d: Display, w: Option<WinId>):
    (r: (Focuser, seq<IncomingMessage>))
    ensures r.0.originalWorkspace == f.originalWorkspace
    ensures |r.1| <= 1
    ensures r.1 == [] ==> r.0 == f
    ensures r.1 != [] <==>
      w.Some? && ReportGroup(cat, t, d, w.value).Some?
      && (var g := ReportGroup(cat, t, d, w.value).value;
          g !in f.sessionWorkspaces || f.sessionWorkspaces[g] != PlacementOf(d, w.value))
    ensures r.1 != [] ==>
      var g := ReportGroup(cat, t, d, w.value).value;
      var p := PlacementOf(d, w.value);
      && r.1 == [SessionWorkspace(g, p.workspace, p.monitor)]
      && r.0.sessionWorkspaces == f.sessionWorkspaces[g := p]
  {
    if w.None? then (f, [])
    else match ReportGroup(cat, t, d, w.value)
      case None => (f, [])
      case Some(g) =>
        var p := PlacementOf(d, w.value);
        if g in f.sessionWorkspaces && f.sessionWorkspaces[g] == p then (f, [])
        else (f.(sessionWorkspaces := f.sessionWorkspaces[g := p]), [SessionWorkspace(g, p.workspace, p.monitor)])
  }

  /** Reporting the same window twice in a row sends nothing the second time. */
  lemma SendWorkspaceIdempotent(f: Focuser, cat: Catalog, t: Tracker, d: Display, w: Option<WinId>)
    ensures var f1 := SendWorkspaceForWindow(f, cat, t, d, w).0;
      SendWorkspaceForWindow(f1, cat, t, d, w) == (f1, [])
  {
  }

  /** `resetWorkspaceCache`. */
  function ResetWorkspaceCache(f: Focuser): (r: Focuser)
    ensures r.sessionWorkspaces == map[]
    ensures r.originalWorkspace == f.originalWorkspace
  {
    f.(sessionWorkspaces := map[])
  }

  /** After a reset every reportable window is reported again, whatever was sent before. */
  lemma ResetReportsAgain(f: Focuser, cat: Catalog, t: Tracker, d: Display, w: WinId)
    requires ReportGroup(cat, t, d, w).Some?
    ensures var p := PlacementOf(d, w);
      SendWorkspaceForWindow(ResetWorkspaceCache(f), cat, t, d, Some(w)).1
        == [SessionWorkspace(ReportGroup(cat, t, d, w).value, p.workspace, p.monitor)]
  {
  }

  /**
   * `sendAllWorkspaces`: report every window the shell lists, in order.
   * Every reportable window's group ends up in the cache, and every group
   * the cache gained was reported.
   */
  function SendAll(f: Focuser, cat: Catalog, t: Tracker, d: Display, ws: seq<WinId>): (r: (Focuser, seq<IncomingMessage>))
    ensures r.0.originalWorkspace == f.originalWorkspace
    ensures |r.1| <= |ws|
    ensures f.sessionWorkspaces.Keys <= r.0.sessionWorkspaces.Keys
    ensures forall m :: m in r.1 ==> m.SessionWorkspace?
    ensures forall w :: w in ws && ReportGroup(cat, t, d, w).Some? ==>
      ReportGroup(cat, t, d, w).value in r.0.sessionWorkspaces
    ensures forall g :: g in r.0.sessionWorkspaces && g !in f.sessionWorkspaces ==>
      exists m :: m in r.1 && m.session == g
    decreases |ws|
  {
    if |ws| == 0 then (f, [])
    else
      var (f1, m1) := SendWorkspaceForWindow(f, cat, t, d, Some(ws[0]));
      var (f2, m2) := SendAll(f1, cat, t, d, ws[1..]);
      assert forall g :: g in f2.sessionWorkspaces && g !in f.sessionWorkspaces ==>
        exists m :: m in m1 + m2 && m.session == g by {
        forall g | g in f2.sessionWorkspaces && g !in f.sessionWorkspaces
          ensures exists m :: m in m1 + m2 && m.session == g
        {
          if g in f1.sessionWorkspaces {
            assert m1 != [] && m1[0] in m1 + m2;
          } else {
            var m :| m in m2 && m.session == g;
            assert m in m1 + m2;
          }
        }
      }
      (f2, m1 + m2)
  }

  function SendAllWorkspaces(f: Focuser, cat: Catalog, t: Tracker, d: Display): (r: (Focuser, seq<IncomingMessage>))
    ensures r.0.originalWorkspace == f.originalWorkspace
    ensures forall m :: m in r.1 ==> m.SessionWorkspace?
  {
    SendAll(f, cat, t, d, d.windows)
  }

  /**
   * After a cache reset, a full pass reports every group that has a
   * reportable window at least once.
   */
  lemma ResetThenSendAllCoversEveryGroup(f: Focuser, cat: Catalog, t: Tracker, d: Display, w: WinId)
    requires w in d.windows && ReportGroup(cat, t, d, w).Some?
    ensures exists m ::
      m in SendAllWorkspaces(ResetWorkspaceCache(f), cat, t, d).1 && m.session == ReportGroup(cat, t, d, w).value
  {
    var f0 := ResetWorkspaceCache(f);
    var r := SendAll(f0, cat, t, d, d.windows);
    var g := ReportGroup(cat, t, d, w).value;
    assert g in r.0.sessionWorkspaces && g !in f0.sessionWorkspaces;
  }
}

=== FILE: handler.dfy ===
/**
 * The daemon's message handler: one incoming message, applied to the session
 * store, yields the new store and a record of effects for the connection
 * layer (a direct reply, an auto-focus event, whether the sender is marked as
 * the GNOME extension, whether a fresh render is broadcast).
 */
module Handler {
  import opened Wrappers
  import opened Text
  import opened Seqs
  import opened Protocol
  import opened SessionOrder
  import opened DaemonState

  datatype Effects = Effects(
    reply: Option<OutgoingMessage>,
    autoFocus: AutoFocusEvent,
    markExtension: bool,
    broadcastRender: bool)

  /** `process`. `order` is the hash map's iteration order over the sessions, `now` the clock. */
  function Process(msg: IncomingMessage, sm: StateManager, order: seq<string>, now: nat): (r: (StateManager, Effects))
    requires IsEnumeration(order, sm.sessions.Keys)
    // which arms broadcast, mark the sender, and reply
    ensures r.1.broadcastRender <==> msg.State? || msg.WindowFocus? || msg.SessionWorkspace?
    ensures r.1.markExtension <==> msg.WindowFocus? || msg.IdleStatus? || msg.AutoFocusConfig?
    ensures r.1.reply.Some? ==> r.1.reply.value.Focus? && (msg.Click? || msg.FocusNext?)
    ensures r.1.autoFocus == Trigger <== msg.IdleStatus? || msg.AutoFocusConfig?
    ensures msg.WindowFocus? || msg.SessionWorkspace? || msg.Click? || msg.FocusNext? ==> r.1.autoFocus == NoEvent
    // per arm
    ensures msg.State? ==>
      var (sm1, ev) := UpdateState(sm, msg.session, msg.state, msg.tool, msg.agentType, now);
      r.0 == sm1 && r.1.autoFocus == ev && r.1.reply.None?
    ensures msg.WindowFocus? ==>
      r.0 == UpdateWindowFocus(sm, order, msg.title, Some(msg.agentType)).0
    ensures msg.SessionWorkspace? ==>
      r.0 == sm.(workspaces := sm.workspaces[GroupOf(msg.session) := Placement(msg.workspace, msg.monitor)])
    ensures msg.Click? ==> r.0 == sm && r.1.reply == Some(Focus(msg.session))
    ensures msg.FocusNext? ==>
      var (sm1, next) := DaemonState.FocusNext(sm, order);
      && r.0 == sm1
      && (r.1.reply.Some? <==> next.Some?)
      && (next.Some? ==> r.1.reply == Some(Focus(next.value)))
    ensures msg.IdleStatus? ==> r.0 == sm.(userIdle := msg.idle)
    ensures msg.AutoFocusConfig? ==>
      r.0 == sm.(autoFocusEnabled := msg.enabled, focusDelayMs := msg.focusDelayMs)
  {
    match msg
    case State(session, state, tool, agentType) =>
      var (sm1, ev) := UpdateState(sm, session, state, tool, agentType, now);
      (sm1, Effects(None, ev, false, true))
    case WindowFocus(title, agentType) =>
      (UpdateWindowFocus(sm, order, title, Some(agentType)).0, Effects(None, NoEvent, true, true))
    case SessionWorkspace(session, workspace, monitor) =>
      (UpdateWorkspace(sm, session, workspace, monitor), Effects(None, NoEvent, false, true))
    case Click(session) =>
      (sm, Effects(Some(Focus(session)), NoEvent, false, false))
    case FocusNext =>
      var (sm1, next) := DaemonState.FocusNext(sm, order);
      var reply := if next.Some? then Some(Focus(next.value)) else None;
      (sm1, Effects(reply, NoEvent, false, false))
    case IdleStatus(idle) =>
      (SetIdle(sm, idle), Effects(None, Trigger, true, false))
    case AutoFocusConfig(enabled, focusDelayMs) =>
      (SetAutoFocusConfig(sm, enabled, focusDelayMs), Effects(None, Trigger, true, false))
  }

  /** Every message keeps the store's invariant. */
  lemma ProcessPreservesValid(msg: IncomingMessage, sm: StateManager, order: seq<string>, now: nat)
    requires IsEnumeration(order, sm.sessions.Keys) && Valid(sm)
    ensures Valid(Process(msg, sm, order, now).0)
  {
    match msg
    case State(session, state, tool, agentType) =>
      UpdateStatePreservesValid(sm, session, state, tool, agentType, now);
    case WindowFocus(title, agentType) =>
      UpdateWindowFocusPreservesValid(sm, order, title, Some(agentType));
    case _ =>
  }

  /** A `focus_next` reply names a session of the most urgent non-empty class. */
  lemma FocusReplyNamesSession(msg: IncomingMessage, sm: StateManager, order: seq<string>, now: nat)
    requires IsEnumeration(order, sm.sessions.Keys)
    requires msg.FocusNext?
    ensures var reply := Process(msg, sm, order, now).1.reply;
      reply.Some? <==> AnyIn(sm, Awaiting) || AnyIn(sm, Completed) || AnyIn(sm, Started)
    ensures var reply := Process(msg, sm, order, now).1.reply;
      reply.Some? ==>
        && reply.value.session in sm.sessions
        && sm.sessions[reply.value.session].state == UrgentClass(sm).value
  {
  }
}

=== FILE: monolith.dfy ===
/**
 * The older single-file extension. Its window tracking, focusing and
 * placement reporting are the same code as the split extension's; what
 * differs is the editor's class list, and that one object owns the socket:
 * the connect and read completions call the reactions directly instead of
 * going through `connected` / `disconnected` / `message-received` signals.
 *
 * The functions here follow the single-file structure; the lemmas show that
 * it behaves exactly as the split link plus view do.
 */
module Monolith {
  import opened Wrappers
  import opened Text
  import opened AgentTypes
  import opened TitleParse
  import opened Desktop
  import opened WindowTracker
  import opened Protocol
  import opened FocusManager
  import opened DaemonClient
  import opened AgentsView

  /** The editor's WM classes in the single-file extension: upper case only. */
  const MonolithCursorClasses: seq<string> := ["Cursor"]

  /** A class that does not contain some character of `sub` does not contain `sub`. */
  lemma MissingCharNotContained(s: string, sub: string, c: char)
    requires c in sub && c !in s
    ensures !Contains(s, sub)
  {
    ContainsIffOccurs(s, sub);
  }

  /**
   * A lower-case `cursor` WM class makes an agent window for the split
   * extension's initial table but not for the single-file one.
   */
  lemma LowerCaseEditorClass()
    ensures IsAgentClass(AgentTypes.Initial(CursorClasses), "cursor")
    ensures !IsAgentClass(AgentTypes.Initial(MonolithCursorClasses), "cursor")
  {
    var split := AgentTypes.Initial(CursorClasses);
    assert Contains("cursor", split.all[0]) by {
      assert split.all[0] == "cursor";
      assert "cursor" <= "cursor";
    }
    var mono := AgentTypes.Initial(MonolithCursorClasses);
    assert mono.all == ["Cursor"];
    MissingCharNotContained("cursor", "Cursor", 'C');
  }

  /** Everything the single object owns: the socket's link and the view's state. */
  datatype Ext = Ext(link: Link, view: View)

  /** A reaction of the object: its new state, desktop commands, and messages written to the socket. */
  datatype Outcome = Outcome(ext: Ext, commands: seq<Command>, sent: seq<IncomingMessage>)

  /**
   * `_onFocusWindowChanged`, with the auto-focus bookkeeping written inline:
   * report focus and placement, then forget the remembered workspace unless
   * the window is an agent window some awaiting agent belongs to.
   */
  function OnFocusWindowChanged(v: View, d: Display): (r: Reaction)
    ensures r.commands == []
    ensures r.view.(focus := v.focus) == v
    ensures d.focusWindow.Some? && v.focus.originalWorkspace.Some? ==>
      (r.view.focus.originalWorkspace.None? <==>
         !IsAgentWindow(v.cat, d, d.focusWindow.value)
         || forall i :: 0 <= i < |v.agents| ==> !AwaitingFor(v.cat, d, d.focusWindow.value, v.agents[i]))
  {
    match d.focusWindow
    case None => Reaction(v, [], [])
    case Some(w) =>
      var focusMsg := SendWindowFocus(v.cat, v.tracker, d, Some(w)).value;
      var (f1, m) := SendWorkspaceForWindow(v.focus, v.cat, v.tracker, d, Some(w));
      var f2 :=
        if f1.originalWorkspace.None? then f1
        else if !IsAgentWindow(v.cat, d, w) then f1.(originalWorkspace := None)
        else if HasAwaiting(v.cat, d, w, v.agents) then f1
        else f1.(originalWorkspace := None);
      Reaction(v.(focus := f2), [], [focusMsg] + m)
  }

  /** The inline bookkeeping is the split extension's `updateOriginalWorkspace`. */
  lemma FocusChangeMatchesSplit(v: View, d: Display)
    ensures OnFocusWindowChanged(v, d) == AgentsView.OnFocusWindowChanged(v, d)
  {
  }

  /** `_onDisconnected`: drop the streams and the agent list, and schedule a retry. */
  function OnDisconnected(e: Ext): (r: Ext)
    ensures !r.link.connected && r.view.agents == []
    ensures r.view.(agents := e.view.agents) == e.view
    ensures r.link.timerSet <==> e.link.timerSet || !e.link.cancelled
    ensures DaemonClient.Inv(e.link) ==> DaemonClient.Inv(r.link) && r.link.timers <= 1
  {
    Ext(ScheduleReconnect(e.link.(connected := false)), e.view.(agents := []))
  }

  /**
   * The connect completion of `_connectToDaemon`: on success the streams are
   * installed, the placement cache is cleared, focus, every placement and the
   * auto-focus settings are sent, and a read is armed; on failure a retry is
   * scheduled unless cancelled.
   */
  function ConnectDone(e: Ext, d: Display, ok: bool): (r: Outcome)
    ensures r.commands == []
    ensures e.link.pendingConnects > 0 && ok && !e.link.cancelled ==>
      && r.ext.link.connected
      && |r.sent| >= 1 && r.sent[|r.sent| - 1] == AutoFocusConfigOf(e.view)
    ensures !(e.link.pendingConnects > 0 && ok && !e.link.cancelled) ==> r.sent == [] && r.ext.view == e.view
  {
    var l := e.link;
    if l.pendingConnects == 0 then Outcome(e, [], [])
    else if ok && !l.cancelled then
      var l1 := l.(pendingConnects := l.pendingConnects - 1, connected := true);
      var v1 := e.view.(focus := e.view.focus.(sessionWorkspaces := map[]));
      var r1 := OnFocusWindowChanged(v1, d);
      var (f2, m2) := SendAllWorkspaces(r1.view.focus, e.view.cat, e.view.tracker, d);
      Outcome(Ext(ReadLoop(l1), r1.view.(focus := f2)), [], r1.sends + m2 + [AutoFocusConfigOf(e.view)])
    else Outcome(e.(link := ScheduleReconnect(l.(pendingConnects := l.pendingConnects - 1))), [], [])
  }

  /**
   * A connect completion does what the split link does, followed by the
   * split view's `connected` reaction when the link announces it.
   */
  lemma ConnectMatchesSplit(e: Ext, d: Display, ok: bool)
    ensures var (l, outs) := ConnectFinished(e.link, ok);
      var r := if outs == [Connected] then AgentsView.OnConnected(e.view, d) else Reaction(e.view, [], []);
      ConnectDone(e, d, ok) == Outcome(Ext(l, r.view), r.commands, r.sends)
  {
    var l := e.link;
    if l.pendingConnects > 0 && ok && !l.cancelled {
      var l1 := l.(pendingConnects := l.pendingConnects - 1, connected := true);
      assert ConnectFinished(l, ok) == (ReadLoop(l1), [Connected]);
      var v1 := e.view.(focus := e.view.focus.(sessionWorkspaces := map[]));
      assert v1 == e.view.(focus := ResetWorkspaceCache(e.view.focus));
      FocusChangeMatchesSplit(v1, d);
      var r1 := OnFocusWindowChanged(v1, d);
      var (f2, m2) := SendAllWorkspaces(r1.view.focus, e.view.cat, e.view.tracker, d);
      assert AgentsView.OnConnected(e.view, d)
        == Reaction(r1.view.(focus := f2), [], r1.sends + m2 + [AutoFocusConfigOf(e.view)]);
      assert ConnectDone(e, d, ok)
        == Outcome(Ext(ReadLoop(l1), r1.view.(focus := f2)), [], r1.sends + m2 + [AutoFocusConfigOf(e.view)]);
    }
  }

  /**
   * The read completion of `_readLoop`: a line is handled and the next read
   * armed; end of stream, or an error while not cancelled, disconnects.
   * `p` is what `JSON.parse` makes of the line.
   */
  function ReadDone(e: Ext, d: Display, outcome: ReadOutcome, p: Parsed): (r: Outcome)
    ensures r.sent == []
    ensures e.link.pendingReads > 0 && !e.link.cancelled && !outcome.Line? ==>
      r.ext.view.agents == [] && !r.ext.link.connected && r.commands == []
    ensures e.link.pendingReads == 0 || e.link.cancelled ==> r.ext.view == e.view && r.commands == []
  {
    var l := e.link;
    if l.pendingReads == 0 then Outcome(e, [], [])
    else
      var l1 := l.(pendingReads := l.pendingReads - 1);
      if l.cancelled then Outcome(e.(link := l1), [], [])
      else match outcome
        case Line(_) =>
          var r := HandleMessage(e.view, d, p);
          Outcome(Ext(ReadLoop(l1), r.view), r.commands, [])
        case Eof => Outcome(OnDisconnected(e.(link := l1)), [], [])
        case ReadError => Outcome(OnDisconnected(e.(link := l1)), [], [])
  }

  /**
   * A read completion does what the split link does, followed by the split
   * view's reaction to the signal the link emits.
   */
  lemma ReadMatchesSplit(e: Ext, d: Display, outcome: ReadOutcome, p: Parsed)
    ensures var (l, outs) := ReadFinished(e.link, outcome);
      var r :=
        if outs == [Disconnected] then AgentsView.OnDisconnected(e.view)
        else if |outs| == 1 && outs[0].MessageReceived? then HandleMessage(e.view, d, p)
        else Reaction(e.view, [], []);
      ReadDone(e, d, outcome, p) == Outcome(Ext(l, r.view), r.commands, r.sends)
  {
  }

  /**
   * The title handler of `_trackWindow`: with a key from the new title, both
   * maps are set and the window's placement is reported at once.
   */
  function OnTitle(v: View, d: Display, w: WinId): (r: Reaction)
    ensures r.commands == []
    ensures r.view.tracker == OnTitleChanged(v.tracker, d, w).0
    ensures |r.sends| <= 1
  {
    var key := ExtractSessionKey(d.Title(w));
    if Subscription(w, TitleNotify) in v.tracker.live && Truthy(key) then
      var t1 := v.tracker.(windowToSession := v.tracker.windowToSession[w := key.value],
                           sessionToWindow := v.tracker.sessionToWindow[key.value := w]);
      var (f, m) := SendWorkspaceForWindow(v.focus, v.cat, t1, d, Some(w));
      Reaction(v.(tracker := t1, focus := f), [], m)
    else Reaction(v, [], [])
  }

  /** Reporting straight from the title handler is the split tracker's callback, wired to the view. */
  lemma TitleMatchesSplit(v: View, d: Display, w: WinId)
    ensures OnTitle(v, d, w) == AgentsView.OnTitle(v, d, w)
  {
    var (t1, events) := OnTitleChanged(v.tracker, d, w);
    if events != [] {
      var v1 := v.(tracker := t1);
      var r1 := OnCallback(v1, d, Tracked(events[0]));
      assert events[1..] == [];
      assert OnTrackerEvents(r1.view, d, events[1..]) == Reaction(r1.view, [], []);
      assert AgentsView.OnTitle(v, d, w) == Reaction(r1.view, [], r1.sends + []);
    }
  }

  /**
   * The unmanaged handler of `_trackWindow`: the same bookkeeping as the
   * split tracker's, with no callback.
   */
  function OnUnmanaged(t: Tracker, w: WinId): (r: Tracker)
    ensures r == WindowTracker.OnUnmanaged(t, w).0
  {
    if Subscription(w, UnmanagedSig) !in t.live then t
    else
      var session := if w in t.windowToSession then t.windowToSession[w] else "";
      Tracker(
        t.windowToSession - {w},
        if session != "" then t.sessionToWindow - {session} else t.sessionToWindow,
        t.tracked - {w},
        t.pending,
        t.live - WindowHandlers(w))
  }
}

=== FILE: protocol.dfy ===
/**
 * The line-delimited JSON protocol between the GNOME client and the daemon,
 * as datatypes. The JSON encoding itself is not modelled.
 */
module Protocol {

  /** An agent's reported state, serialised in lower case (`"awaiting"`, ...). */
  datatype AgentState = Started | Awaiting | Working | Processing | Completed | Ended

  /** One entry of a `render` message. */
  datatype AgentInfo = AgentInfo(
    session: string,
    state: AgentState,
    focused: bool,
    group: nat,
    agentType: string)

  /**
   * Client (and hook) to daemon messages, one constructor per arm the daemon's
   * message handler matches. `WindowFocus.agentType` is `""` when the sender
   * leaves it out, which the GNOME client always does.
   */
  datatype IncomingMessage =
    | State(session: string, state: AgentState, tool: string, agentType: string)
    | WindowFocus(title: string, agentType: string)
    | SessionWorkspace(session: string, workspace: nat, monitor: nat)
    | Click(session: string)
    | FocusNext
    | IdleStatus(idle: bool)
    | AutoFocusConfig(enabled: bool, focusDelayMs: nat)

  /** Daemon to client messages. */
  datatype OutgoingMessage =
    | Render(agents: seq<AgentInfo>)
    | Focus(session: string)
    | AutoFocus(session: string)
    | ReturnWorkspace
}

=== FILE: seqs.dfy ===
/** Sequence helpers: duplicate-freedom, first-match search, filtering and removal. */
module Seqs {
  import opened Wrappers

  predicate NoDup<T(==)>(xs: seq<T>)
  {
    forall i, j :: 0 <= i < j < |xs| ==> xs[i] != xs[j]
  }

  /** Appending a new element keeps a sequence duplicate-free. */
  lemma NoDupAppend<T>(xs: seq<T>, x: T)
    requires NoDup(xs) && x !in xs
    ensures NoDup(xs + [x])
  {
    assert forall i :: 0 <= i < |xs| ==> (xs + [x])[i] == xs[i];
  }

  /** `order` lists every element of `keys` exactly once, as iterating a hash map or set does. */
  predicate IsEnumeration<T(==)>(order: seq<T>, keys: set<T>)
  {
    NoDup(order) && (forall x :: x in order ==> x in keys) && (forall x :: x in keys ==> x in order)
  }

  /** An enumeration of a set is exactly as long as the set is large. */
  lemma {:induction false} EnumerationSize<T>(order: seq<T>, keys: set<T>)
    requires IsEnumeration(order, keys)
    ensures |keys| == |order|
  {
    if |order| > 0 {
      var x := order[0];
      assert order == [x] + order[1..];
      assert x !in order[1..] by {
        forall j | 0 <= j < |order[1..]|
          ensures order[1..][j] != x
        {
          assert order[1..][j] == order[j + 1];
        }
      }
      EnumerationSize(order[1..], keys - {x});
    }
  }

  /** The index of the first element satisfying `p` (`Array.prototype.findIndex`, `Iterator::position`). */
  function FirstIndex<T>(xs: seq<T>, p: T -> bool): (r: Option<nat>)
    ensures r.Some? ==> r.value < |xs| && p(xs[r.value])
    ensures r.Some? ==> forall j :: 0 <= j < r.value ==> !p(xs[j])
    ensures r.None? <==> forall j :: 0 <= j < |xs| ==> !p(xs[j])
    decreases |xs|
  {
    if |xs| == 0 then None
    else if p(xs[0]) then Some(0)
    else match FirstIndex(xs[1..], p)
      case None => None
      case Some(i) => Some(i + 1)
  }

  /** The elements of `xs` satisfying `p`, in their original order (`Iterator::filter`). */
  function Filter<T(==,!new)>(xs: seq<T>, p: T -> bool): (r: seq<T>)
    ensures |r| <= |xs|
    ensures forall x :: x in r <==> x in xs && p(x)
    ensures NoDup(xs) ==> NoDup(r)
    ensures (forall x :: x in xs ==> p(x)) ==> r == xs
    decreases |xs|
  {
    if |xs| == 0 then []
    else
      var rest := Filter(xs[1..], p);
      assert forall x :: x in xs <==> x == xs[0] || x in xs[1..];
      if p(xs[0]) then
        assert NoDup(xs) ==> xs[0] !in xs[1..];
        assert NoDup(xs) ==> NoDup(xs[1..]) by {
          if NoDup(xs) {
            forall i, j | 0 <= i < j < |xs[1..]|
              ensures xs[1..][i] != xs[1..][j]
            {
              assert xs[1..][i] == xs[i + 1] && xs[1..][j] == xs[j + 1];
            }
          }
        }
        [xs[0]] + rest
      else
        assert NoDup(xs) ==> NoDup(xs[1..]) by {
          if NoDup(xs) {
            forall i, j | 0 <= i < j < |xs[1..]|
              ensures xs[1..][i] != xs[1..][j]
            {
              assert xs[1..][i] == xs[i + 1] && xs[1..][j] == xs[j + 1];
            }
          }
        }
        rest
  }

  /** `xs` with every occurrence of `y` removed (`Vec::retain(|s| s != y)`). */
  function RemoveAll<T(==,!new)>(xs: seq<T>, y: T): (r: seq<T>)
    ensures forall x :: x in r <==> x in xs && x != y
    ensures NoDup(xs) ==> NoDup(r)
    ensures y !in xs ==> r == xs
  {
    Filter(xs, x => x != y)
  }
}

=== FILE: session_order.dfy ===
/**
 * The order in which the daemon lists sessions: by the monitor, then the
 * workspace of the session's group, then the session key itself. A group
 * with no known placement sorts as workspace 999 on monitor 0.
 */
module SessionOrder {
  import opened Text
  import opened Seqs

  /** Where a group's windows live: `(workspace, monitor)`. */
  datatype Placement = Placement(workspace: nat, monitor: nat)

  const UnknownPlacement := Placement(999, 0)

  function GetPlacement(workspaces: map<string, Placement>, key: string): Placement
  {
    if key in workspaces then workspaces[key] else UnknownPlacement
  }

  /** `a` sorts strictly before `b` by (monitor, workspace, key). */
  predicate Before(ws: map<string, Placement>, a: string, b: string)
  {
    var pa := GetPlacement(ws, GroupOf(a));
    var pb := GetPlacement(ws, GroupOf(b));
    pa.monitor < pb.monitor
    || (pa.monitor == pb.monitor
        && (pa.workspace < pb.workspace || (pa.workspace == pb.workspace && StrLess(a, b))))
  }

  lemma BeforeIrreflexive(ws: map<string, Placement>, a: string)
    ensures !Before(ws, a, a)
  {
    StrLessIrreflexive(a);
  }

  lemma BeforeTransitive(ws: map<string, Placement>, a: string, b: string, c: string)
    requires Before(ws, a, b) && Before(ws, b, c)
    ensures Before(ws, a, c)
  {
    if StrLess(a, b) && StrLess(b, c) {
      StrLessTransitive(a, b, c);
    }
  }

  /** Two different keys are always ordered one way or the other. */
  lemma BeforeTotal(ws: map<string, Placement>, a: string, b: string)
    requires a != b
    ensures Before(ws, a, b) || Before(ws, b, a)
  {
    StrLessTotal(a, b);
  }

  lemma BeforeAsymmetric(ws: map<string, Placement>, a: string, b: string)
    requires Before(ws, a, b)
    ensures !Before(ws, b, a)
  {
    if Before(ws, b, a) {
      BeforeTransitive(ws, a, b, a);
      BeforeIrreflexive(ws, a);
    }
  }

  predicate StrictlySorted(ws: map<string, Placement>, xs: seq<string>)
  {
    forall i, j :: 0 <= i < j < |xs| ==> Before(ws, xs[i], xs[j])
  }

  /** Inserts a new key into a strictly sorted sequence at its place. */
  function Insert(ws: map<string, Placement>, x: string, xs: seq<string>): (r: seq<string>)
    requires StrictlySorted(ws, xs) && x !in xs
    ensures StrictlySorted(ws, r)
    ensures |r| == |xs| + 1
    ensures forall y :: y in r <==> y == x || y in xs
    decreases |xs|
  {
    if |xs| == 0 then [x]
    else if Before(ws, x, xs[0]) then
      assert forall j :: 0 <= j < |xs| ==> Before(ws, x, xs[j]) by {
        forall j | 0 < j < |xs|
          ensures Before(ws, x, xs[j])
        {
          BeforeTransitive(ws, x, xs[0], xs[j]);
        }
      }
      [x] + xs
    else
      BeforeTotal(ws, x, xs[0]);
      var rest := Insert(ws, x, xs[1..]);
      assert forall y :: y in rest ==> Before(ws, xs[0], y) by {
        forall y | y in rest
          ensures Before(ws, xs[0], y)
        {
          if y != x {
            var j :| 0 <= j < |xs[1..]| && xs[1..][j] == y;
            assert y == xs[j + 1];
          }
        }
      }
      [xs[0]] + rest
  }

  /** Rust's `sort_by` with the (monitor, workspace, key) comparator, on distinct keys. */
  function Sort(ws: map<string, Placement>, xs: seq<string>): (r: seq<string>)
    requires NoDup(xs)
    ensures StrictlySorted(ws, r)
    ensures |r| == |xs|
    ensures forall y :: y in r <==> y in xs
    decreases |xs|
  {
    if |xs| == 0 then []
    else
      assert NoDup(xs[1..]) by {
        forall i, j | 0 <= i < j < |xs[1..]|
          ensures xs[1..][i] != xs[1..][j]
        {
          assert xs[1..][i] == xs[i + 1] && xs[1..][j] == xs[j + 1];
        }
      }
      assert xs[0] !in xs[1..];
      Insert(ws, xs[0], Sort(ws, xs[1..]))
  }

  /** A strictly sorted sequence is determined by its elements. */
  lemma {:induction false} SortedUnique(ws: map<string, Placement>, a: seq<string>, b: seq<string>)
    requires StrictlySorted(ws, a) && StrictlySorted(ws, b)
    requires forall y :: y in a <==> y in b
    ensures a == b
    decreases |a|
  {
    assert |b| > 0 ==> b[0] in b;
    if |a| > 0 {
      assert a[0] in b;
      assert |b| > 0;
      if a[0] != b[0] {
        assert b[0] in a;
        var i :| 0 <= i < |a| && a[i] == b[0];
        var j :| 0 <= j < |b| && b[j] == a[0];
        assert Before(ws, a[0], a[i]);
        assert Before(ws, b[0], b[j]);
        BeforeAsymmetric(ws, a[0], b[0]);
      }
      forall y
        ensures y in a[1..] <==> y in b[1..]
      {
        if y in a[1..] {
          var i :| 1 <= i < |a| && a[i] == y;
          assert Before(ws, a[0], y);
          BeforeIrreflexive(ws, y);
          assert y in b && y != b[0];
          var j :| 0 <= j < |b| && b[j] == y;
          assert j != 0;
          assert y == b[1..][j - 1];
        }
        if y in b[1..] {
          var j :| 1 <= j < |b| && b[j] == y;
          assert Before(ws, b[0], y);
          BeforeIrreflexive(ws, y);
          assert y in a && y != a[0];
          var i :| 0 <= i < |a| && a[i] == y;
          assert i != 0;
          assert y == a[1..][i - 1];
        }
      }
      SortedUnique(ws, a[1..], b[1..]);
      assert a == [a[0]] + a[1..] && b == [b[0]] + b[1..];
    }
  }

  /** The sorted order does not depend on the order the keys were enumerated in. */
  lemma SortIgnoresEnumeration(ws: map<string, Placement>, o1: seq<string>, o2: seq<string>)
    requires NoDup(o1) && NoDup(o2)
    requires forall y :: y in o1 <==> y in o2
    ensures Sort(ws, o1) == Sort(ws, o2)
  {
    SortedUnique(ws, Sort(ws, o1), Sort(ws, o2));
  }
}

=== FILE: text.dfy ===
/**
 * The handful of string operations both halves of the system rely on:
 * substring search (`includes` / `contains`), splitting at the first `#`,
 * JavaScript's `trim`, and Rust's byte-wise string ordering.
 */
module Text {

  /** `sub` occurs in `s` starting at index `i`. */
  predicate OccursAt(s: string, sub: string, i: int)
  {
    0 <= i && i + |sub| <= |s| && s[i..i + |sub|] == sub
  }

  /** `s.includes(sub)` in JavaScript, `s.contains(sub)` in Rust. */
  predicate Contains(s: string, sub: string)
    decreases |s|
  {
    sub <= s || (|s| > 0 && Contains(s[1..], sub))
  }

  /** The scanning definition of `Contains` agrees with "occurs at some index". */
  lemma {:induction false} ContainsIffOccurs(s: string, sub: string)
    ensures Contains(s, sub) <==> exists i :: OccursAt(s, sub, i)
    decreases |s|
  {
    if sub <= s {
      assert OccursAt(s, sub, 0);
    } else if |s| > 0 {
      ContainsIffOccurs(s[1..], sub);
      OccursShift(s, sub);
    }
  }

  /** Without a match at 0, `sub` occurs in `s` exactly when it occurs in `s[1..]`. */
  lemma OccursShift(s: string, sub: string)
    requires |s| > 0 && !(sub <= s)
    ensures (exists i :: OccursAt(s[1..], sub, i)) <==> (exists i :: OccursAt(s, sub, i))
  {
    if i :| OccursAt(s[1..], sub, i) {
      assert s[1..][i..i + |sub|] == s[i + 1..i + 1 + |sub|];
      assert OccursAt(s, sub, i + 1);
    }
    if i :| OccursAt(s, sub, i) {
      assert s[1..][i - 1..i - 1 + |sub|] == s[i..i + |sub|];
      assert OccursAt(s[1..], sub, i - 1);
    }
  }

  /** Every string contains the empty string. */
  lemma ContainsEmpty(s: string)
    ensures Contains(s, "")
  {
    assert "" <= s;
  }

  /** `subs.some(c => s.includes(c))` in JavaScript. */
  predicate ContainsAny(s: string, subs: seq<string>)
  {
    exists k :: 0 <= k < |subs| && Contains(s, subs[k])
  }

  /**
   * The text before the first occurrence of `c`, or the whole string when `c`
   * does not occur: `s.split(c)[0]` in JavaScript and
   * `s.split(c).next().unwrap()` in Rust.
   */
  function BeforeFirst(s: string, c: char): (r: string)
    ensures r <= s
    ensures c !in r
    ensures |r| < |s| ==> s[|r|] == c
    decreases |s|
  {
    if |s| == 0 || s[0] == c then [] else [s[0]] + BeforeFirst(s[1..], c)
  }

  /** The group of a session key `group#suffix`: the part before the first `#`. */
  function GroupOf(session: string): string
  {
    BeforeFirst(session, '#')
  }

  /**
   * The characters JavaScript's `trim` and `\s` treat as white space:
   * the WhiteSpace and LineTerminator code points of ECMA-262
   * (tab, vertical tab, form feed, the Unicode space separators, BOM,
   * line feed, carriage return, line and paragraph separators).
   */
  predicate IsSpace(c: char)
  {
    c in {'\t', '\n', '\U{000B}', '\U{000C}', '\r', ' ', '\U{00A0}', '\U{1680}',
          '\U{2000}', '\U{2001}', '\U{2002}', '\U{2003}', '\U{2004}', '\U{2005}',
          '\U{2006}', '\U{2007}', '\U{2008}', '\U{2009}', '\U{200A}', '\U{2028}',
          '\U{2029}', '\U{202F}', '\U{205F}', '\U{3000}', '\U{FEFF}'}
  }

  predicate AllSpace(s: string)
  {
    forall i :: 0 <= i < |s| ==> IsSpace(s[i])
  }

  /** `s` without its leading white space. */
  function TrimStart(s: string): (r: string)
    ensures |r| <= |s| && r == s[|s| - |r|..]
    ensures AllSpace(s[..|s| - |r|])
    ensures |r| == 0 || !IsSpace(r[0])
    decreases |s|
  {
    if |s| > 0 && IsSpace(s[0]) then TrimStart(s[1..]) else s
  }

  /** `s` without its trailing white space. */
  function TrimEnd(s: string): (r: string)
    ensures r <= s
    ensures AllSpace(s[|r|..])
    ensures |r| == 0 || !IsSpace(r[|r| - 1])
    decreases |s|
  {
    if |s| > 0 && IsSpace(s[|s| - 1]) then TrimEnd(s[..|s| - 1]) else s
  }

  /** JavaScript's `String.prototype.trim`. */
  function Trim(s: string): (r: string)
    ensures |r| == 0 || (!IsSpace(r[0]) && !IsSpace(r[|r| - 1]))
    ensures |r| == 0 <==> AllSpace(s)
    ensures exists p :: TrimmedAt(s, r, p)
  {
    var t := TrimStart(s);
    var r := TrimEnd(t);
    TrimSlice(s, t, r);
    assert |r| > 0 ==> r[0] == t[0];
    TrimmedBlank(s, r, |s| - |t|);
    r
  }

  /** A trim is empty exactly when the string is all white space. */
  lemma TrimmedBlank(s: string, r: string, p: int)
    requires TrimmedAt(s, r, p)
    requires |r| == 0 || !IsSpace(r[0])
    ensures |r| == 0 <==> AllSpace(s)
  {
    if |r| == 0 {
      assert s == s[..p] + s[p..];
    } else {
      assert s[p] == r[0];
    }
  }

  /** Appending white space does not change what `TrimEnd` keeps. */
  lemma {:induction false} TrimEndIgnoresTrailingSpace(x: string, w: string)
    requires AllSpace(w)
    ensures TrimEnd(x + w) == TrimEnd(x)
    decreases |w|
  {
    if |w| > 0 {
      var w' := w[..|w| - 1];
      assert (x + w)[..|x + w| - 1] == x + w';
      TrimEndIgnoresTrailingSpace(x, w');
    } else {
      assert x + w == x;
    }
  }

  /** `TrimStart` of `x + w` is `TrimStart(x) + w` unless `x` is all white space. */
  lemma {:induction false} TrimStartOfAppend(x: string, w: string)
    ensures !AllSpace(x) ==> TrimStart(x + w) == TrimStart(x) + w
    ensures AllSpace(x) ==> TrimStart(x + w) == TrimStart(w)
    decreases |x|
  {
    if |x| == 0 {
      assert x + w == w;
    } else {
      assert (x + w)[1..] == x[1..] + w;
      assert (x + w)[0] == x[0];
      TrimStartOfAppend(x[1..], w);
      if !IsSpace(x[0]) {
        assert !AllSpace(x);
      } else {
        assert AllSpace(x) <==> AllSpace(x[1..]) by {
          if AllSpace(x[1..]) {
            forall i | 0 <= i < |x|
              ensures IsSpace(x[i])
            {
              if i > 0 {
                assert x[i] == x[1..][i - 1];
              }
            }
          }
        }
      }
    }
  }

  /** `r` is `s` with only white space removed before index `p` and after `r`. */
  predicate TrimmedAt(s: string, r: string, p: int)
  {
    0 <= p <= p + |r| <= |s| && r == s[p..p + |r|] && AllSpace(s[..p]) && AllSpace(s[p + |r|..])
  }

  lemma TrimSlice(s: string, t: string, r: string)
    requires |t| <= |s| && t == s[|s| - |t|..] && AllSpace(s[..|s| - |t|])
    requires r <= t && AllSpace(t[|r|..])
    ensures TrimmedAt(s, r, |s| - |t|)
  {
    SuffixPrefix(s, t, r);
  }

  lemma SuffixPrefix(s: string, t: string, r: string)
    requires |t| <= |s| && t == s[|s| - |t|..] && r <= t
    ensures r == s[|s| - |t|..|s| - |t| + |r|] && s[|s| - |t| + |r|..] == t[|r|..]
  {
  }

  /** A string without white space at either end is its own trim. */
  lemma TrimKeepsUnpadded(s: string)
    requires |s| == 0 || (!IsSpace(s[0]) && !IsSpace(s[|s| - 1]))
    ensures Trim(s) == s
  {
    var r := Trim(s);
    var p :| TrimmedAt(s, r, p);
    if |s| > 0 {
      assert !IsSpace(s[0]) && !IsSpace(s[|s| - 1]);
      assert p == 0 && p + |r| == |s|;
    }
  }

  /** Trailing white space does not change the result of `Trim`. */
  lemma TrimIgnoresTrailingSpace(x: string, w: string)
    requires AllSpace(w)
    ensures Trim(x + w) == Trim(x)
  {
    TrimStartOfAppend(x, w);
    if AllSpace(x) {
      assert TrimStart(w) == [];
    } else {
      TrimEndIgnoresTrailingSpace(TrimStart(x), w);
    }
  }

  /**
   * Rust's `Ord` on `String`: lexicographic on UTF-8 bytes, which orders
   * strings exactly as lexicographic comparison of their code points does.
   */
  predicate StrLess(a: string, b: string)
    decreases |a|
  {
    if |a| == 0 then |b| > 0
    else if |b| == 0 then false
    else a[0] < b[0] || (a[0] == b[0] && StrLess(a[1..], b[1..]))
  }

  lemma {:induction false} StrLessIrreflexive(a: string)
    ensures !StrLess(a, a)
    decreases |a|
  {
    if |a| > 0 {
      StrLessIrreflexive(a[1..]);
    }
  }

  lemma {:induction false} StrLessTransitive(a: string, b: string, c: string)
    requires StrLess(a, b) && StrLess(b, c)
    ensures StrLess(a, c)
    decreases |a|
  {
    if |a| > 0 && |b| > 0 && |c| > 0 && a[0] == b[0] == c[0] {
      StrLessTransitive(a[1..], b[1..], c[1..]);
    }
  }

  lemma {:induction false} StrLessTotal(a: string, b: string)
    ensures a == b || StrLess(a, b) || StrLess(b, a)
    decreases |a|
  {
    if |a| > 0 && |b| > 0 && a[0] == b[0] {
      StrLessTotal(a[1..], b[1..]);
      if a[1..] == b[1..] {
        assert a == [a[0]] + a[1..] && b == [b[0]] + b[1..];
      }
    }
  }
}

=== FILE: title_parse.dfy ===
/**
 * Reading a session key out of a window title (`extractSessionKey`). Three
 * patterns are tried in a fixed order and the first that matches wins:
 *
 *   - `Argus (X)`  — the title the agent hook sets on its terminal;
 *   - `Zellij (X)` — the title the Zellij multiplexer shows;
 *   - `X | ...`    — the text before the first bar, trimmed.
 *
 * Each pattern is specified here by what the regular expression matches
 * (`ParenMatch`, `PipeMatch`) and implemented by a scan; the two are proved
 * to agree.
 */
module TitleParse {
  import opened Wrappers
  import opened Text
  import opened Seqs

  const ArgusMarker: string := "Argus ("
  const ZellijMarker: string := "Zellij ("

  // ---- the bracket patterns `Argus \(([^)]+)\)` and `Zellij \(([^)]+)\)` ----

  /**
   * The pattern with opening `m` matches at `i` and its closing bracket is
   * at `k`: after `m` comes a non-empty run free of `)`, then `)`.
   */
  predicate ParenMatch(t: string, m: string, i: int, k: int)
  {
    && OccursAt(t, m, i)
    && i + |m| < k < |t|
    && t[k] == ')'
    && forall j :: i + |m| <= j < k ==> t[j] != ')'
  }

  /** No match of the pattern starts before `i`: the regex engine reports the leftmost match. */
  ghost predicate NoParenBefore(t: string, m: string, i: int)
  {
    forall i', k' :: i' < i ==> !ParenMatch(t, m, i', k')
  }

  /** The first `)` at or after `j`. */
  function CloseFrom(t: string, j: nat): (r: Option<nat>)
    requires j <= |t|
    ensures r.Some? ==> j <= r.value < |t| && t[r.value] == ')'
    ensures r.Some? ==> forall x :: j <= x < r.value ==> t[x] != ')'
    ensures r.None? ==> forall x :: j <= x < |t| ==> t[x] != ')'
    decreases |t| - j
  {
    if j == |t| then None
    else if t[j] == ')' then Some(j)
    else CloseFrom(t, j + 1)
  }

  /** The capture of the leftmost match starting at `i` or later. */
  function ParenFrom(t: string, m: string, i: nat): (r: Option<string>)
    requires i <= |t|
    ensures r.None? <==> forall i', k :: i <= i' ==> !ParenMatch(t, m, i', k)
    ensures r.Some? ==>
      exists i', k :: i <= i' && ParenMatch(t, m, i', k) && r.value == t[i' + |m|..k]
        && forall i'', k' :: i <= i'' < i' ==> !ParenMatch(t, m, i'', k')
    decreases |t| - i
  {
    if i + |m| >= |t| then None
    else
      var close := CloseFrom(t, i + |m|);
      if OccursAt(t, m, i) && close.Some? && close.value > i + |m| then
        assert ParenMatch(t, m, i, close.value);
        Some(t[i + |m|..close.value])
      else
        assert forall k :: !ParenMatch(t, m, i, k);
        ParenFrom(t, m, i + 1)
  }

  /** A bracket pattern applied to the whole title. */
  function ParenRule(t: string, m: string): (r: Option<string>)
    ensures r.None? <==> forall i, k :: !ParenMatch(t, m, i, k)
    ensures forall i, k :: ParenMatch(t, m, i, k) && NoParenBefore(t, m, i) ==> r == Some(t[i + |m|..k])
  {
    var r := ParenFrom(t, m, 0);
    assert forall i, k :: ParenMatch(t, m, i, k) ==> 0 <= i;
    forall i, k | ParenMatch(t, m, i, k) && NoParenBefore(t, m, i)
      ensures r == Some(t[i + |m|..k])
    {
      var i', k' :| 0 <= i' && ParenMatch(t, m, i', k') && r.value == t[i' + |m|..k']
        && forall i'', k'' :: 0 <= i'' < i' ==> !ParenMatch(t, m, i'', k'');
      ParenMatchUnique(t, m, i, k, i', k');
    }
    r
  }

  /** The leftmost match is unique: its start is the least start and its end the first `)`. */
  lemma ParenMatchUnique(t: string, m: string, i: int, k: int, i': int, k': int)
    requires ParenMatch(t, m, i, k) && NoParenBefore(t, m, i)
    requires ParenMatch(t, m, i', k') && 0 <= i' && forall i'', k'' :: 0 <= i'' < i' ==> !ParenMatch(t, m, i'', k'')
    ensures i == i' && k == k'
  {
    assert i' >= i && i >= i';
    assert !(k < k') by {
      assert i + |m| <= k;
    }
    assert !(k' < k) by {
      assert i' + |m| <= k';
    }
  }

  /** What a bracket pattern captures is non-empty and free of `)`. */
  lemma ParenCaptureShape(t: string, m: string)
    requires ParenRule(t, m).Some?
    ensures |ParenRule(t, m).value| > 0 && ')' !in ParenRule(t, m).value
  {
    var r := ParenFrom(t, m, 0);
    assert ParenRule(t, m) == r;
    var i, k :| 0 <= i && ParenMatch(t, m, i, k) && r.value == t[i + |m|..k];
    var c := t[i + |m|..k];
    forall x | 0 <= x < |c|
      ensures c[x] != ')'
    {
      assert c[x] == t[i + |m| + x];
    }
  }

  /** When the pattern matches anywhere, it has a leftmost match. */
  lemma LeftmostParenExists(t: string, m: string)
    requires ParenRule(t, m).Some?
    ensures exists i, k :: ParenMatch(t, m, i, k) && NoParenBefore(t, m, i)
  {
    var r := ParenFrom(t, m, 0);
    var i, k :| 0 <= i && ParenMatch(t, m, i, k) && r.value == t[i + |m|..k]
      && forall i'', k' :: 0 <= i'' < i ==> !ParenMatch(t, m, i'', k');
    assert forall i'', k' :: i'' < 0 ==> !ParenMatch(t, m, i'', k');
    assert NoParenBefore(t, m, i);
  }

  // ---- the bar pattern `^([^|]+?)\s*\|`, then `trim` ----

  /** `k` is the position of the first `|` in `t`. */
  predicate FirstBar(t: string, k: int)
  {
    0 <= k < |t| && t[k] == '|' && forall j :: 0 <= j < k ==> t[j] != '|'
  }

  /**
   * The bar pattern matches with capture `t[..n]` and bar at `k`: the lazy
   * group takes the shortest non-empty prefix after which only spaces
   * precede the bar.
   */
  predicate PipeMatch(t: string, n: int, k: int)
  {
    && 1 <= n <= k
    && FirstBar(t, k)
    && AllSpace(t[n..k])
    && forall n' :: 1 <= n' < n ==> !AllSpace(t[n'..k])
  }

  /** The bar rule as implemented by a scan: the text before the first bar, trimmed. */
  function PipeRule(t: string): (r: Option<string>)
    ensures r.Some? <==> exists k :: FirstBar(t, k) && k >= 1
    ensures forall k :: FirstBar(t, k) && k >= 1 ==> r == Some(Trim(t[..k]))
  {
    match FirstIndex(t, c => c == '|')
    case Some(k) =>
      if k >= 1 then
        assert FirstBar(t, k);
        assert forall k' :: FirstBar(t, k') ==> k' == k;
        Some(Trim(t[..k]))
      else
        assert forall k' :: FirstBar(t, k') ==> k' == k;
        None
    case None => None
  }

  /** The shortest `n` in `[from, k]` with only spaces between `n` and `k`. */
  function LazyEnd(t: string, k: nat, from: nat): (n: nat)
    requires 1 <= from <= k <= |t|
    ensures from <= n <= k && AllSpace(t[n..k])
    ensures forall n' :: from <= n' < n ==> !AllSpace(t[n'..k])
    decreases k - from
  {
    if AllSpace(t[from..k]) then from else LazyEnd(t, k, from + 1)
  }

  /**
   * The scan agrees with the regular expression: the bar pattern matches
   * exactly when the scan finds a key, and trimming the lazy capture gives the
   * same text as trimming everything before the bar.
   */
  lemma PipeRuleIsLazyCapture(t: string)
    ensures PipeRule(t).Some? <==> exists n, k :: PipeMatch(t, n, k)
    ensures forall n, k :: PipeMatch(t, n, k) ==> PipeRule(t) == Some(Trim(t[..n]))
  {
    if k :| FirstBar(t, k) && k >= 1 {
      var n := LazyEnd(t, k, 1);
      assert PipeMatch(t, n, k);
    }
    forall n, k | PipeMatch(t, n, k)
      ensures PipeRule(t) == Some(Trim(t[..n]))
    {
      assert t[..k] == t[..n] + t[n..k];
      TrimIgnoresTrailingSpace(t[..n], t[n..k]);
    }
  }

  // ---- the chain ----

  /** `extractSessionKey`: the first of the three patterns that matches. */
  function ExtractSessionKey(title: string): (r: Option<string>)
    ensures r.None? <==>
      && (forall i, k :: !ParenMatch(title, ArgusMarker, i, k))
      && (forall i, k :: !ParenMatch(title, ZellijMarker, i, k))
      && (forall k :: FirstBar(title, k) ==> k == 0)
    ensures forall i, k :: ParenMatch(title, ArgusMarker, i, k) && NoParenBefore(title, ArgusMarker, i) ==>
      r == Some(title[i + |ArgusMarker|..k])
    ensures (forall i, k :: !ParenMatch(title, ArgusMarker, i, k)) ==>
      forall i, k :: ParenMatch(title, ZellijMarker, i, k) && NoParenBefore(title, ZellijMarker, i) ==>
        r == Some(title[i + |ZellijMarker|..k])
    ensures (forall i, k :: !ParenMatch(title, ArgusMarker, i, k) && !ParenMatch(title, ZellijMarker, i, k)) ==>
      forall k :: FirstBar(title, k) && k >= 1 ==> r == Some(Trim(title[..k]))
  {
    match ParenRule(title, ArgusMarker)
    case Some(key) => Some(key)
    case None =>
      match ParenRule(title, ZellijMarker)
      case Some(key) => Some(key)
      case None => PipeRule(title)
  }

  /** JavaScript truthiness of an optional string: `null` and `''` are false. */
  predicate Truthy(s: Option<string>)
  {
    s.Some? && s.value != ""
  }

  // ---- the title formats the system meets ----

  /** A bracket pattern never matches a title that lacks one of its opening characters. */
  lemma AbsentCharNoMatch(t: string, m: string, c: char)
    requires c in m && c !in t
    ensures forall i, k :: !ParenMatch(t, m, i, k)
  {
  }

  /** The title the agent hook gives its terminal. */
  lemma HookTitle()
    ensures ExtractSessionKey("Argus (proj#1)") == Some("proj#1")
  {
    var t := "Argus (proj#1)";
    assert t[0..7] == ArgusMarker;
    assert ParenMatch(t, ArgusMarker, 0, 13);
    assert t[7..13] == "proj#1";
  }

  /** The title of a Zellij session. */
  lemma ZellijTitle()
    ensures ExtractSessionKey("Zellij (work#2)") == Some("work#2")
  {
    var t := "Zellij (work#2)";
    AbsentCharNoMatch(t, ArgusMarker, 'A');
    assert t[0..8] == ZellijMarker;
    assert ParenMatch(t, ZellijMarker, 0, 14);
    assert t[8..14] == "work#2";
  }

  /** A `key | rest` title. */
  lemma BarTitle()
    ensures ExtractSessionKey("proj#1 | file.py") == Some("proj#1")
  {
    var t := "proj#1 | file.py";
    AbsentCharNoMatch(t, ArgusMarker, '(');
    AbsentCharNoMatch(t, ZellijMarker, '(');
    assert FirstBar(t, 7) by {
      assert t[7] == '|';
      forall j | 0 <= j < 7 ensures t[j] != '|' { assert t[..7][j] == t[j]; }
    }
    PipeFallback(t, 7);
    TrimOfKeyAndBlank();
  }

  /** With neither parenthesised pattern matching, the key is the trimmed text before the first bar. */
  lemma PipeFallback(t: string, k: int)
    requires (forall i, j :: !ParenMatch(t, ArgusMarker, i, j)) && (forall i, j :: !ParenMatch(t, ZellijMarker, i, j))
    requires FirstBar(t, k) && k >= 1
    ensures ExtractSessionKey(t) == Some(Trim(t[..k]))
  {
  }

  lemma TrimWordSpace(x: string)
    requires |x| > 0 && !IsSpace(x[0]) && !IsSpace(x[|x| - 1])
    ensures Trim(x + " ") == x
  {
    TrimIgnoresTrailingSpace(x, " ");
    TrimKeepsUnpadded(x);
  }

  lemma TrimOfKeyAndBlank()
    ensures Trim("proj#1 | file.py"[..7]) == "proj#1"
  {
    assert "proj#1 | file.py"[..7] == "proj#1" + " ";
    TrimWordSpace("proj#1");
  }

  /**
   * The editor's own title format (`file — project — Cursor`) carries no
   * key: no pattern matches it.
   */
  lemma EditorTitleHasNoKey()
    ensures ExtractSessionKey("main.py \U{2014} my-project \U{2014} Cursor") == None
  {
    var t := "main.py \U{2014} my-project \U{2014} Cursor";
    AbsentCharNoMatch(t, ArgusMarker, '(');
    AbsentCharNoMatch(t, ZellijMarker, '(');
    assert '|' !in t;
  }

  /** Only blanks before the bar give the empty key, which callers treat as no key. */
  lemma BlankBeforeBar()
    ensures ExtractSessionKey("  | x") == Some("")
    ensures !Truthy(ExtractSessionKey("  | x"))
  {
    var t := "  | x";
    AbsentCharNoMatch(t, ArgusMarker, '(');
    AbsentCharNoMatch(t, ZellijMarker, '(');
    assert FirstBar(t, 2);
    assert AllSpace(t[..2]);
  }
}

=== FILE: window_tracker.dfy ===
/**
 * The window tracker: which windows are agent windows, which signal
 * handlers the client has connected to each, and the two maps between
 * windows and the session keys read from their titles.
 *
 * Signal delivery is modelled by the `On...` functions: each runs the
 * handler only when a subscription for that window and signal is live, and
 * returns the callbacks the handler fires.
 */
module WindowTracker {
  import opened Wrappers
  import opened Text
  import opened AgentTypes
  import opened TitleParse
  import opened Desktop

  datatype Signal = WmClassNotify | WorkspaceChangedSig | TitleNotify | UnmanagedSig

  datatype Subscription = Subscription(win: WinId, signal: Signal)

  /** The callbacks the tracker fires. */
  datatype TrackerEvent =
    | WindowTracked(win: WinId, session: string)
    | WorkspaceChanged
    | WindowUnmanaged(session: string)

  /**
   * `windowToSession` and `sessionToWindow` are the two maps; `tracked` holds
   * the windows with handlers connected; `pending` the windows waiting for a
   * WM class; `live` every connected handler.
   */
  datatype Tracker = Tracker(
    windowToSession: map<WinId, string>,
    sessionToWindow: map<string, WinId>,
    tracked: set<WinId>,
    pending: set<WinId>,
    live: multiset<Subscription>)

  const Empty: Tracker := Tracker(map[], map[], {}, {}, multiset{})

  /** The three handlers connected to a tracked window. */
  function WindowHandlers(w: WinId): multiset<Subscription>
  {
    multiset{Subscription(w, WorkspaceChangedSig), Subscription(w, TitleNotify), Subscription(w, UnmanagedSig)}
  }

  /**
   * At most one WM-class handler per window, exactly while it is pending;
   * one of each other handler per tracked window and none otherwise; only
   * tracked windows have sessions; and no session key is empty.
   */
  ghost predicate Valid(t: Tracker)
  {
    && (forall w :: t.live[Subscription(w, WmClassNotify)] == if w in t.pending then 1 else 0)
    && (forall w, sig :: sig != WmClassNotify ==> t.live[Subscription(w, sig)] == if w in t.tracked then 1 else 0)
    && t.windowToSession.Keys <= t.tracked
    && (forall w :: w in t.windowToSession ==> t.windowToSession[w] != "")
    && (forall s :: s in t.sessionToWindow ==> s != "")
  }

  lemma EmptyValid()
    ensures Valid(Empty)
  {
  }

  /** `isAgentWindow`: with a consistent catalog, exactly the windows some agent type claims. */
  predicate IsAgentWindow(cat: Catalog, d: Display, w: WinId): (r: bool)
    ensures AgentTypes.Valid(cat) ==> (r <==> AgentTypeForWindow(cat, d, w).Some?)
  {
    assert AgentTypes.Valid(cat) ==> (IsAgentClass(cat, d.WmClass(w)) <==> AgentTypeFor(cat, d.WmClass(w)).Some?) by {
      if AgentTypes.Valid(cat) {
        AgentIffTyped(cat, d.WmClass(w));
      }
    }
    IsAgentClass(cat, d.WmClass(w))
  }

  /**
   * `getAgentTypeForWindow`: the first type in enumeration order one of whose
   * classes occurs in the window's class.
   */
  function AgentTypeForWindow(cat: Catalog, d: Display, w: WinId): (r: Option<TypeName>)
    ensures r.Some? ==> ContainsAny(d.WmClass(w), cat.ClassesOf(r.value))
    ensures r == Some(Claude) <==> ContainsAny(d.WmClass(w), cat.claude)
    ensures r.None? <==> forall t: TypeName :: !ContainsAny(d.WmClass(w), cat.ClassesOf(t))
  {
    AgentTypeFor(cat, d.WmClass(w))
  }

  /** `getWindowForSession`. */
  function WindowForSession(t: Tracker, session: string): (r: Option<WinId>)
    ensures r.Some? <==> session in t.sessionToWindow
    ensures r.Some? ==> r.value == t.sessionToWindow[session]
  {
    if session in t.sessionToWindow then Some(t.sessionToWindow[session]) else None
  }

  /** `getSessionForWindow`: an empty key reads as none. */
  function SessionForWindow(t: Tracker, w: WinId): (r: Option<string>)
    ensures r.Some? <==> w in t.windowToSession && t.windowToSession[w] != ""
    ensures r.Some? ==> r.value == t.windowToSession[w]
  {
    if w in t.windowToSession && t.windowToSession[w] != "" then Some(t.windowToSession[w]) else None
  }

  /**
   * `_trackWindow`: a window without a WM class is parked until it gets
   * one; an agent window not yet tracked gets its three handlers; anything
   * else is left alone.
   */
  function TrackWindow(t: Tracker, cat: Catalog, d: Display, w: WinId): (r: Tracker)
    ensures r.windowToSession == t.windowToSession && r.sessionToWindow == t.sessionToWindow
    ensures d.WmClass(w) == "" ==>
      && r.tracked == t.tracked && r.pending == t.pending + {w}
      && r.live == t.live + (if w in t.pending then multiset{} else multiset{Subscription(w, WmClassNotify)})
    ensures d.WmClass(w) != "" && (!IsAgentWindow(cat, d, w) || w in t.tracked) ==> r == t
    ensures d.WmClass(w) != "" && IsAgentWindow(cat, d, w) && w !in t.tracked ==>
      r.pending == t.pending && r.tracked == t.tracked + {w} && r.live == t.live + WindowHandlers(w)
  {
    if d.WmClass(w) == "" then
      if w in t.pending then t
      else t.(pending := t.pending + {w}, live := t.live + multiset{Subscription(w, WmClassNotify)})
    else if !IsAgentWindow(cat, d, w) || w in t.tracked then t
    else t.(tracked := t.tracked + {w}, live := t.live + WindowHandlers(w))
  }

  lemma TrackWindowPreservesValid(t: Tracker, cat: Catalog, d: Display, w: WinId)
    requires Valid(t)
    ensures Valid(TrackWindow(t, cat, d, w))
  {
  }

  /** Tracking a window twice is the same as tracking it once. */
  lemma TrackWindowIdempotent(t: Tracker, cat: Catalog, d: Display, w: WinId)
    ensures TrackWindow(TrackWindow(t, cat, d, w), cat, d, w) == TrackWindow(t, cat, d, w)
  {
  }

  /** `rescan` (and the scan at start-up): track every window the shell lists. */
  function TrackAll(t: Tracker, cat: Catalog, d: Display, ws: seq<WinId>): (r: Tracker)
    ensures r.windowToSession == t.windowToSession && r.sessionToWindow == t.sessionToWindow
    ensures t.tracked <= r.tracked && t.pending <= r.pending
    ensures forall w :: w in ws && d.WmClass(w) != "" && IsAgentWindow(cat, d, w) ==> w in r.tracked
    ensures forall w :: w in ws && d.WmClass(w) == "" ==> w in r.pending
    ensures forall w :: w in r.tracked - t.tracked ==> w in ws && IsAgentWindow(cat, d, w)
    ensures Valid(t) ==> Valid(r)
    decreases |ws|
  {
    if |ws| == 0 then t
    else
      var t1 := TrackWindow(t, cat, d, ws[0]);
      assert Valid(t) ==> Valid(t1) by {
        if Valid(t) {
          TrackWindowPreservesValid(t, cat, d, ws[0]);
        }
      }
      TrackAll(t1, cat, d, ws[1..])
  }

  function Rescan(t: Tracker, cat: Catalog, d: Display): (r: Tracker)
    ensures forall w :: w in d.windows && IsAgentWindow(cat, d, w) && d.WmClass(w) != "" ==> w in r.tracked
    ensures Valid(t) ==> Valid(r)
  {
    TrackAll(t, cat, d, d.windows)
  }

  /**
   * The WM-class handler of a parked window: it disconnects itself, takes
   * the window off the waiting list and tries to track it again.
   */
  function OnWmClassChanged(t: Tracker, cat: Catalog, d: Display, w: WinId): (r: Tracker)
    ensures Subscription(w, WmClassNotify) !in t.live ==> r == t
    ensures Valid(t) && w in t.pending ==>
      r == TrackWindow(t.(pending := t.pending - {w}, live := t.live - multiset{Subscription(w, WmClassNotify)}), cat, d, w)
    ensures Valid(t) ==> Valid(r)
  {
    if Subscription(w, WmClassNotify) !in t.live then t
    else
      var t1 := t.(pending := t.pending - {w}, live := t.live - multiset{Subscription(w, WmClassNotify)});
      assert Valid(t) ==> Valid(t1) by {
        if Valid(t) {
          forall w' ensures t1.live[Subscription(w', WmClassNotify)] == if w' in t1.pending then 1 else 0 {
            if w' == w {
              assert t.live[Subscription(w, WmClassNotify)] == 1;
            }
          }
        }
      }
      assert Valid(t1) ==> Valid(TrackWindow(t1, cat, d, w)) by {
        if Valid(t1) {
          TrackWindowPreservesValid(t1, cat, d, w);
        }
      }
      TrackWindow(t1, cat, d, w)
  }

  /**
   * The title handler: when the new title yields a (non-empty) key, both maps
   * point at each other for this window and key, and the tracked callback
   * fires; otherwise nothing happens.
   */
  function OnTitleChanged(t: Tracker, d: Display, w: WinId): (r: (Tracker, seq<TrackerEvent>))
    ensures Subscription(w, TitleNotify) !in t.live || !Truthy(ExtractSessionKey(d.Title(w))) ==> r == (t, [])
    ensures Subscription(w, TitleNotify) in t.live && Truthy(ExtractSessionKey(d.Title(w))) ==>
      var s := ExtractSessionKey(d.Title(w)).value;
      && r.0.windowToSession == t.windowToSession[w := s]
      && r.0.sessionToWindow == t.sessionToWindow[s := w]
      && r.0.(windowToSession := t.windowToSession, sessionToWindow := t.sessionToWindow) == t
      && r.1 == [WindowTracked(w, s)]
  {
    var key := ExtractSessionKey(d.Title(w));
    if Subscription(w, TitleNotify) in t.live && Truthy(key) then
      (t.(windowToSession := t.windowToSession[w := key.value],
          sessionToWindow := t.sessionToWindow[key.value := w]),
       [WindowTracked(w, key.value)])
    else (t, [])
  }

  lemma OnTitleChangedPreservesValid(t: Tracker, d: Display, w: WinId)
    requires Valid(t)
    ensures Valid(OnTitleChanged(t, d, w).0)
  {
    if Subscription(w, TitleNotify) in t.live {
      assert t.live[Subscription(w, TitleNotify)] > 0;
    }
  }

  /**
   * The unmanaged handler: all three handlers are disconnected, the window
   * leaves both maps through its own session key, and the unmanaged callback
   * fires when it had a session.
   */
  function OnUnmanaged(t: Tracker, w: WinId): (r: (Tracker, seq<TrackerEvent>))
    ensures Subscription(w, UnmanagedSig) !in t.live ==> r == (t, [])
    ensures Subscription(w, UnmanagedSig) in t.live ==>
      && r.0.windowToSession == t.windowToSession - {w}
      && r.0.tracked == t.tracked - {w}
      && r.0.pending == t.pending
      && r.0.live == t.live - WindowHandlers(w)
      && (w in t.windowToSession && t.windowToSession[w] != "" ==>
            r.0.sessionToWindow == t.sessionToWindow - {t.windowToSession[w]}
            && r.1 == [WindowUnmanaged(t.windowToSession[w])])
      && (w !in t.windowToSession || t.windowToSession[w] == "" ==>
            r.0.sessionToWindow == t.sessionToWindow && r.1 == [])
  {
    if Subscription(w, UnmanagedSig) !in t.live then (t, [])
    else
      var session := if w in t.windowToSession then t.windowToSession[w] else "";
      var t1 := t.(sessionToWindow := if session != "" then t.sessionToWindow - {session} else t.sessionToWindow,
                   windowToSession := t.windowToSession - {w},
                   tracked := t.tracked - {w},
                   live := t.live - WindowHandlers(w));
      (t1, if session != "" then [WindowUnmanaged(session)] else [])
  }

  lemma OnUnmanagedPreservesValid(t: Tracker, w: WinId)
    requires Valid(t)
    ensures Valid(OnUnmanaged(t, w).0)
    ensures Subscription(w, UnmanagedSig) in t.live ==>
      forall sig :: OnUnmanaged(t, w).0.live[Subscription(w, sig)] == if sig == WmClassNotify && w in t.pending then 1 else 0
  {
    if Subscription(w, UnmanagedSig) in t.live {
      assert t.live[Subscription(w, UnmanagedSig)] > 0;
      assert w in t.tracked;
    }
  }

  /** The workspace handler forwards to the workspace callback. */
  function OnWorkspaceChangedSignal(t: Tracker, w: WinId): (r: seq<TrackerEvent>)
    ensures r == [] || r == [WorkspaceChanged]
    ensures Valid(t) ==> (r == [WorkspaceChanged] <==> w in t.tracked)
  {
    if Subscription(w, WorkspaceChangedSig) in t.live then [WorkspaceChanged] else []
  }

  // ---- the maps are not kept symmetric ----

  /**
   * A retitled window keeps its old key's reverse entry: after the title
   * switches a window from `s1` to `s2`, `sessionToWindow` still maps `s1`
   * to it.
   */
  lemma RetitleLeavesOldEntry(t: Tracker, d: Display, w: WinId, s1: string)
    requires Subscription(w, TitleNotify) in t.live
    requires s1 in t.sessionToWindow && t.sessionToWindow[s1] == w
    requires Truthy(ExtractSessionKey(d.Title(w))) && ExtractSessionKey(d.Title(w)).value != s1
    ensures var r := OnTitleChanged(t, d, w).0;
      && r.windowToSession[w] != s1
      && s1 in r.sessionToWindow && r.sessionToWindow[s1] == w
  {
  }

  /**
   * When a key has moved on to another window, closing the window that first
   * had it still deletes the key's reverse entry, so the other window loses
   * it.
   */
  lemma UnmanagedDropsReboundKey(t: Tracker, w: WinId, w2: WinId, s: string)
    requires Subscription(w, UnmanagedSig) in t.live
    requires w in t.windowToSession && t.windowToSession[w] == s && s != ""
    requires s in t.sessionToWindow && t.sessionToWindow[s] == w2 && w2 != w
    ensures s !in OnUnmanaged(t, w).0.sessionToWindow
  {
  }
}

=== FILE: wrappers.dfy ===
/** Optional values, standing in for JavaScript's `null`/`undefined` and Rust's `Option`. */
module Wrappers {

  datatype Option<+T> = None | Some(value: T) {

    /** The wrapped value, or `default` when there is none. */
    function GetOr(default: T): T {
      match this
      case Some(v) => v
      case None => default
    }
  }
}
